=== FILE: README.md ===
# Unity project CI checks, modelled in Dafny

The repository ships four stand-alone checks that a Unity project runs in CI.
Each one walks the project tree, classifies what it finds as errors or warnings,
and exits with status 1 exactly when there is an error or a precondition fails:

- **Meta files** (`ci/check_meta_files.py`). Below `Assets/`, every file and every
  unpruned directory needs a `<name>.meta` sidecar; a missing one is an error.
  Every `.meta` file needs the entry it describes; an orphaned one is a warning.
- **Layer consistency** (`ci/check_layer_consistency.py`).
  - It parses `ProjectSettings/TagManager.asset` into physics layers, sorting layers
    and custom tags.
  - It then scans C# scripts for `LayerMask.NameToLayer("…")`,
    `LayerMask.GetMask("…", …)`, `sortingLayerName = "…"` and `CompareTag("…")`.
    Every name must be defined; tags may also be Unity built-ins.
  - Under an `Editor`/`editor` folder an undefined name is a warning; elsewhere it
    is an error.
- **GUID references** (`ci/check_guid_references.py`).
  - It indexes the GUID that every `.meta` file declares on its second line. The
    index covers `Assets`, plus `Packages` and `Library/PackageCache` when they
    exist.
  - It then reports every `guid: <32 hex>` reference in the asset files below
    `Assets/_Project` that the index does not know.
  - Such a reference is an error when the package cache is present. Otherwise it
    is only a warning.
- **Build scenes** (`ci/check_scene_build_settings.py`).
  - It reads the scene blocks of `ProjectSettings/EditorBuildSettings.asset`.
  - For each block, in order, the scene must exist, its sidecar must exist, and the
    sidecar must declare the recorded GUID within its first 512 characters.
  - An empty scene list is a warning.

The model is a set of pure functions over an immutable file tree
(`FileTree.Node`). A file's content is the text that a text-mode read returns.

- `os.walk` is modelled once, as `FileTree.Walk`. It is a top-down list of visited
  directories, with a set of names pruned from every `dirnames` list.
- Every regular expression is replaced by a deterministic matcher. Its doc comment
  argues why backtracking cannot change the result.
- Each check returns a `Findings.Outcome`: `Fatal` for a failed precondition, or
  `Done` with its findings in order. `Findings.ExitCode` turns that into the
  process status.

Modules, in dependency order:

| module | file | what it holds |
|---|---|---|
| `Text` | text.dfy | Python's `strip`, `split`/`join`, `readline`/`readlines`, `splitlines` |
| `FileTree` | file_tree.dfy | the tree, lookup, `os.walk` with pruning, list helpers |
| `Findings` | findings.dfy | levels, findings, outcomes, counts, exit status |
| `MetaFiles` | meta_files.dfy | the meta-file check |
| `TagManager` | tag_manager.dfy | `parse_tag_manager` |
| `CSharpRefs` | csharp_refs.dfy | the four C# reference patterns |
| `LayerCheck` | layer_check.dfy | `is_editor_script`, `scan_scripts`, the layer check |
| `GuidRefs` | guid_refs.dfy | the GUID index, the reference scan, the GUID check |
| `SceneBuild` | scene_build.dfy | the scene-block parser and the build-scene check |

Details of the source's behaviour that the model keeps:

- **Tags header.** It is recognised by `startswith("tags:")`, not by equality
  (ci/check_layer_consistency.py:59). So `tags: []` and any other `tags:…` line
  open the section.
- **End of the layers section.** The layers section ends at any stripped line that
  does not start with `-` (ci/check_layer_consistency.py:97-98). Indentation plays
  no part, because the line is already stripped.
- **Pruned directories differ per walk.**
  - The meta check prunes seventeen names (ci/check_meta_files.py:7-9).
  - The GUID index prunes `Library`, `Temp`, `obj` and `.git`
    (ci/check_guid_references.py:39-40).
  - The script scan prunes `.git` and `obj` (ci/check_layer_consistency.py:128).
  - The GUID reference scan prunes nothing (ci/check_guid_references.py:116).
- **Build-scene sidecar GUID.** It is not read from line 2. It comes from the
  first line that starts with `guid:`, optional whitespace and 32 lower-case hex
  digits, within the first 512 characters. A `guid:` line without such a GUID is
  passed over and the search goes on (ci/check_scene_build_settings.py:13, 79-82).
- **GUID file selection.** The extension is lower-cased and then looked up in a
  set that spells `.overrideController` with a capital C
  (ci/check_guid_references.py:15-17, 118-119). `GuidRefs.CheckGuidReferences`
  keeps that selection, so override controllers are never scanned. The intended
  selection is `GuidRefs.CheckGuidReferencesCorrected`; see "## Findings".
- **GUID severity.** Severity depends on the package cache alone. No reference is
  ever an error without the cache (ci/check_guid_references.py:127-139).

## Model

| member | source | states |
|---|---|---|
| Text.StripTrimmed | ci/check_layer_consistency.py:56 | `str.strip()` removes a whitespace run at the front and one at the back, and nothing else |
| Text.StripUnique | ci/check_layer_consistency.py:56 | a text that is a clean core surrounded by whitespace strips to exactly that core |
| Text.StripIdempotent | ci/check_layer_consistency.py:88 | stripping an already stripped value (`stripped[2:].strip()` of a stripped line) changes nothing more |
| Text.JoinSplit | ci/check_layer_consistency.py:110 | `split("/")` loses nothing: joining the parts back with `/` gives the path |
| Text.ReadLinesConcat | ci/check_guid_references.py:64 | line iteration of a text file loses nothing: the lines, newlines kept, concatenate to the text |
| Text.SplitLinesBreak | ci/check_layer_consistency.py:55 | `splitlines()` ends a line at `\n` or `\r\n` and drops the break |
| Text.SplitLinesLast | ci/check_layer_consistency.py:55 | `splitlines()` returns a last line without a break whole, with no empty line added |
| FileTree.WalkSound | ci/check_meta_files.py:31-33 | every directory `os.walk` visits sits at its reported path and is reached without entering a pruned name |
| FileTree.WalkComplete | ci/check_meta_files.py:31-33 | every directory reachable without entering a pruned name is visited, at its path |
| FileTree.PathStringSlashes | ci/check_meta_files.py:69 | a reported path holds no backslash, and one whose names hold none prints as the names joined by `/` |
| FileTree.WalkPathsDistinct | ci/check_meta_files.py:31 | the walk visits each directory once |
| Findings.ExitCode | ci/check_meta_files.py:82 | the exit status is 1 exactly when the check stopped on a precondition or some finding is an error |
| Findings.CountsAddUp | ci/check_layer_consistency.py:153-156 | each finding adds to exactly one of the error and warning counters |
| MetaFiles.MissingCharacterized | ci/check_meta_files.py:31-61 | a path is in `missing` exactly when it names a non-`.meta` file, or an unpruned subdirectory, with no sibling `<name>.meta`, in a directory the pruned walk reaches |
| MetaFiles.OrphanedCharacterized | ci/check_meta_files.py:46-54 | a path is in `orphaned` exactly when it names a `.meta` file in a reached directory whose asset name is neither a file nor a directory there |
| MetaFiles.ListsHaveNoRepeats | ci/check_meta_files.py:31-61 | neither list holds a path twice |
| MetaFiles.PairedIffClean | ci/check_meta_files.py:77-78 | both lists are empty exactly when every reached directory pairs each entry with its sidecar and each sidecar with its entry |
| MetaFiles.CheckMetaFiles | ci/check_meta_files.py:23-75 | fatal exactly when `Assets/` is not a directory; otherwise one finding per missing or orphaned path |
| MetaFiles.CheckMetaFilesExit | ci/check_meta_files.py:64-82 | errors are exactly the missing sidecars, orphans never count, and the exit status is 1 exactly when `Assets/` is absent or some sidecar is missing |
| TagManager.Run | ci/check_layer_consistency.py:48-103 | at most one of `in_tags`, `in_layers`, `in_sorting` is ever set |
| TagManager.HeaderAddsNothing | ci/check_layer_consistency.py:59-85 | a section header line adds no name |
| TagManager.HeaderSetsFlags | ci/check_layer_consistency.py:59-80 | `tags:` opens the tags section unless the line holds `[]`; `layers:` and `m_SortingLayers:` open their own section; each header closes the other sections |
| TagManager.RenderingClearsOnlySorting | ci/check_layer_consistency.py:83-85 | `m_RenderingLayers:` clears the sorting flag and changes nothing else |
| TagManager.BareDashKeepsLayers | ci/check_layer_consistency.py:92-98 | an unnamed layer slot (`-`) adds nothing and keeps the layers section open |
| TagManager.NonDashClosesLayers | ci/check_layer_consistency.py:97-98 | in the layers section, a line not starting with `-` closes it |
| TagManager.LayerBulletAdds | ci/check_layer_consistency.py:93-96 | in the layers section, a `- <name>` line adds the stripped name when it is non-empty and keeps the section open |
| TagManager.EmptyTagsAddNothing | ci/check_layer_consistency.py:59-90 | after `tags: []` no later line adds a tag until another tags header |
| TagManager.ParsedNamesClean | ci/check_layer_consistency.py:87-103 | every parsed layer, sorting layer and tag is non-empty and has no surrounding whitespace |
| TagManager.RunRefines | ci/check_layer_consistency.py:48-103 | the three-flag loop computes the same names as a single-mode state machine |
| TagManager.ParseTagManager | ci/check_layer_consistency.py:39-55 | no result exactly when the file is missing; otherwise the file's text parsed line by line |
| TagManager.SortingLayerName | ci/check_layer_consistency.py:101-103 | the `-\s*name:\s*(.+)` capture is non-empty and stays on one line |
| CSharpRefs.FindAllNames | ci/check_layer_consistency.py:15-23 | every extracted name is what `"([^"]+)"` captures: non-empty and quote-free |
| CSharpRefs.NoQuoteNoNames | ci/check_layer_consistency.py:15-23 | a line without a double quote yields no name for any shape |
| CSharpRefs.RenderFindAll | ci/check_layer_consistency.py:148-191 | a call written the usual way is found once, with its name |
| CSharpRefs.GetMaskRescan | ci/check_layer_consistency.py:159-162 | the rescan of a `GetMask` match reads exactly its quoted argument |
| LayerCheck.EditorScriptIffSegment | ci/check_layer_consistency.py:108-111 | a path is an editor script exactly when some `/`- or `\`-separated segment is `Editor` or `editor` |
| LayerCheck.Unknown | ci/check_layer_consistency.py:148-191 | the undefined references are those a name set does not cover, each as often as it occurs; tags are also covered by the built-ins |
| LayerCheck.LineFindingsCharacterized | ci/check_layer_consistency.py:146-191 | a line yields a finding for a name exactly when it refers to that name in one of the four shapes and the TagManager does not define it |
| LayerCheck.LinesFindingsCharacterized | ci/check_layer_consistency.py:142-146 | a finding at 1-based line `j + 1` exists exactly when line `j` refers to an undefined name |
| LayerCheck.ScriptCounts | ci/check_layer_consistency.py:153-156 | an editor script adds only warnings and any other script only errors |
| LayerCheck.ScanReportsScript | ci/check_layer_consistency.py:116-146 | every undefined reference in a walked `.cs` file is reported at its line, path and the script's level |
| LayerCheck.ScanFindingsSound | ci/check_layer_consistency.py:116-191 | every finding comes from a walked `.cs` file and flags an undefined reference on its line |
| LayerCheck.CheckLayerConsistency | ci/check_layer_consistency.py:199-202 | fatal exactly when the TagManager file is missing |
| LayerCheck.ScanLevels | ci/check_layer_consistency.py:136-156 | across the scan, a finding is an error exactly when its script is not an editor script |
| LayerCheck.CheckExit | ci/check_layer_consistency.py:197-219 | the exit status is 1 exactly when the TagManager is missing or a script outside an editor folder refers to an undefined name |
| GuidRefs.MetaGuid | ci/check_guid_references.py:50-53 | a declared GUID is 32 characters long |
| GuidRefs.MetaGuidOfHeader | ci/check_guid_references.py:47-53 | a `.meta` file in Unity's layout declares the GUID on its second line |
| GuidRefs.MetaGuidIgnoresFirstLine | ci/check_guid_references.py:50 | the first line never changes the declared GUID |
| GuidRefs.SingleLineNoGuid | ci/check_guid_references.py:51-52 | a one-line file declares nothing |
| GuidRefs.IndexCharacterized | ci/check_guid_references.py:34-56 | a GUID is indexed exactly when some `.meta` file, on a path free of pruned names, declares it |
| GuidRefs.KnownCharacterized | ci/check_guid_references.py:92-104 | a GUID is known exactly when a `.meta` file below `Assets`, `Packages` or `Library/PackageCache` declares it |
| GuidRefs.LineGuidsAreGuids | ci/check_guid_references.py:65-66 | every capture of `guid:\s*([0-9a-f]{32})` is 32 lower-case hex digits |
| GuidRefs.RenderedGuid | ci/check_guid_references.py:22 | a reference written as `guid: <hex>` is found once |
| GuidRefs.NullGuidSubsumed | ci/check_guid_references.py:67-72 | a capture is reportable exactly when it lacks the zero prefix and is not indexed; the separate null-GUID test never decides |
| GuidRefs.LineBroken | ci/check_guid_references.py:65-72 | a line reports each reportable capture as often as it occurs, at that line |
| GuidRefs.FileBrokenSound | ci/check_guid_references.py:59-75 | every report names a 1-based line and a reportable GUID captured on it |
| GuidRefs.FileBrokenCount | ci/check_guid_references.py:64-72 | per line and GUID, the report count is the capture count when reportable, else zero |
| GuidRefs.FileBrokenOrdered | ci/check_guid_references.py:64 | reports come in line order |
| GuidRefs.FileBrokenMonotone | ci/check_guid_references.py:71-72 | a larger index reports a sub-list of the reports |
| GuidRefs.Extension | ci/check_guid_references.py:118 | `os.path.splitext` gives empty or a dot with no further dot, and the name ends with it |
| GuidRefs.ExtensionOf | ci/check_guid_references.py:118 | a stem that is not all dots, then `.ext`, has extension `.ext` |
| GuidRefs.LoweredExtensionsAreLowered | ci/check_guid_references.py:15-17 | the corrected selection compares against the listed extensions, each lower-cased |
| GuidRefs.AsWrittenMissesOverrideControllers | ci/check_guid_references.py:118-119 | the selection as written differs from the intended one exactly on `.overrideController` files, which it never scans |
| GuidRefs.OverrideControllerSkipped | ci/check_guid_references.py:118-119 | `Player.overrideController` is skipped as written and scanned by the corrected selection |
| GuidRefs.CheckGuidReferences | ci/check_guid_references.py:79-88 | fatal exactly when `Assets` or `Assets/_Project` is not a directory; files are selected as written, so override controllers are never scanned |
| GuidRefs.CheckScansSelected | ci/check_guid_references.py:116-139 | for either selection, every broken reference of every selected file below `Assets/_Project` is reported, graded by the package cache; with the selection as written (`corrected` false) that is the source's loop |
| GuidRefs.CheckFindingsFromSelected | ci/check_guid_references.py:116-126 | for either selection, every finding names a selected file of a walked directory |
| GuidRefs.CheckFindingsSound | ci/check_guid_references.py:126-139 | for either selection, every finding is at a 1-based line, for an unknown GUID without the zero prefix, and is an error exactly when the package cache exists |
| GuidRefs.CheckExit | ci/check_guid_references.py:127-152 | for either selection, the exit status is 1 exactly when a directory is missing, or the cache exists and some selected file has a broken reference |
| GuidRefs.AsWrittenSkipsOverrideControllers | ci/check_guid_references.py:116-126 | as written, no finding names an override controller: every reported file has another extension |
| GuidRefs.CorrectedReportsOverrideControllers | ci/check_guid_references.py:15-17 | with every listed extension matched without case, a broken reference in an override controller is reported |
| SceneBuild.SceneBlocksShape | ci/check_scene_build_settings.py:38-44 | every block found has digits for `enabled`, a one-line path ending in `.unity` once stripped, and a 32-hex GUID |
| SceneBuild.ManifestRoundTrip | ci/check_scene_build_settings.py:38-44 | reading a manifest written in Unity's block layout gives back its entries, in order |
| SceneBuild.SceneAtRendered | ci/check_scene_build_settings.py:38-42 | one rendered block is matched whole, whatever follows it |
| SceneBuild.ResolvePlain | ci/check_scene_build_settings.py:59-65 | a relative path of plain names resolves by lookup from the project root |
| SceneBuild.Head | ci/check_scene_build_settings.py:80 | `read(512)` yields the first 512 characters of a longer text, and the whole text when it is at most 512 long |
| SceneBuild.MetaFileGuid | ci/check_scene_build_settings.py:13 | a GUID found in a sidecar is 32 lower-case hex digits |
| SceneBuild.MetaFileGuidOfHeader | ci/check_scene_build_settings.py:79-82 | a sidecar in Unity's layout, with its GUID line within the first 512 characters, yields that GUID |
| SceneBuild.FirstGuidAt | ci/check_scene_build_settings.py:82 | the search returns the first line that starts with a `guid:` reference |
| SceneBuild.ValidateEntryCases | ci/check_scene_build_settings.py:64-94 | a missing scene is reported alone; otherwise a missing sidecar; otherwise an unreadable GUID, a mismatch naming both GUIDs, or a pass |
| SceneBuild.ValidateEntryPasses | ci/check_scene_build_settings.py:64-94 | an entry passes exactly when its scene and sidecar exist and the sidecar declares the recorded GUID |
| SceneBuild.EnabledIgnored | ci/check_scene_build_settings.py:57-58 | the enabled flag never changes an entry's outcome |
| SceneBuild.SceneFindingsAppend | ci/check_scene_build_settings.py:55-94 | entries are checked one after another: the findings of two manifest parts are those of the first, then those of the second |
| SceneBuild.SceneFindingsOne | ci/check_scene_build_settings.py:64-94 | one entry yields a single error carrying its failure message, or nothing when it passes |
| SceneBuild.ErrorsCount | ci/check_scene_build_settings.py:66-92 | one error per failed entry, and an error exactly when some entry failed |
| SceneBuild.SceneFindingsCount | ci/check_scene_build_settings.py:55-94 | the findings are one error per failing entry, and some exist exactly when some entry fails |
| SceneBuild.CheckSceneBuildSettings | ci/check_scene_build_settings.py:25-28 | fatal exactly when the settings file is missing |
| SceneBuild.CheckExit | ci/check_scene_build_settings.py:96-101 | the exit status is 1 exactly when the settings file is missing or some listed scene fails a check |
| SceneBuild.NoScenesPasses | ci/check_scene_build_settings.py:46-48 | an empty scene list gives one warning and exit status 0 |

## Left out

- The runner `ci/run_all.py` is not part of this model. Neither are the printed
  text, the GitHub annotation format, `GITHUB_ACTIONS`, or `main()`'s search for
  the project root. Findings carry a message datatype instead of text.
- I/O errors are not modelled. The sources swallow `OSError` while reading;
  here every file is readable. Decoding with `errors="replace"` is folded into
  the content, which is the decoded text.
- Order of `os.walk`: the model lists a directory's entries in one fixed order, and
  findings come out in walk order. The meta check prints `sorted(missing)` and
  `sorted(orphaned)` (ci/check_meta_files.py:68,74). Only the order of the printed
  lines depends on that sort; the exit status and the sets of paths do not.
- MetaFiles.CheckMetaFiles: states the number of findings and their grading, not
  their printed order, because the output is sorted as text.
- Unicode: `\d` and `\s` cover ASCII digits and Python's whitespace set. Unicode
  digits other than ASCII are not modelled. No file name is case-folded or
  normalised.
- A path the source opens as a file can turn out to be a directory. The
  TagManager, the settings file and a scene sidecar can each be one. Python then
  raises and the check exits 1. Here the TagManager and the settings file are
  read as missing (fatal), with the same exit status and a different message. A
  sidecar that is a directory is read as an unreadable GUID (an error). The exit
  status is again 1, but the source stops at that entry
  (ci/check_scene_build_settings.py:79), while the model goes on and also reports
  the entries after it, which the source never reaches.
- Scene paths that are absolute or climb above the project (`..`) are resolved
  inside the project tree only: an absolute path is treated as missing.
- The running counters `errors` and `warnings` are not separate state. They are
  `Findings.ErrorCount` and `Findings.WarningCount` of the findings list.
- TagManager.SortingLayerName: proves the capture's shape. That it equals the
  regular expression's group 1 rests on the argument in its doc comment.
- CSharpRefs.FindAllNames: states the shape of every name. Equality with
  `finditer` on every line rests on the determinism argument in the module's doc
  comment. The lemma about rendered calls pins it down for the usual spellings.

## Findings

| source | as written | input that shows it | evidently intended | confidence | as-written member | corrected member |
|---|---|---|---|---|---|---|
| ci/check_guid_references.py:118-119 | the extension is lower-cased before the lookup, but the set lists `.overrideController` with a capital C, so that entry never matches | an override controller `Assets/_Project/Player.overrideController` holding a broken `guid:` reference is never scanned, so its broken reference goes unreported | every listed extension matched case-insensitively, so `.overrideController` files are scanned | not executed | GuidRefs.AsWrittenSkipsOverrideControllers | GuidRefs.CorrectedReportsOverrideControllers |

=== FILE: csharp_refs.dfy ===
/** The four C# call shapes the layer check looks for on each source line
    (ci/check_layer_consistency.py:15-23), matched left to right without
    overlap the way `re.finditer` does. Each pattern is a fixed token
    sequence with `\s*` gaps and `"([^"]+)"` captures; for every one the
    greedy reading below is the only way the pattern can match at a
    position, because each `\s*` is followed by a non-space token and each
    `[^"]+` by a quote. */
module CSharpRefs {
  import opened Text

  datatype Shape = NameToLayer | GetMask | SortingLayerAssign | CompareTag

  /** A match ending (exclusively) at `end`, with the names it captures. */
  datatype Match = Match(end: nat, names: seq<string>)

  /** What `[^"]+` captures: at least one character, no quote. */
  predicate IsName(x: string) {
    x != [] && '"' !in x
  }

  /** `"([^"]+)"` at `j` within `s[..hi]`: the index of the closing quote. */
  function QuotedAtIn(s: string, j: nat, hi: nat): (r: Option<nat>)
    requires hi <= |s|
    ensures r.Some? ==> j + 1 < r.value < hi && s[j] == '"' && s[r.value] == '"'
    ensures r.Some? ==> forall k :: j < k < r.value ==> s[k] != '"'
  {
    if j < hi && s[j] == '"' then
      var e := FindChar(s, '"', j + 1);
      if j + 1 < e < hi then Some(e) else None
    else None
  }

  function QuotedAt(s: string, j: nat): Option<nat> {
    QuotedAtIn(s, j, |s|)
  }

  /** The text between the quotes is a name. */
  lemma QuotedName(s: string, j: nat, e: nat)
    requires j + 1 < e <= |s|
    requires forall k :: j < k < e ==> s[k] != '"'
    ensures IsName(s[j + 1..e])
  {
    var x := s[j + 1..e];
    forall k | 0 <= k < |x| ensures x[k] != '"' {
      assert x[k] == s[j + 1 + k];
    }
  }

  /** `<prefix>\s*"([^"]+)"\s*\)` at `i`: the `NameToLayer` and
      `CompareTag` shapes. */
  function CallAt(s: string, i: nat, prefix: string): (r: Option<Match>)
    ensures r.Some? ==> i < r.value.end <= |s| && |r.value.names| == 1 && IsName(r.value.names[0])
  {
    if !StartsAt(s, i, prefix) || prefix == [] then None
    else
      var j := SkipSpace(s, i + |prefix|);
      match QuotedAt(s, j)
      case None => None
      case Some(e) =>
        var m := SkipSpace(s, e + 1);
        if m < |s| && s[m] == ')' then Some(Match(m + 1, [s[j + 1..e]])) else None
  }

  /** `sortingLayerName\s*=\s*"([^"]+)"` at `i`. */
  function AssignAt(s: string, i: nat): (r: Option<Match>)
    ensures r.Some? ==> i < r.value.end <= |s| && |r.value.names| == 1 && IsName(r.value.names[0])
  {
    if !StartsAt(s, i, "sortingLayerName") then None
    else
      var j := SkipSpace(s, i + 16);
      if j < |s| && s[j] == '=' then
        var k := SkipSpace(s, j + 1);
        match QuotedAt(s, k)
        case None => None
        case Some(e) => Some(Match(e + 1, [s[k + 1..e]]))
      else None
  }

  /** Where the greedy `(?:\s*,\s*"([^"]+)")*` that starts at `pos`
      stops. Giving back an iteration cannot help the `\s*\)` that follows,
      since it would then face a comma. */
  function MoreArgs(s: string, pos: nat): (r: nat)
    requires pos <= |s|
    ensures pos <= r <= |s|
    decreases |s| - pos
  {
    var k := SkipSpace(s, pos);
    if k < |s| && s[k] == ',' then
      var j := SkipSpace(s, k + 1);
      match QuotedAt(s, j)
      case Some(e) => MoreArgs(s, e + 1)
      case None => pos
    else pos
  }

  /** `re.finditer(r'"([^"]+)"', s[lo..hi])`, as positions of `s`: the
      quoted strings, scanning on after each closing quote. */
  function QuotedAll(s: string, lo: nat, hi: nat): seq<string>
    requires lo <= hi <= |s|
    decreases hi - lo
  {
    if lo == hi then []
    else match QuotedAtIn(s, lo, hi)
      case Some(e) => [s[lo + 1..e]] + QuotedAll(s, e + 1, hi)
      case None => QuotedAll(s, lo + 1, hi)
  }

  /** The full `GetMask` call: the first argument, the greedy repetition,
      then `\s*\)`. The names are those of the source's second pass, every
      quoted string inside the matched text. */
  function GetMaskAt(s: string, i: nat): (r: Option<Match>)
    ensures r.Some? ==> i < r.value.end <= |s|
  {
    var prefix := "LayerMask.GetMask(";
    if !StartsAt(s, i, prefix) then None
    else
      var j := SkipSpace(s, i + |prefix|);
      match QuotedAt(s, j)
      case None => None
      case Some(e) =>
        var m := SkipSpace(s, MoreArgs(s, e + 1));
        if m < |s| && s[m] == ')' then Some(Match(m + 1, QuotedAll(s, i, m + 1))) else None
  }

  function MatchAt(shape: Shape, s: string, i: nat): (r: Option<Match>)
    ensures r.Some? ==> i < r.value.end <= |s|
  {
    match shape
    case NameToLayer => CallAt(s, i, "LayerMask.NameToLayer(")
    case GetMask => GetMaskAt(s, i)
    case SortingLayerAssign => AssignAt(s, i)
    case CompareTag => CallAt(s, i, "CompareTag(")
  }

  /** The names of all matches of `shape` in `s` from `i`: try each
      position in turn, and after a match resume where it ended. */
  function FindAll(shape: Shape, s: string, i: nat): seq<string>
    requires i <= |s|
    decreases |s| - i
  {
    if i == |s| then []
    else match MatchAt(shape, s, i)
      case Some(m) => m.names + FindAll(shape, s, m.end)
      case None => FindAll(shape, s, i + 1)
  }

  // ----- The GetMask rescan reads exactly the arguments -----

  /** Quote-free text adds nothing to the rescan. */
  lemma {:induction false} QuotedAllSkip(s: string, lo: nat, k: nat, hi: nat)
    requires lo <= k <= hi <= |s|
    requires forall j :: lo <= j < k ==> s[j] != '"'
    ensures QuotedAll(s, lo, hi) == QuotedAll(s, k, hi)
    decreases k - lo
  {
    if lo < k {
      assert QuotedAtIn(s, lo, hi).None?;
      QuotedAllSkip(s, lo + 1, k, hi);
    }
  }

  /** The fixed text of the `GetMask` pattern holds no quote. */
  lemma GetMaskPrefixNoQuote(s: string, i: nat)
    requires StartsAt(s, i, "LayerMask.GetMask(")
    ensures forall k :: i <= k < i + 18 ==> s[k] != '"'
  {
    var pre := "LayerMask.GetMask(";
    assert '"' !in pre;
    forall k | i <= k < i + 18 ensures s[k] != '"' {
      assert s[k] == s[i..i + 18][k - i] == pre[k - i];
      assert pre[k - i] in pre;
    }
  }

  /** One step of the rescan over a quoted string. */
  lemma QuotedAllStep(s: string, j: nat, e: nat, hi: nat)
    requires j < hi <= |s| && QuotedAtIn(s, j, hi) == Some(e)
    ensures QuotedAll(s, j, hi) == [s[j + 1..e]] + QuotedAll(s, e + 1, hi)
  {
  }

  /** The rescan captures names only. */
  lemma {:induction false} QuotedAllNames(s: string, lo: nat, hi: nat)
    requires lo <= hi <= |s|
    ensures forall x :: x in QuotedAll(s, lo, hi) ==> IsName(x)
    decreases hi - lo
  {
    if lo < hi {
      match QuotedAtIn(s, lo, hi)
      case Some(e) =>
        QuotedAllNames(s, e + 1, hi);
        QuotedName(s, lo, e);
      case None =>
        QuotedAllNames(s, lo + 1, hi);
    }
  }

  /** Every name any shape captures is what `[^"]+` can capture. */
  lemma {:induction false} FindAllNames(shape: Shape, s: string, i: nat)
    requires i <= |s|
    ensures forall x :: x in FindAll(shape, s, i) ==> IsName(x)
    decreases |s| - i
  {
    if i < |s| {
      match MatchAt(shape, s, i)
      case Some(m) =>
        FindAllNames(shape, s, m.end);
        if shape == GetMask {
          QuotedAllNames(s, i, m.end);
        }
      case None =>
        FindAllNames(shape, s, i + 1);
    }
  }

  /** Every shape needs a quoted string, so a line without a quote holds no
      reference. */
  lemma {:induction false} NoQuoteNoNames(shape: Shape, s: string, i: nat)
    requires i <= |s| && '"' !in s
    ensures FindAll(shape, s, i) == []
    decreases |s| - i
  {
    if i < |s| {
      forall j: nat ensures QuotedAt(s, j).None? {
        if j < |s| {
          assert s[j] in s;
        }
      }
      assert MatchAt(shape, s, i).None?;
      NoQuoteNoNames(shape, s, i + 1);
    }
  }

  // ----- Round trips: a canonically written call yields its name -----

  /** A call written the canonical way: `LayerMask.NameToLayer("x")`,
      `CompareTag("x")`, `sortingLayerName = "x"`, `LayerMask.GetMask("x")`. */
  function Render(shape: Shape, x: string): string {
    match shape
    case NameToLayer => "LayerMask.NameToLayer(" + "\"" + x + "\")"
    case GetMask => "LayerMask.GetMask(" + "\"" + x + "\")"
    case SortingLayerAssign => "sortingLayerName = " + "\"" + x + "\""
    case CompareTag => "CompareTag(" + "\"" + x + "\")"
  }

  /** A match spanning the whole text is all `FindAll` finds. */
  lemma FindAllWhole(shape: Shape, s: string, xs: seq<string>)
    requires s != [] && MatchAt(shape, s, 0).Some?
    requires MatchAt(shape, s, 0).value.end == |s| && MatchAt(shape, s, 0).value.names == xs
    ensures FindAll(shape, s, 0) == xs
  {
    assert FindAll(shape, s, |s|) == [];
  }

  /** Scanning a rendered call finds exactly its name, once. */
  lemma RenderFindAll(shape: Shape, x: string)
    requires IsName(x)
    ensures FindAll(shape, Render(shape, x), 0) == [x]
  {
    RenderMatch(shape, Render(shape, x), x);
    FindAllWhole(shape, Render(shape, x), [x]);
  }

  /** A rendered call is one match over the whole text. */
  lemma RenderMatch(shape: Shape, s: string, x: string)
    requires IsName(x) && s == Render(shape, x)
    ensures s != [] && MatchAt(shape, s, 0).Some?
    ensures MatchAt(shape, s, 0).value.end == |s| && MatchAt(shape, s, 0).value.names == [x]
  {
    match shape
    case NameToLayer => RenderOneArg(s, x, "LayerMask.NameToLayer(");
    case CompareTag => RenderOneArg(s, x, "CompareTag(");
    case SortingLayerAssign => RenderAssign(s, x);
    case GetMask => RenderGetMask(s, x);
  }

  /** The position of the closing quote after `"x` starting at `j`. */
  lemma QuotedAtRendered(s: string, j: nat, x: string, hi: nat)
    requires IsName(x) && hi <= |s| && j + |x| + 2 <= hi
    requires s[j] == '"' && s[j + 1..j + 1 + |x|] == x && s[j + 1 + |x|] == '"'
    ensures QuotedAtIn(s, j, hi) == Some(j + 1 + |x|)
  {
    var e := j + 1 + |x|;
    forall k | j + 1 <= k < e ensures s[k] != '"' {
      assert s[k] == x[k - j - 1];
    }
    assert FindChar(s, '"', j + 1) == e;
  }

  lemma RenderOneArg(s: string, x: string, prefix: string)
    requires IsName(x) && prefix != [] && forall k :: 0 <= k < |prefix| ==> !IsSpace(prefix[k])
    requires prefix[|prefix| - 1] == '(' && s == prefix + "\"" + x + "\")"
    ensures CallAt(s, 0, prefix).Some? && CallAt(s, 0, prefix).value.end == |s|
    ensures CallAt(s, 0, prefix).value.names == [x]
  {
    var p := |prefix|;
    assert StartsAt(s, 0, prefix) by { assert s[..p] == prefix; }
    assert SkipSpace(s, p) == p;
    assert s[p + 1..p + 1 + |x|] == x;
    QuotedAtRendered(s, p, x, |s|);
    assert SkipSpace(s, p + 2 + |x|) == p + 2 + |x|;
  }

  lemma RenderAssign(s: string, x: string)
    requires IsName(x) && s == "sortingLayerName = " + "\"" + x + "\""
    ensures AssignAt(s, 0).Some? && AssignAt(s, 0).value.end == |s| && AssignAt(s, 0).value.names == [x]
  {
    assert StartsAt(s, 0, "sortingLayerName") by { assert s[..16] == "sortingLayerName"; }
    assert SkipSpace(s, 16) == 17 by { assert SkipSpace(s, 17) == 17; }
    assert SkipSpace(s, 18) == 19 by { assert SkipSpace(s, 19) == 19; }
    assert s[20..20 + |x|] == x;
    QuotedAtRendered(s, 19, x, |s|);
  }

  lemma RenderGetMask(s: string, x: string)
    requires IsName(x) && s == "LayerMask.GetMask(" + "\"" + x + "\")"
    ensures GetMaskAt(s, 0).Some? && GetMaskAt(s, 0).value.end == |s| && GetMaskAt(s, 0).value.names == [x]
  {
    var p := 18;
    assert StartsAt(s, 0, "LayerMask.GetMask(") by { assert s[..p] == "LayerMask.GetMask("; }
    assert SkipSpace(s, p) == p;
    assert s[p + 1..p + 1 + |x|] == x;
    QuotedAtRendered(s, p, x, |s|);
    var e := p + 1 + |x|;
    assert SkipSpace(s, e + 1) == e + 1;
    assert MoreArgs(s, e + 1) == e + 1;
    GetMaskRescan(s, x);
  }

  /** The rescan of a rendered `GetMask` call finds its one argument. */
  lemma GetMaskRescan(s: string, x: string)
    requires IsName(x) && s == "LayerMask.GetMask(" + "\"" + x + "\")"
    ensures QuotedAll(s, 0, |s|) == [x]
  {
    var p := 18;
    var e := p + 1 + |x|;
    assert StartsAt(s, 0, "LayerMask.GetMask(") by { assert s[..p] == "LayerMask.GetMask("; }
    assert s[p + 1..p + 1 + |x|] == x;
    QuotedAtRendered(s, p, x, |s|);
    GetMaskPrefixNoQuote(s, 0);
    QuotedAllSkip(s, 0, p, |s|);
    QuotedAllStep(s, p, e, |s|);
    QuotedAllSkip(s, e + 1, |s|, |s|);
    assert QuotedAll(s, |s|, |s|) == [];
  }
}

=== FILE: file_tree.dfy ===
/** The file system the checks read, as an immutable tree, and `os.walk`
    over it. A directory's children are its listing in listing order; a
    file's content is the text a text-mode read returns. */
module FileTree {
  import opened Text

  datatype Node = File(name: string, content: string) | Dir(name: string, children: seq<Node>)

  /** A path relative to some directory, one name per component. */
  type Path = seq<string>

  /** A name a directory entry can carry on a POSIX file system. */
  predicate ValidName(n: string) {
    n != "" && n != "." && n != ".." && '/' !in n
  }

  predicate UniqueNames(cs: seq<Node>) {
    forall i, j :: 0 <= i < j < |cs| ==> cs[i].name != cs[j].name
  }

  /** Every directory in the tree lists valid, pairwise distinct names. */
  predicate WellFormed(n: Node)
    decreases n
  {
    n.Dir? ==>
      && (forall i :: 0 <= i < |n.children| ==> ValidName(n.children[i].name))
      && UniqueNames(n.children)
      && (forall i :: 0 <= i < |n.children| ==> WellFormed(n.children[i]))
  }

  predicate HasEntry(cs: seq<Node>, name: string) {
    exists i :: 0 <= i < |cs| && cs[i].name == name
  }

  /** `os.path.exists(os.path.join(dir, name))` for a directory listing `cs`:
      the empty name, `.` and `..` name the directory itself or its parent. */
  predicate EntryExists(cs: seq<Node>, name: string) {
    name == "" || name == "." || name == ".." || HasEntry(cs, name)
  }

  /** The first entry of `cs` called `name`. */
  function Child(cs: seq<Node>, name: string): (r: Option<Node>)
    ensures r.Some? <==> HasEntry(cs, name)
    ensures r.Some? ==> r.value in cs && r.value.name == name
  {
    if cs == [] then None
    else if cs[0].name == name then Some(cs[0])
    else
      var r := Child(cs[1..], name);
      assert HasEntry(cs, name) ==> cs[0].name == name || HasEntry(cs[1..], name) by {
        if HasEntry(cs, name) {
          var i :| 0 <= i < |cs| && cs[i].name == name;
          assert i == 0 || cs[1..][i - 1].name == name;
        }
      }
      r
  }

  /** Where names are unique, the entry called `name` is the one found. */
  lemma {:induction false} ChildOfUnique(cs: seq<Node>, i: nat)
    requires UniqueNames(cs) && i < |cs|
    ensures Child(cs, cs[i].name) == Some(cs[i])
  {
    if i > 0 {
      assert cs[0].name != cs[i].name;
      assert cs[1..][i - 1] == cs[i];
      ChildOfUnique(cs[1..], i - 1);
    }
  }

  /** The node reached from `d` by following `q`, every component but the
      last being a directory. */
  function Lookup(d: Node, q: Path): Option<Node>
    decreases q
  {
    if q == [] then Some(d)
    else if d.File? then None
    else match Child(d.children, q[0])
      case None => None
      case Some(c) => Lookup(c, q[1..])
  }

  /** `os.path.isdir` of the path `q` below `d`. */
  predicate IsDirAt(d: Node, q: Path) {
    Lookup(d, q).Some? && Lookup(d, q).value.Dir?
  }

  /** Whatever a lookup in a well-formed tree reaches is well formed. */
  lemma {:induction false} LookupWellFormed(d: Node, q: Path)
    requires WellFormed(d) && Lookup(d, q).Some?
    ensures WellFormed(Lookup(d, q).value)
    decreases q
  {
    if q != [] {
      var c := Child(d.children, q[0]).value;
      var i :| 0 <= i < |d.children| && d.children[i] == c;
      LookupWellFormed(c, q[1..]);
    }
  }

  /** No component of `q` is a pruned name. */
  predicate Avoids(q: Path, prune: set<string>) {
    forall k :: 0 <= k < |q| ==> q[k] !in prune
  }

  /** The directory at `q` below `d`, when `os.walk` with `prune` removed
      from every `dirnames` list reaches it. */
  function DirAt(d: Node, q: Path, prune: set<string>): Option<Node> {
    if Avoids(q, prune) && Lookup(d, q).Some? && Lookup(d, q).value.Dir?
    then Lookup(d, q) else None
  }

  /** The listing of a directory; a file lists nothing. */
  function Entries(n: Node): seq<Node> {
    if n.Dir? then n.children else []
  }

  /** One step of `os.walk`: a directory reached and its path. */
  datatype Visit = Visit(path: Path, dir: Node)

  /** `os.walk(d)` top-down, where each `dirnames` list is pruned of the names
      in `prune` before the walk descends; paths are `rel` plus the names
      followed from `d`. */
  function Walk(d: Node, prune: set<string>, rel: Path): seq<Visit>
    decreases d, 1
  {
    if d.File? then [] else [Visit(rel, d)] + WalkChildren(d.children, prune, rel)
  }

  function WalkChildren(cs: seq<Node>, prune: set<string>, rel: Path): seq<Visit>
    decreases cs, 0
  {
    if cs == [] then []
    else
      (if cs[0].Dir? && cs[0].name !in prune then Walk(cs[0], prune, rel + [cs[0].name]) else [])
      + WalkChildren(cs[1..], prune, rel)
  }

  predicate PathsDistinct(vs: seq<Visit>) {
    forall i, j :: 0 <= i < j < |vs| ==> vs[i].path != vs[j].path
  }

  /** A walked directory of a child is walked from its parent listing. */
  lemma {:induction false} WalkChildrenIncludes(cs: seq<Node>, prune: set<string>, rel: Path, i: nat, v: Visit)
    requires i < |cs| && cs[i].Dir? && cs[i].name !in prune
    requires v in Walk(cs[i], prune, rel + [cs[i].name])
    ensures v in WalkChildren(cs, prune, rel)
  {
    if i > 0 {
      assert cs[1..][i - 1] == cs[i];
      WalkChildrenIncludes(cs[1..], prune, rel, i - 1, v);
    }
  }

  /** A visit below a non-empty list of children is below the first child
      or below the rest. */
  lemma WalkChildrenCons(cs: seq<Node>, prune: set<string>, rel: Path, v: Visit)
    requires cs != []
    ensures v in WalkChildren(cs, prune, rel) <==>
      (cs[0].Dir? && cs[0].name !in prune && v in Walk(cs[0], prune, rel + [cs[0].name]))
      || v in WalkChildren(cs[1..], prune, rel)
  {
  }

  /** Every visit of a listing's walk comes from the walk of one child. */
  lemma {:induction false} WalkChildrenSource(cs: seq<Node>, prune: set<string>, rel: Path, v: Visit) returns (i: nat)
    requires v in WalkChildren(cs, prune, rel)
    ensures i < |cs| && cs[i].Dir? && cs[i].name !in prune
    ensures v in Walk(cs[i], prune, rel + [cs[i].name])
  {
    WalkChildrenCons(cs, prune, rel, v);
    if cs[0].Dir? && cs[0].name !in prune && v in Walk(cs[0], prune, rel + [cs[0].name]) {
      i := 0;
    } else {
      var j := WalkChildrenSource(cs[1..], prune, rel, v);
      i := j + 1;
      assert cs[1..][j] == cs[i];
    }
  }

  lemma LookupCons(d: Node, c: Node, q: Path)
    requires d.Dir? && Child(d.children, c.name) == Some(c)
    ensures Lookup(d, [c.name] + q) == Lookup(c, q)
  {
    assert ([c.name] + q)[1..] == q;
  }

  lemma AvoidsCons(x: string, q: Path, prune: set<string>)
    ensures Avoids([x] + q, prune) <==> x !in prune && Avoids(q, prune)
  {
    var xq := [x] + q;
    assert xq[0] == x;
    assert forall k :: 0 <= k < |q| ==> xq[k + 1] == q[k];
    if x !in prune && Avoids(q, prune) {
      forall k | 0 <= k < |xq| ensures xq[k] !in prune {
        if k > 0 {
          assert xq[k] == q[k - 1];
        }
      }
    }
  }

  /** Every directory reachable through unpruned names is visited, under
      its path. */
  lemma {:induction false} WalkComplete(d: Node, prune: set<string>, rel: Path, q: Path)
    requires DirAt(d, q, prune).Some?
    ensures Visit(rel + q, DirAt(d, q, prune).value) in Walk(d, prune, rel)
    decreases q
  {
    if q == [] {
      assert rel + q == rel;
    } else {
      assert d.Dir?;
      var c := Child(d.children, q[0]).value;
      var i :| 0 <= i < |d.children| && d.children[i] == c;
      var r := q[1..];
      assert q == [c.name] + r;
      LookupCons(d, c, r);
      AvoidsCons(c.name, r, prune);
      assert c.Dir?;
      assert DirAt(c, r, prune) == DirAt(d, q, prune);
      WalkComplete(c, prune, rel + [q[0]], r);
      assert rel + [q[0]] + r == rel + q;
      WalkChildrenIncludes(d.children, prune, rel, i, Visit(rel + q, DirAt(d, q, prune).value));
    }
  }

  /** In a well-formed tree every visit is the directory found at its path,
      and that path avoids the pruned names. */
  lemma {:induction false} WalkSound(d: Node, prune: set<string>, rel: Path, v: Visit)
    requires WellFormed(d) && v in Walk(d, prune, rel)
    ensures |rel| <= |v.path| && v.path[..|rel|] == rel
    ensures DirAt(d, v.path[|rel|..], prune) == Some(v.dir)
    decreases d
  {
    if v != Visit(rel, d) {
      var i := WalkChildrenSource(d.children, prune, rel, v);
      var c := d.children[i];
      assert WellFormed(c) && UniqueNames(d.children);
      WalkSound(c, prune, rel + [c.name], v);
      WalkStep(d, i, prune, rel, v);
    } else {
      assert v.path[|rel|..] == [];
    }
  }

  /** The inductive step of `WalkSound`: a visit of child `i` found at `q'`
      below the child is found at `[name] + q'` below the parent. */
  lemma WalkStep(d: Node, i: nat, prune: set<string>, rel: Path, v: Visit)
    requires d.Dir? && i < |d.children| && UniqueNames(d.children)
    requires d.children[i].name !in prune
    requires var rel' := rel + [d.children[i].name];
      |rel'| <= |v.path| && v.path[..|rel'|] == rel'
      && DirAt(d.children[i], v.path[|rel'|..], prune) == Some(v.dir)
    ensures |rel| <= |v.path| && v.path[..|rel|] == rel
    ensures DirAt(d, v.path[|rel|..], prune) == Some(v.dir)
  {
    var c := d.children[i];
    var rel' := rel + [c.name];
    var q' := v.path[|rel'|..];
    var q := v.path[|rel|..];
    assert v.path == rel' + q';
    assert v.path[..|rel|] == rel;
    assert q == [c.name] + q';
    ChildOfUnique(d.children, i);
    LookupCons(d, c, q');
    AvoidsCons(c.name, q', prune);
  }

  /** Two lists of visits with distinct paths and no path in common join
      into one with distinct paths. */
  lemma DistinctConcat(a: seq<Visit>, b: seq<Visit>)
    requires PathsDistinct(a) && PathsDistinct(b)
    requires forall x, y :: x in a && y in b ==> x.path != y.path
    ensures PathsDistinct(a + b)
  {
    forall i, j | 0 <= i < j < |a + b|
      ensures (a + b)[i].path != (a + b)[j].path
    {
      if j < |a| {
        assert (a + b)[i] == a[i] && (a + b)[j] == a[j];
      } else if i >= |a| {
        assert (a + b)[i] == b[i - |a|] && (a + b)[j] == b[j - |a|];
      } else {
        assert (a + b)[i] in a && (a + b)[j] in b;
      }
    }
  }

  /** In a well-formed tree `os.walk` visits no path twice. */
  lemma {:induction false} WalkPathsDistinct(d: Node, prune: set<string>, rel: Path)
    requires WellFormed(d)
    ensures PathsDistinct(Walk(d, prune, rel))
    decreases d, 1
  {
    if d.Dir? {
      WalkChildrenPathsDistinct(d.children, prune, rel);
      forall y | y in WalkChildren(d.children, prune, rel)
        ensures y.path != rel
      {
        var i := WalkChildrenBranch(d.children, prune, rel, y);
      }
      DistinctConcat([Visit(rel, d)], WalkChildren(d.children, prune, rel));
    }
  }

  /** Every path of a walk from `rel` extends `rel`. */
  lemma {:induction false} WalkPrefix(d: Node, prune: set<string>, rel: Path, v: Visit)
    requires v in Walk(d, prune, rel)
    ensures |rel| <= |v.path| && v.path[..|rel|] == rel
    decreases d
  {
    if v != Visit(rel, d) {
      var i := WalkChildrenSource(d.children, prune, rel, v);
      var rel' := rel + [d.children[i].name];
      WalkPrefix(d.children[i], prune, rel', v);
      assert v.path[..|rel|] == v.path[..|rel'|][..|rel|];
    }
  }

  /** A path walked through child `i` continues `rel` with that child's name. */
  lemma WalkChildrenBranch(cs: seq<Node>, prune: set<string>, rel: Path, v: Visit) returns (i: nat)
    requires v in WalkChildren(cs, prune, rel)
    ensures i < |cs| && |rel| < |v.path| && v.path[|rel|] == cs[i].name
  {
    i := WalkChildrenSource(cs, prune, rel, v);
    var rel' := rel + [cs[i].name];
    WalkPrefix(cs[i], prune, rel', v);
    assert v.path[|rel|] == v.path[..|rel'|][|rel|];
  }

  /** The subtrees of children with distinct names are walked at distinct paths. */
  lemma {:induction false} WalkChildrenPathsDistinct(cs: seq<Node>, prune: set<string>, rel: Path)
    requires UniqueNames(cs)
    requires forall i :: 0 <= i < |cs| ==> WellFormed(cs[i])
    ensures PathsDistinct(WalkChildren(cs, prune, rel))
    decreases cs, 0
  {
    if cs != [] {
      var head := if cs[0].Dir? && cs[0].name !in prune then Walk(cs[0], prune, rel + [cs[0].name]) else [];
      var tail := WalkChildren(cs[1..], prune, rel);
      if head != [] {
        WalkPathsDistinct(cs[0], prune, rel + [cs[0].name]);
      }
      assert UniqueNames(cs[1..]) by {
        forall i, j | 0 <= i < j < |cs[1..]| ensures cs[1..][i].name != cs[1..][j].name {
          assert cs[1..][i] == cs[i + 1] && cs[1..][j] == cs[j + 1];
        }
      }
      WalkChildrenPathsDistinct(cs[1..], prune, rel);
      forall x, y | x in head && y in tail
        ensures x.path != y.path
      {
        var rel' := rel + [cs[0].name];
        WalkPrefix(cs[0], prune, rel', x);
        assert x.path[|rel|] == x.path[..|rel'|][|rel|];
        var j := WalkChildrenBranch(cs[1..], prune, rel, y);
        assert cs[1..][j] == cs[j + 1];
      }
      DistinctConcat(head, tail);
    }
  }

  /** The path as the checks print it: its names joined by `/`, with every
      backslash then turned into `/` (`.replace("\\", "/")`). */
  function PathString(p: Path): string {
    ReplaceChar(Join(p, "/"), '\\', '/')
  }

  /** A printed path holds no backslash, and a path whose names hold none
      prints as its names joined by `/`. */
  lemma PathStringSlashes(p: Path)
    ensures '\\' !in PathString(p)
    ensures (forall i :: 0 <= i < |p| ==> '\\' !in p[i]) ==> PathString(p) == Join(p, "/")
  {
    var s := PathString(p);
    if forall i :: 0 <= i < |p| ==> '\\' !in p[i] {
      JoinAvoids(p, "/", '\\');
      assert s == Join(p, "/");
    }
  }

  /** Joining names that avoid `c` with a separator that avoids `c` avoids
      `c`. */
  lemma {:induction false} JoinAvoids(parts: seq<string>, sep: string, c: char)
    requires c !in sep && forall i :: 0 <= i < |parts| ==> c !in parts[i]
    ensures c !in Join(parts, sep)
  {
    if |parts| > 1 {
      JoinAvoids(parts[1..], sep, c);
      assert parts[0] in parts;
    }
  }

  /** The per-directory results of a walk, concatenated in walk order. */
  function FlatMap<T>(vs: seq<Visit>, f: Visit -> seq<T>): seq<T> {
    if vs == [] then [] else f(vs[0]) + FlatMap(vs[1..], f)
  }

  /** Membership in a `FlatMap` is membership in one visit's list. */
  lemma {:induction false} FlatMapMember<T>(vs: seq<Visit>, f: Visit -> seq<T>, x: T)
    ensures x in FlatMap(vs, f) <==> exists k :: 0 <= k < |vs| && x in f(vs[k])
  {
    if vs != [] {
      FlatMapMember(vs[1..], f, x);
      if x in FlatMap(vs[1..], f) {
        var k :| 0 <= k < |vs[1..]| && x in f(vs[1..][k]);
        assert vs[1..][k] == vs[k + 1];
      }
      if exists k :: 0 <= k < |vs| && x in f(vs[k]) {
        var k :| 0 <= k < |vs| && x in f(vs[k]);
        if k > 0 {
          assert vs[1..][k - 1] == vs[k];
        }
      }
    }
  }

  /** `f` applied to each element of `xs`, in order. */
  function MapSeq<A, B>(f: A -> B, xs: seq<A>): seq<B> {
    seq(|xs|, i requires 0 <= i < |xs| => f(xs[i]))
  }

  /** Mapping a concatenation maps each part. */
  lemma MapSeqAppend<A, B>(f: A -> B, a: seq<A>, b: seq<A>)
    ensures MapSeq(f, a + b) == MapSeq(f, a) + MapSeq(f, b)
  {
    var c := MapSeq(f, a + b);
    forall i | 0 <= i < |c| ensures c[i] == (MapSeq(f, a) + MapSeq(f, b))[i] {
      if i < |a| {
        assert (a + b)[i] == a[i];
      } else {
        assert (a + b)[i] == b[i - |a|];
      }
    }
  }

  /** The lists of `xss`, concatenated in order. */
  function Flatten<T>(xss: seq<seq<T>>): seq<T> {
    if xss == [] then [] else xss[0] + Flatten(xss[1..])
  }

  /** Membership in a flattened list is membership in one of its lists. */
  lemma {:induction false} FlattenMember<T>(xss: seq<seq<T>>, x: T)
    ensures x in Flatten(xss) <==> exists k :: 0 <= k < |xss| && x in xss[k]
  {
    if xss != [] {
      FlattenMember(xss[1..], x);
      if x in Flatten(xss[1..]) {
        var k :| 0 <= k < |xss[1..]| && x in xss[1..][k];
        assert xss[1..][k] == xss[k + 1];
      }
      if exists k :: 0 <= k < |xss| && x in xss[k] {
        var k :| 0 <= k < |xss| && x in xss[k];
        if k > 0 {
          assert xss[1..][k - 1] == xss[k];
        }
      }
    }
  }

  predicate NoDup<T(==)>(xs: seq<T>) {
    forall i, j :: 0 <= i < j < |xs| ==> xs[i] != xs[j]
  }

  /** Two lists without repeats and without a common element concatenate
      to a list without repeats. */
  lemma NoDupConcat<T>(a: seq<T>, b: seq<T>)
    requires NoDup(a) && NoDup(b)
    requires forall x :: x in a ==> x !in b
    ensures NoDup(a + b)
  {
    forall i, j | 0 <= i < j < |a + b| ensures (a + b)[i] != (a + b)[j] {
      if j < |a| {
        assert (a + b)[i] == a[i] && (a + b)[j] == a[j];
      } else if i >= |a| {
        assert (a + b)[i] == b[i - |a|] && (a + b)[j] == b[j - |a|];
      } else {
        assert (a + b)[i] == a[i] && (a + b)[j] == b[j - |a|];
        assert a[i] in a && b[j - |a|] in b;
      }
    }
  }

  /** Every directory a walk of a well-formed tree visits is well-formed. */
  lemma {:induction false} WalkWellFormed(d: Node, prune: set<string>, rel: Path, v: Visit)
    requires WellFormed(d) && v in Walk(d, prune, rel)
    ensures WellFormed(v.dir)
    decreases d
  {
    if v != Visit(rel, d) {
      assert v in WalkChildren(d.children, prune, rel);
      var i := WalkChildrenSource(d.children, prune, rel, v);
      WalkWellFormed(d.children[i], prune, rel + [d.children[i].name], v);
    }
  }

  /** `x` names an entry of the directory visited at `v`. */
  predicate InDir(x: Path, v: Visit) {
    |x| == |v.path| + 1 && x[..|v.path|] == v.path
  }

  /** Per-directory path lists without repeats, each naming entries of its
      own directory, stay without repeats when the walk visits no path
      twice. */
  lemma {:induction false} FlatMapNoDup(vs: seq<Visit>, f: Visit -> seq<Path>)
    requires PathsDistinct(vs)
    requires forall k :: 0 <= k < |vs| ==> NoDup(f(vs[k]))
    requires forall k, x :: 0 <= k < |vs| && x in f(vs[k]) ==> InDir(x, vs[k])
    ensures NoDup(FlatMap(vs, f))
    ensures forall x :: x in FlatMap(vs, f) ==> exists k :: 0 <= k < |vs| && InDir(x, vs[k])
  {
    if vs != [] {
      var a := f(vs[0]);
      var b := FlatMap(vs[1..], f);
      assert PathsDistinct(vs[1..]) by {
        forall i, j | 0 <= i < j < |vs[1..]| ensures vs[1..][i].path != vs[1..][j].path {
          assert vs[1..][i] == vs[i + 1] && vs[1..][j] == vs[j + 1];
        }
      }
      forall k, x | 0 <= k < |vs[1..]| && x in f(vs[1..][k]) ensures InDir(x, vs[1..][k]) {
        assert vs[1..][k] == vs[k + 1];
      }
      forall k | 0 <= k < |vs[1..]| ensures NoDup(f(vs[1..][k])) {
        assert vs[1..][k] == vs[k + 1];
      }
      FlatMapNoDup(vs[1..], f);
      forall x | x in a + b ensures exists k :: 0 <= k < |vs| && InDir(x, vs[k]) {
        if x in a {
          assert InDir(x, vs[0]);
        } else {
          var k :| 0 <= k < |vs[1..]| && InDir(x, vs[1..][k]);
          assert vs[1..][k] == vs[k + 1];
        }
      }
      forall i, j | 0 <= i < j < |a + b| ensures (a + b)[i] != (a + b)[j] {
        if j < |a| {
          assert (a + b)[i] == a[i] && (a + b)[j] == a[j];
        } else if i >= |a| {
          assert (a + b)[i] == b[i - |a|] && (a + b)[j] == b[j - |a|];
        } else {
          var x, y := (a + b)[i], (a + b)[j];
          assert x in a && y in b;
          assert InDir(x, vs[0]);
          var k :| 0 <= k < |vs[1..]| && InDir(y, vs[1..][k]);
          assert vs[1..][k] == vs[k + 1];
        }
      }
    }
  }
}

=== FILE: findings.dfy ===
/** What every check reports: findings graded error or warning, and the exit
    status derived from them. */
module Findings {

  datatype Level = Error | Warning

  /** One diagnostic. `line` is 1-based; 0 marks a finding about a whole
      file. The message is a datatype per check rather than text. */
  datatype Finding<M> = Finding(level: Level, file: string, line: nat, msg: M)

  /** A check either stops on a failed precondition (a missing directory or
      settings file) or runs to the end with its findings. */
  datatype Outcome<M> = Fatal | Done(findings: seq<Finding<M>>)

  function ErrorCount<M>(fs: seq<Finding<M>>): nat {
    if fs == [] then 0 else (if fs[0].level == Error then 1 else 0) + ErrorCount(fs[1..])
  }

  function WarningCount<M>(fs: seq<Finding<M>>): nat {
    if fs == [] then 0 else (if fs[0].level == Warning then 1 else 0) + WarningCount(fs[1..])
  }

  predicate HasError<M>(fs: seq<Finding<M>>) {
    exists i :: 0 <= i < |fs| && fs[i].level == Error
  }

  /** Every finding is counted once, as an error or as a warning. */
  lemma {:induction false} CountsAddUp<M>(fs: seq<Finding<M>>)
    ensures ErrorCount(fs) + WarningCount(fs) == |fs|
  {
    if fs != [] {
      CountsAddUp(fs[1..]);
    }
  }

  /** Some error is counted exactly when some finding is an error. */
  lemma {:induction false} ErrorCountPositive<M>(fs: seq<Finding<M>>)
    ensures ErrorCount(fs) > 0 <==> HasError(fs)
  {
    if fs != [] {
      ErrorCountPositive(fs[1..]);
      if HasError(fs[1..]) {
        var i :| 0 <= i < |fs[1..]| && fs[1..][i].level == Error;
        assert fs[i + 1].level == Error;
      }
      if HasError(fs) && fs[0].level != Error {
        var i :| 0 <= i < |fs| && fs[i].level == Error;
        assert fs[1..][i - 1].level == Error;
      }
    }
  }

  /** Counts of a concatenation add up. */
  lemma {:induction false} ErrorCountConcat<M>(a: seq<Finding<M>>, b: seq<Finding<M>>)
    ensures ErrorCount(a + b) == ErrorCount(a) + ErrorCount(b)
    ensures WarningCount(a + b) == WarningCount(a) + WarningCount(b)
  {
    if a != [] {
      assert (a + b)[1..] == a[1..] + b;
      ErrorCountConcat(a[1..], b);
    } else {
      assert a + b == b;
    }
  }

  /** Findings all of one level count fully at that level. */
  lemma {:induction false} AllAtLevel<M>(fs: seq<Finding<M>>, level: Level)
    requires forall i :: 0 <= i < |fs| ==> fs[i].level == level
    ensures ErrorCount(fs) == (if level == Error then |fs| else 0)
    ensures WarningCount(fs) == (if level == Warning then |fs| else 0)
  {
    if fs != [] {
      AllAtLevel(fs[1..], level);
    }
  }

  /** The process exit status: 1 when the check stopped on a precondition
      or found at least one error, 0 otherwise; warnings never count. */
  function ExitCode<M>(o: Outcome<M>): (code: int)
    ensures code == 0 || code == 1
    ensures code == 1 <==> o.Fatal? || HasError(o.findings)
  {
    if o.Fatal? then 1
    else
      ErrorCountPositive(o.findings);
      if ErrorCount(o.findings) > 0 then 1 else 0
  }
}

=== FILE: guid_refs.dfy ===
/** The GUID reference check (ci/check_guid_references.py): every
    `guid: <32 hex>` reference in an asset file under `Assets/_Project` must
    name a GUID some `.meta` file declares. The index is read from `Assets`,
    `Packages` and `Library/PackageCache`; without the package cache an
    unknown GUID is only a warning. */
module GuidRefs {
  import opened Text
  import opened FileTree
  import opened Findings

  /** A GUID starting with this many zeros is a Unity built-in and never
      reported. */
  const ZeroPrefix: string := "0000000000000000"
  const NullGuid: string := "00000000000000000000000000000000"

  /** Directory names the index walk never descends into. */
  const IndexPrune: set<string> := {"Library", "Temp", "obj", ".git"}

  // ----- The GUID a .meta file declares -----

  /** The second line as `readline()` returns it after a first `readline()`:
      with its newline, or empty when the file has a single line. */
  function SecondLine(content: string): string {
    var first := ReadLine(content);
    ReadLine(content[|first|..])
  }

  /** Line 2 yields its characters 6..38 when it starts with `guid: ` and
      is at least 38 characters long, newline included. */
  function MetaGuid(content: string): (r: Option<string>)
    ensures r.Some? ==> |r.value| == 32
  {
    var line := SecondLine(content);
    if StartsWith(line, "guid: ") && |line| >= 38 then Some(line[6..38]) else None
  }

  /** Reading a line that ends at the first newline. */
  lemma ReadLineOf(a: string, rest: string)
    requires '\n' !in a
    ensures ReadLine(a + "\n" + rest) == a + "\n"
  {
    var s := a + "\n" + rest;
    forall k | 0 <= k < |a| ensures s[k] != '\n' {
      assert s[k] == a[k];
    }
    assert s[|a|] == '\n';
    assert FindChar(s, '\n', 0) == |a|;
  }

  /** A `.meta` file laid out the way Unity writes it declares its GUID:
      any first line, then `guid: ` and the 32 characters. */
  lemma MetaGuidOfHeader(first: string, g: string, rest: string)
    requires '\n' !in first && '\n' !in g && |g| == 32
    ensures MetaGuid(first + "\n" + "guid: " + g + rest) == Some(g)
  {
    var s := first + "\n" + ("guid: " + g + rest);
    assert first + "\n" + "guid: " + g + rest == s;
    var t := "guid: " + g + rest;
    ReadLineOf(first, t);
    assert s[|first| + 1..] == t;
    GuidLine(g, rest);
  }

  /** The line `guid: <g>...` read from its start. */
  lemma GuidLine(g: string, rest: string)
    requires '\n' !in g && |g| == 32
    ensures var line := ReadLine("guid: " + g + rest);
      |line| >= 38 && StartsWith(line, "guid: ") && line[6..38] == g
  {
    var t := "guid: " + g + rest;
    var line := ReadLine(t);
    assert line == t[..|line|];
    forall k | 0 <= k < 38 ensures t[k] != '\n' {
      if k >= 6 {
        assert t[k] == g[k - 6];
      } else {
        assert t[k] == "guid: "[k];
      }
    }
    assert |line| >= 38;
    assert line[..6] == t[..6] == "guid: ";
    assert line[6..38] == t[6..38] == g;
  }

  /** The first line never matters. */
  lemma MetaGuidIgnoresFirstLine(a: string, b: string, rest: string)
    requires '\n' !in a && '\n' !in b
    ensures MetaGuid(a + "\n" + rest) == MetaGuid(b + "\n" + rest)
  {
    ReadLineOf(a, rest);
    ReadLineOf(b, rest);
    assert (a + "\n" + rest)[|a| + 1..] == rest;
    assert (b + "\n" + rest)[|b| + 1..] == rest;
  }

  /** A file of one line declares nothing. */
  lemma SingleLineNoGuid(a: string)
    requires '\n' !in a
    ensures MetaGuid(a) == None
  {
    forall k | 0 <= k < |a| ensures a[k] != '\n' {
      assert a[k] in a;
    }
    assert FindChar(a, '\n', 0) == |a|;
    assert a[|a|..] == [];
  }

  // ----- The index -----

  predicate IsMetaFile(e: Node) {
    e.File? && EndsWith(e.name, ".meta")
  }

  /** The GUIDs the `.meta` files directly in `dir` declare. */
  function DirGuids(dir: Node): set<string> {
    var cs := Entries(dir);
    set i | 0 <= i < |cs| && IsMetaFile(cs[i]) && MetaGuid(cs[i].content).Some? :: MetaGuid(cs[i].content).value
  }

  /** `build_guid_index`: the GUIDs of every directory the pruned walk
      visits. */
  function BuildIndex(d: Node): set<string> {
    set v, g | v in Walk(d, IndexPrune, []) && g in DirGuids(v.dir) :: g
  }

  /** The `.meta` file at entry `i` of the directory at `q` below `d`, a
      directory the pruned walk reaches, declares `g`. */
  ghost predicate DeclaredAt(d: Node, q: Path, i: nat, g: string) {
    && DirAt(d, q, IndexPrune).Some?
    && var cs := Entries(DirAt(d, q, IndexPrune).value);
       i < |cs| && IsMetaFile(cs[i]) && MetaGuid(cs[i].content) == Some(g)
  }

  /** A GUID is indexed exactly when a `.meta` file on a path free of
      `Library`, `Temp`, `obj` and `.git` declares it on its second line. */
  lemma IndexCharacterized(d: Node, g: string)
    requires WellFormed(d)
    ensures g in BuildIndex(d) <==> exists q, i :: DeclaredAt(d, q, i, g)
  {
    if g in BuildIndex(d) {
      var v :| v in Walk(d, IndexPrune, []) && g in DirGuids(v.dir);
      WalkSound(d, IndexPrune, [], v);
      assert v.path[0..] == v.path;
      var cs := Entries(v.dir);
      var i :| 0 <= i < |cs| && IsMetaFile(cs[i]) && MetaGuid(cs[i].content).Some?
        && MetaGuid(cs[i].content).value == g;
      assert DeclaredAt(d, v.path, i, g);
    }
    if exists q, i :: DeclaredAt(d, q, i, g) {
      var q, i :| DeclaredAt(d, q, i, g);
      WalkComplete(d, IndexPrune, [], q);
      var v := Visit([] + q, DirAt(d, q, IndexPrune).value);
      assert g in DirGuids(v.dir);
    }
  }

  // ----- References on a line -----

  /** `guid:\s*([0-9a-f]{32})` at `i`: where the captured hex starts. The
      gap takes every space, since a space is not a hex digit, so the
      greedy reading is the only one. */
  function GuidAt(s: string, i: nat): (r: Option<nat>)
    ensures r.Some? ==> i + 5 <= r.value && r.value + 32 <= |s|
    ensures r.Some? ==> forall k :: r.value <= k < r.value + 32 ==> IsLowerHex(s[k])
  {
    if !StartsAt(s, i, "guid:") then None
    else
      var h := SkipSpace(s, i + 5);
      if h + 32 <= |s| && forall k :: h <= k < h + 32 ==> IsLowerHex(s[k]) then Some(h) else None
  }

  /** `GUID_REF_PATTERN.finditer(line)` from `i`: the captured GUIDs, left to
      right, resuming after each match. */
  function LineGuids(s: string, i: nat): seq<string>
    requires i <= |s|
    decreases |s| - i
  {
    if i == |s| then []
    else match GuidAt(s, i)
      case Some(h) => [s[h..h + 32]] + LineGuids(s, h + 32)
      case None => LineGuids(s, i + 1)
  }

  predicate IsGuid(g: string) {
    |g| == 32 && forall k :: 0 <= k < 32 ==> IsLowerHex(g[k])
  }

  /** Every capture is 32 lower-case hex digits. */
  lemma {:induction false} LineGuidsAreGuids(s: string, i: nat)
    requires i <= |s|
    ensures forall g :: g in LineGuids(s, i) ==> IsGuid(g)
    decreases |s| - i
  {
    if i < |s| {
      match GuidAt(s, i)
      case Some(h) =>
        LineGuidsAreGuids(s, h + 32);
        var g := s[h..h + 32];
        forall k | 0 <= k < 32 ensures IsLowerHex(g[k]) {
          assert g[k] == s[h + k];
        }
      case None =>
        LineGuidsAreGuids(s, i + 1);
    }
  }

  /** A reference written the way Unity writes it is found, once. */
  lemma RenderedGuid(g: string)
    requires IsGuid(g)
    ensures LineGuids("guid: " + g, 0) == [g]
  {
    var s := "guid: " + g;
    assert StartsAt(s, 0, "guid:") by { assert s[..5] == "guid:"; }
    assert SkipSpace(s, 6) == 6 by {
      assert s[6] == g[0];
    }
    assert SkipSpace(s, 5) == 6;
    forall k | 6 <= k < 38 ensures IsLowerHex(s[k]) {
      assert s[k] == g[k - 6];
    }
    assert GuidAt(s, 0) == Some(6);
    assert s[6..38] == g;
    assert LineGuids(s, 38) == [];
  }

  // ----- Broken references in one file -----

  /** A capture the scanner reports: not the null GUID, not zero-prefixed,
      not indexed. */
  predicate Reportable(g: string, known: set<string>) {
    g != NullGuid && !StartsWith(g, ZeroPrefix) && g !in known
  }

  /** The null GUID is zero-prefixed, so its own test never decides. */
  lemma NullGuidSubsumed(g: string, known: set<string>)
    ensures Reportable(g, known) <==> !StartsWith(g, ZeroPrefix) && g !in known
  {
    assert StartsWith(NullGuid, ZeroPrefix) by { assert NullGuid[..16] == ZeroPrefix; }
  }

  datatype BrokenRef = BrokenRef(line: nat, guid: string)

  /** The reportable captures of line number `num`, in order, one per
      occurrence. */
  function LineBroken(num: nat, gs: seq<string>, known: set<string>): (r: seq<BrokenRef>)
    ensures forall b :: multiset(r)[b] == if b.line == num && Reportable(b.guid, known) then multiset(gs)[b.guid] else 0
    ensures forall i :: 0 <= i < |r| ==> r[i].line == num
  {
    if gs == [] then []
    else
      assert gs == [gs[0]] + gs[1..];
      (if Reportable(gs[0], known) then [BrokenRef(num, gs[0])] else []) + LineBroken(num, gs[1..], known)
  }

  /** `scan_file_for_guids` from line index `k` on; lines are numbered
      from 1. */
  function FileBroken(lines: seq<string>, known: set<string>, k: nat): seq<BrokenRef>
    requires k <= |lines|
    decreases |lines| - k
  {
    if k == |lines| then []
    else LineBroken(k + 1, LineGuids(lines[k], 0), known) + FileBroken(lines, known, k + 1)
  }

  function ScanFile(content: string, known: set<string>): seq<BrokenRef> {
    FileBroken(ReadLines(content), known, 0)
  }

  /** Every report names a line from `k + 1` on, and a reportable GUID that
      line captures. */
  lemma {:induction false} FileBrokenSound(lines: seq<string>, known: set<string>, k: nat)
    requires k <= |lines|
    ensures forall b :: b in FileBroken(lines, known, k) ==>
      (&& k + 1 <= b.line <= |lines|
       && Reportable(b.guid, known)
       && b.guid in LineGuids(lines[b.line - 1], 0))
    decreases |lines| - k
  {
    if k < |lines| {
      FileBrokenSound(lines, known, k + 1);
      var head := LineBroken(k + 1, LineGuids(lines[k], 0), known);
      forall b | b in head ensures b.line == k + 1 && Reportable(b.guid, known) && b.guid in LineGuids(lines[k], 0) {
        assert multiset(head)[b] > 0;
      }
    }
  }

  /** Each reportable capture on a line is reported exactly as often as it
      occurs there, and nothing else is reported for that line. */
  lemma {:induction false} FileBrokenCount(lines: seq<string>, known: set<string>, k: nat, j: nat, g: string)
    requires k <= j < |lines|
    ensures multiset(FileBroken(lines, known, k))[BrokenRef(j + 1, g)] ==
      if Reportable(g, known) then multiset(LineGuids(lines[j], 0))[g] else 0
    decreases |lines| - k
  {
    var b := BrokenRef(j + 1, g);
    var head := LineBroken(k + 1, LineGuids(lines[k], 0), known);
    var tail := FileBroken(lines, known, k + 1);
    assert multiset(FileBroken(lines, known, k)) == multiset(head) + multiset(tail);
    if k < j {
      FileBrokenCount(lines, known, k + 1, j, g);
    } else {
      FileBrokenSound(lines, known, k + 1);
      assert b !in tail;
    }
  }

  predicate InLineOrder(r: seq<BrokenRef>) {
    forall i, j :: 0 <= i < j < |r| ==> r[i].line <= r[j].line
  }

  /** Reports come in line order. */
  lemma {:induction false} FileBrokenOrdered(lines: seq<string>, known: set<string>, k: nat)
    requires k <= |lines|
    ensures InLineOrder(FileBroken(lines, known, k))
    decreases |lines| - k
  {
    if k < |lines| {
      FileBrokenOrdered(lines, known, k + 1);
      FileBrokenSound(lines, known, k + 1);
      var head := LineBroken(k + 1, LineGuids(lines[k], 0), known);
      var tail := FileBroken(lines, known, k + 1);
      assert forall j :: 0 <= j < |tail| ==> tail[j].line >= k + 2 by {
        forall j | 0 <= j < |tail| ensures tail[j].line >= k + 2 {
          assert tail[j] in tail;
        }
      }
      OrderedConcat(head, tail, k + 1);
    }
  }

  lemma OrderedConcat(head: seq<BrokenRef>, tail: seq<BrokenRef>, num: nat)
    requires forall i :: 0 <= i < |head| ==> head[i].line == num
    requires forall j :: 0 <= j < |tail| ==> tail[j].line > num
    requires InLineOrder(tail)
    ensures InLineOrder(head + tail)
  {
  }

  // ----- A larger index reports a sub-list -----

  /** `a` is `b` with some elements left out. */
  predicate SubList<T(==)>(a: seq<T>, b: seq<T>)
    decreases |b|
  {
    if b == [] then a == []
    else (a != [] && a[0] == b[0] && SubList(a[1..], b[1..])) || SubList(a, b[1..])
  }

  lemma {:induction false} SubListConcat<T>(a1: seq<T>, b1: seq<T>, a2: seq<T>, b2: seq<T>)
    requires SubList(a1, b1) && SubList(a2, b2)
    ensures SubList(a1 + a2, b1 + b2)
    decreases |b1|
  {
    if b1 == [] {
      assert a1 + a2 == a2 && b1 + b2 == b2;
    } else {
      assert (b1 + b2)[0] == b1[0] && (b1 + b2)[1..] == b1[1..] + b2;
      if a1 != [] && a1[0] == b1[0] && SubList(a1[1..], b1[1..]) {
        SubListConcat(a1[1..], b1[1..], a2, b2);
        assert (a1 + a2)[0] == a1[0] && (a1 + a2)[1..] == a1[1..] + a2;
      } else {
        SubListConcat(a1, b1[1..], a2, b2);
      }
    }
  }

  lemma {:induction false} SubListRefl<T>(a: seq<T>)
    ensures SubList(a, a)
    decreases |a|
  {
    if a != [] {
      SubListRefl(a[1..]);
    }
  }

  lemma SubListKeep<T>(x: T, a: seq<T>, b: seq<T>)
    requires SubList(a, b)
    ensures SubList([x] + a, [x] + b)
  {
    assert ([x] + a)[1..] == a && ([x] + b)[1..] == b;
  }

  lemma SubListDrop<T>(x: T, a: seq<T>, b: seq<T>)
    requires SubList(a, b)
    ensures SubList(a, [x] + b)
  {
    assert ([x] + b)[1..] == b;
  }

  lemma {:induction false} LineBrokenMonotone(num: nat, gs: seq<string>, known: set<string>, more: set<string>)
    requires known <= more
    ensures SubList(LineBroken(num, gs, more), LineBroken(num, gs, known))
    decreases |gs|
  {
    if gs == [] {
    } else {
      LineBrokenMonotone(num, gs[1..], known, more);
      var a := LineBroken(num, gs[1..], more);
      var b := LineBroken(num, gs[1..], known);
      var x := BrokenRef(num, gs[0]);
      if Reportable(gs[0], more) {
        assert LineBroken(num, gs, more) == [x] + a;
        assert LineBroken(num, gs, known) == [x] + b;
        SubListKeep(x, a, b);
      } else if Reportable(gs[0], known) {
        assert LineBroken(num, gs, more) == a;
        assert LineBroken(num, gs, known) == [x] + b;
        SubListDrop(x, a, b);
      } else {
        assert LineBroken(num, gs, more) == a;
        assert LineBroken(num, gs, known) == b;
      }
    }
  }

  /** Scanning with a larger index reports a sub-list of the reports. */
  lemma {:induction false} FileBrokenMonotone(lines: seq<string>, known: set<string>, more: set<string>, k: nat)
    requires known <= more && k <= |lines|
    ensures SubList(FileBroken(lines, more, k), FileBroken(lines, known, k))
    decreases |lines| - k
  {
    if k < |lines| {
      FileBrokenMonotone(lines, known, more, k + 1);
      LineBrokenMonotone(k + 1, LineGuids(lines[k], 0), known, more);
      SubListConcat(LineBroken(k + 1, LineGuids(lines[k], 0), more), LineBroken(k + 1, LineGuids(lines[k], 0), known),
        FileBroken(lines, more, k + 1), FileBroken(lines, known, k + 1));
    }
  }

  // ----- Which files are scanned -----

  /** The last `.` in `s[..n]`. */
  function LastDot(s: string, n: nat): (r: Option<nat>)
    requires n <= |s|
    ensures r.Some? ==> r.value < n && s[r.value] == '.' && forall k :: r.value < k < n ==> s[k] != '.'
    ensures r.None? ==> forall k :: 0 <= k < n ==> s[k] != '.'
  {
    if n == 0 then None
    else if s[n - 1] == '.' then Some(n - 1)
    else LastDot(s, n - 1)
  }

  /** `os.path.splitext(name)[1]`: from the last dot on, unless nothing but
      dots precede it (a hidden file has no extension). */
  function Extension(name: string): (e: string)
    ensures e == [] || (e[0] == '.' && forall k :: 1 <= k < |e| ==> e[k] != '.')
    ensures e != [] ==> EndsWith(name, e)
  {
    match LastDot(name, |name|)
    case None => []
    case Some(d) =>
      if exists k :: 0 <= k < d && name[k] != '.' then
        var e := name[d..];
        assert forall k :: 1 <= k < |e| ==> e[k] == name[d + k];
        e
      else []
  }

  /** A name with a stem that is not all dots, then `ext` (a dot and no
      other dot), has extension `ext`. */
  lemma ExtensionOf(stem: string, ext: string, k: nat)
    requires k < |stem| && stem[k] != '.'
    requires ext != [] && ext[0] == '.' && forall j :: 1 <= j < |ext| ==> ext[j] != '.'
    ensures Extension(stem + ext) == ext
  {
    var s := stem + ext;
    forall j | |stem| < j < |s| ensures s[j] != '.' {
      assert s[j] == ext[j - |stem|];
    }
    assert s[|stem|] == '.';
    assert LastDot(s, |s|) == Some(|stem|);
    assert s[k] == stem[k];
    assert s[|stem|..] == ext;
  }

  /** A name made of dots only has no extension. */
  lemma DotsOnlyNoExtension(name: string)
    requires forall k :: 0 <= k < |name| ==> name[k] == '.'
    ensures Extension(name) == []
  {
  }

  const ScannableExtensions: set<string> := {".prefab", ".unity", ".asset", ".controller",
    ".overrideController", ".mat", ".playable", ".signal", ".spriteatlasv2", ".lighting"}

  /** The selection as written: the lower-cased extension must be in
      `ScannableExtensions`. */
  predicate ScannableAsWritten(name: string) {
    Lower(Extension(name)) in ScannableExtensions
  }

  /** The extensions lower-cased, so that the comparison with a lower-cased
      extension can succeed for each. */
  const LoweredExtensions: set<string> := {".prefab", ".unity", ".asset", ".controller",
    ".overridecontroller", ".mat", ".playable", ".signal", ".spriteatlasv2", ".lighting"}

  /** The corrected selection: every listed extension, compared without case. */
  predicate Scannable(name: string) {
    Lower(Extension(name)) in LoweredExtensions
  }

  /** The file selection: as written, or as corrected. */
  predicate Selects(corrected: bool, name: string) {
    if corrected then Scannable(name) else ScannableAsWritten(name)
  }

  /** `LoweredExtensions` is `ScannableExtensions`, each lower-cased. */
  lemma LoweredExtensionsAreLowered()
    ensures LoweredExtensions == set e | e in ScannableExtensions :: Lower(e)
  {
    LoweringLandsInLowered();
    LoweredAllReached();
  }

  /** Every listed extension, lower-cased, is in the lowered set. */
  lemma LoweringLandsInLowered()
    ensures forall e :: e in ScannableExtensions ==> Lower(e) in LoweredExtensions
  {
    LowerFixes(".prefab");
    LowerFixes(".unity");
    LowerFixes(".asset");
    LowerFixes(".controller");
    LowerOverrideController();
    LowerFixes(".mat");
    LowerFixes(".playable");
    LowerFixes(".signal");
    LowerFixes(".spriteatlasv2");
    LowerFixes(".lighting");
  }

  /** Every lowered extension is the lower-casing of a listed one. */
  lemma LoweredAllReached()
    ensures forall l :: l in LoweredExtensions ==> exists e :: e in ScannableExtensions && Lower(e) == l
  {
    forall l | l in LoweredExtensions ensures exists e :: e in ScannableExtensions && Lower(e) == l {
      if l == ".overridecontroller" {
        LowerOverrideController();
        assert ".overrideController" in ScannableExtensions;
      } else {
        LowerFixes(l);
        assert l in ScannableExtensions;
      }
    }
  }

  /** Text without capitals is its own lower case. */
  lemma LowerFixes(s: string)
    requires forall k :: 0 <= k < |s| ==> !('A' <= s[k] <= 'Z')
    ensures Lower(s) == s
  {
  }

  /** The selection as written differs from the intended one exactly on
      override controllers, which it never scans. */
  lemma AsWrittenMissesOverrideControllers(name: string)
    ensures ScannableAsWritten(name) <==> Scannable(name) && Lower(Extension(name)) != ".overridecontroller"
  {
    NotOverrideController(Lower(Extension(name)));
  }

  /** Text without upper-case letters is not `.overrideController`. */
  lemma NotOverrideController(e: string)
    requires forall k :: 0 <= k < |e| ==> !('A' <= e[k] <= 'Z')
    ensures e != ".overrideController"
  {
    if |e| == 19 {
      assert !('A' <= e[9] <= 'Z');
      assert ".overrideController"[9] == 'C';
    }
  }

  /** The extension of `Player.overrideController` keeps its capital letter. */
  lemma PlayerExtension()
    ensures Extension("Player" + ".overrideController") == ".overrideController"
  {
    ExtensionOf("Player", ".overrideController", 0);
  }

  /** Lower-casing `.overrideController` changes it. */
  lemma LowerOverrideController()
    ensures Lower(".overrideController") == ".overridecontroller"
  {
    var e := Lower(".overrideController");
    forall k | 0 <= k < 19 ensures e[k] == ".overridecontroller"[k] {
      assert e[k] == LowerChar(".overrideController"[k]);
    }
  }

  /** A concrete case: `Player.overrideController` is skipped as written
      and scanned by the corrected selection. */
  lemma OverrideControllerSkipped()
    ensures !ScannableAsWritten("Player" + ".overrideController")
    ensures Scannable("Player" + ".overrideController")
  {
    var name := "Player" + ".overrideController";
    PlayerExtension();
    LowerOverrideController();
    AsWrittenMissesOverrideControllers(name);
  }

  // ----- The check -----

  const AssetsPath: Path := ["Assets"]
  const ScanPath: Path := ["Assets", "_Project"]
  const PackagesPath: Path := ["Packages"]
  const CachePath: Path := ["Library", "PackageCache"]

  /** The index of the directory at `q`, or nothing when there is none. */
  function IndexAt(root: Node, q: Path): set<string> {
    if IsDirAt(root, q) then BuildIndex(Lookup(root, q).value) else {}
  }

  /** `known_guids`: the `Assets` index, joined by the `Packages` and
      package-cache indexes where those directories exist. */
  function KnownGuids(root: Node): set<string> {
    IndexAt(root, AssetsPath) + IndexAt(root, PackagesPath) + IndexAt(root, CachePath)
  }

  /** `Library/PackageCache` is present: broken references are errors rather
      than warnings. */
  function HasPackageCache(root: Node): bool {
    IsDirAt(root, CachePath)
  }

  /** Some `.meta` file below the directory at `top` declares `g`. */
  ghost predicate DeclaredBelow(root: Node, top: Path, g: string) {
    IsDirAt(root, top) && exists q, i :: DeclaredAt(Lookup(root, top).value, q, i, g)
  }

  /** The index below `top` holds exactly the GUIDs some `.meta` file there
      declares. */
  lemma IndexAtCharacterized(root: Node, top: Path, g: string)
    requires WellFormed(root)
    ensures g in IndexAt(root, top) <==> DeclaredBelow(root, top, g)
  {
    if IsDirAt(root, top) {
      LookupWellFormed(root, top);
      IndexCharacterized(Lookup(root, top).value, g);
    }
  }

  /** A GUID is known exactly when a `.meta` file below `Assets`, `Packages`
      or `Library/PackageCache` declares it. */
  lemma KnownCharacterized(root: Node, g: string)
    requires WellFormed(root)
    ensures g in KnownGuids(root) <==>
      DeclaredBelow(root, AssetsPath, g) || DeclaredBelow(root, PackagesPath, g) || DeclaredBelow(root, CachePath, g)
  {
    IndexAtCharacterized(root, AssetsPath, g);
    IndexAtCharacterized(root, PackagesPath, g);
    IndexAtCharacterized(root, CachePath, g);
  }

  datatype GuidMsg = BrokenGuid(guid: string) | UnresolvableGuid(guid: string)

  /** A broken reference is an error when the package cache was indexed,
      and otherwise a warning that it may be a package's GUID. */
  function Report(b: BrokenRef, file: string, hasCache: bool): Finding<GuidMsg> {
    if hasCache then Finding(Error, file, b.line, BrokenGuid(b.guid))
    else Finding(Warning, file, b.line, UnresolvableGuid(b.guid))
  }

  /** The findings of one scanned file, from its broken references: one
      each, in the scanner's order. */
  function FileFindings(file: string, r: seq<BrokenRef>, hasCache: bool): seq<Finding<GuidMsg>>
  {
    seq(|r|, i requires 0 <= i < |r| => Report(r[i], file, hasCache))
  }

  /** A file's broken reference becomes one of its findings. */
  lemma FileReports(file: string, r: seq<BrokenRef>, hasCache: bool, b: BrokenRef)
    requires b in r
    ensures Report(b, file, hasCache) in FileFindings(file, r, hasCache)
  {
    var k :| 0 <= k < |r| && r[k] == b;
    assert FileFindings(file, r, hasCache)[k] == Report(b, file, hasCache);
  }

  /** `scan_file_for_guids` against a fixed index, as a function of the
      file's text. */
  function Scanner(known: set<string>): string -> seq<BrokenRef> {
    content => ScanFile(content, known)
  }

  /** The findings of entry `i` alone: those of its file when the selection
      picks it. */
  function EntryFindings(v: Visit, corrected: bool, scan: string -> seq<BrokenRef>, hasCache: bool, i: nat)
    : seq<Finding<GuidMsg>>
    requires i < |Entries(v.dir)|
  {
    var e := Entries(v.dir)[i];
    if e.File? && Selects(corrected, e.name) then FileFindings(PathString(v.path + [e.name]), scan(e.content), hasCache)
    else []
  }

  /** The findings of the selected files of a visited directory, in listing
      order. */
  function EntriesFindings(v: Visit, corrected: bool, scan: string -> seq<BrokenRef>, hasCache: bool)
    : seq<Finding<GuidMsg>>
  {
    Flatten(seq(|Entries(v.dir)|, i requires 0 <= i < |Entries(v.dir)| => EntryFindings(v, corrected, scan, hasCache, i)))
  }

  /** A finding of a directory is a finding of one of its entries. */
  lemma EntriesFindingsMember(v: Visit, corrected: bool, scan: string -> seq<BrokenRef>, hasCache: bool,
      x: Finding<GuidMsg>)
    ensures x in EntriesFindings(v, corrected, scan, hasCache) <==>
      exists j :: 0 <= j < |Entries(v.dir)| && x in EntryFindings(v, corrected, scan, hasCache, j)
  {
    var xss := seq(|Entries(v.dir)|, i requires 0 <= i < |Entries(v.dir)| => EntryFindings(v, corrected, scan, hasCache, i));
    FlattenMember(xss, x);
    assert forall j :: 0 <= j < |xss| ==> xss[j] == EntryFindings(v, corrected, scan, hasCache, j);
  }

  function DirFindings(corrected: bool, scan: string -> seq<BrokenRef>, hasCache: bool): Visit -> seq<Finding<GuidMsg>> {
    v => EntriesFindings(v, corrected, scan, hasCache)
  }

  /** The directories the scan visits: all of `Assets/_Project`. */
  function ScanVisits(root: Node): seq<Visit>
    requires IsDirAt(root, ScanPath)
  {
    Walk(Lookup(root, ScanPath).value, {}, ScanPath)
  }

  /** The check with either file selection: fatal without `Assets` or
      `Assets/_Project`; otherwise every broken reference of every selected
      file below `Assets/_Project`, walked without pruning. */
  function Check(root: Node, corrected: bool): (o: Outcome<GuidMsg>)
    ensures o.Fatal? <==> !IsDirAt(root, AssetsPath) || !IsDirAt(root, ScanPath)
  {
    if !IsDirAt(root, AssetsPath) || !IsDirAt(root, ScanPath) then Fatal
    else Done(FlatMap(ScanVisits(root), DirFindings(corrected, Scanner(KnownGuids(root)), HasPackageCache(root))))
  }

  /** `check_guid_references` as written: files are picked by
      `ScannableAsWritten`, so override controllers are never scanned. */
  function CheckGuidReferences(root: Node): (o: Outcome<GuidMsg>)
    ensures o.Fatal? <==> !IsDirAt(root, AssetsPath) || !IsDirAt(root, ScanPath)
  {
    Check(root, false)
  }

  /** The check as intended: files are picked by `Scannable`, every listed
      extension compared without case. */
  function CheckGuidReferencesCorrected(root: Node): (o: Outcome<GuidMsg>)
    ensures o.Fatal? <==> !IsDirAt(root, AssetsPath) || !IsDirAt(root, ScanPath)
  {
    Check(root, true)
  }

  /** A scanner whose every report is at a 1-based line and names a
      reportable GUID. */
  ghost predicate ScanSound(scan: string -> seq<BrokenRef>, known: set<string>) {
    forall content, b :: b in scan(content) ==> b.line >= 1 && Reportable(b.guid, known)
  }

  /** `scan_file_for_guids` reports only reportable GUIDs at 1-based
      lines. */
  lemma ScannerSound(known: set<string>)
    ensures ScanSound(Scanner(known), known)
  {
    forall content, b | b in Scanner(known)(content) ensures b.line >= 1 && Reportable(b.guid, known) {
      FileBrokenSound(ReadLines(content), known, 0);
    }
  }

  /** A finding of entry `i` is at a 1-based line, for a reportable GUID,
      and graded by the package cache alone. */
  lemma EntryFindingsSound(v: Visit, corrected: bool, scan: string -> seq<BrokenRef>, known: set<string>,
      hasCache: bool, i: nat, f: Finding<GuidMsg>)
    requires ScanSound(scan, known)
    requires i < |Entries(v.dir)| && f in EntryFindings(v, corrected, scan, hasCache, i)
    ensures f.line >= 1 && (f.level == Error <==> hasCache) && Reportable(f.msg.guid, known)
  {
    var e := Entries(v.dir)[i];
    var r := scan(e.content);
    var fs := EntryFindings(v, corrected, scan, hasCache, i);
    var k :| 0 <= k < |fs| && fs[k] == f;
    assert f == Report(r[k], PathString(v.path + [e.name]), hasCache);
    assert r[k] in scan(e.content);
  }

  /** Every finding of a directory is at a 1-based line, for a reportable
      GUID, and graded by the package cache alone. */
  lemma EntriesFindingsSound(v: Visit, corrected: bool, scan: string -> seq<BrokenRef>, known: set<string>,
      hasCache: bool)
    requires ScanSound(scan, known)
    ensures forall f :: f in EntriesFindings(v, corrected, scan, hasCache) ==>
      f.line >= 1 && (f.level == Error <==> hasCache) && Reportable(f.msg.guid, known)
  {
    forall f | f in EntriesFindings(v, corrected, scan, hasCache)
      ensures f.line >= 1 && (f.level == Error <==> hasCache) && Reportable(f.msg.guid, known)
    {
      EntriesFindingsMember(v, corrected, scan, hasCache, f);
      var j :| 0 <= j < |Entries(v.dir)| && f in EntryFindings(v, corrected, scan, hasCache, j);
      EntryFindingsSound(v, corrected, scan, known, hasCache, j, f);
    }
  }

  /** Entry `j` of a visited directory is a selected file at path `file`. */
  predicate ScannedEntry(v: Visit, corrected: bool, j: nat, file: string) {
    && j < |Entries(v.dir)| && Entries(v.dir)[j].File? && Selects(corrected, Entries(v.dir)[j].name)
    && file == PathString(v.path + [Entries(v.dir)[j].name])
  }

  /** Every finding of a directory comes from one of its selected files. */
  lemma EntriesFindingsSource(v: Visit, corrected: bool, scan: string -> seq<BrokenRef>, hasCache: bool)
    ensures forall f :: f in EntriesFindings(v, corrected, scan, hasCache) ==>
      exists j :: ScannedEntry(v, corrected, j, f.file)
  {
    forall f | f in EntriesFindings(v, corrected, scan, hasCache) ensures exists j :: ScannedEntry(v, corrected, j, f.file) {
      EntriesFindingsMember(v, corrected, scan, hasCache, f);
      var j :| 0 <= j < |Entries(v.dir)| && f in EntryFindings(v, corrected, scan, hasCache, j);
      EntryFindingsFile(v, corrected, scan, hasCache, j, f);
    }
  }

  /** A finding of entry `i` names that entry, a selected file. */
  lemma EntryFindingsFile(v: Visit, corrected: bool, scan: string -> seq<BrokenRef>, hasCache: bool, i: nat,
      f: Finding<GuidMsg>)
    requires i < |Entries(v.dir)| && f in EntryFindings(v, corrected, scan, hasCache, i)
    ensures ScannedEntry(v, corrected, i, f.file)
  {
    var fs := EntryFindings(v, corrected, scan, hasCache, i);
    var k :| 0 <= k < |fs| && fs[k] == f;
  }

  /** A broken reference of a selected file of a directory is among the
      directory's findings. */
  lemma EntriesFindingsReport(v: Visit, corrected: bool, scan: string -> seq<BrokenRef>, hasCache: bool, j: nat,
      b: BrokenRef)
    requires j < |Entries(v.dir)| && Entries(v.dir)[j].File? && Selects(corrected, Entries(v.dir)[j].name)
    requires b in scan(Entries(v.dir)[j].content)
    ensures Report(b, PathString(v.path + [Entries(v.dir)[j].name]), hasCache)
      in EntriesFindings(v, corrected, scan, hasCache)
  {
    var e := Entries(v.dir)[j];
    var x := Report(b, PathString(v.path + [e.name]), hasCache);
    FileReports(PathString(v.path + [e.name]), scan(e.content), hasCache, b);
    assert x in EntryFindings(v, corrected, scan, hasCache, j);
    EntriesFindingsMember(v, corrected, scan, hasCache, x);
  }

  /** A selected file below `Assets/_Project` has each of its broken
      references reported, graded by the package cache. */
  lemma CheckScansSelected(root: Node, corrected: bool, v: Visit, j: nat, b: BrokenRef)
    requires IsDirAt(root, AssetsPath) && IsDirAt(root, ScanPath)
    requires v in ScanVisits(root) && j < |Entries(v.dir)|
    requires Entries(v.dir)[j].File? && Selects(corrected, Entries(v.dir)[j].name)
    requires b in ScanFile(Entries(v.dir)[j].content, KnownGuids(root))
    ensures Report(b, PathString(v.path + [Entries(v.dir)[j].name]), HasPackageCache(root))
      in Check(root, corrected).findings
  {
    var scan := Scanner(KnownGuids(root));
    var hasCache := HasPackageCache(root);
    var vs := ScanVisits(root);
    var x := Report(b, PathString(v.path + [Entries(v.dir)[j].name]), hasCache);
    assert b in scan(Entries(v.dir)[j].content);
    EntriesFindingsReport(v, corrected, scan, hasCache, j, b);
    assert x in DirFindings(corrected, scan, hasCache)(v);
    FlatMapMember(vs, DirFindings(corrected, scan, hasCache), x);
  }

  /** Every finding names a selected file of a directory the scan visits. */
  lemma CheckFindingsFromSelected(root: Node, corrected: bool)
    ensures var o := Check(root, corrected);
      o.Done? ==> forall f :: f in o.findings ==>
        exists v, j :: v in ScanVisits(root) && ScannedEntry(v, corrected, j, f.file)
  {
    var o := Check(root, corrected);
    if o.Done? {
      var scan := Scanner(KnownGuids(root));
      var per := DirFindings(corrected, scan, HasPackageCache(root));
      var vs := ScanVisits(root);
      forall f | f in o.findings ensures exists v, j :: v in vs && ScannedEntry(v, corrected, j, f.file) {
        FlatMapMember(vs, per, f);
        var k :| 0 <= k < |vs| && f in per(vs[k]);
        EntriesFindingsSource(vs[k], corrected, scan, HasPackageCache(root));
        var j :| ScannedEntry(vs[k], corrected, j, f.file);
        assert vs[k] in vs;
      }
    }
  }

  /** Every finding names an unindexed, non-built-in GUID at a 1-based line,
      and is an error exactly when the package cache exists. */
  lemma CheckFindingsSound(root: Node, corrected: bool)
    ensures var o := Check(root, corrected);
      o.Done? ==> forall f :: f in o.findings ==>
        && f.line >= 1
        && f.msg.guid !in KnownGuids(root)
        && !StartsWith(f.msg.guid, ZeroPrefix)
        && (f.level == Error <==> HasPackageCache(root))
  {
    var o := Check(root, corrected);
    if o.Done? {
      var known := KnownGuids(root);
      var hasCache := HasPackageCache(root);
      var vs := ScanVisits(root);
      var per := DirFindings(corrected, Scanner(known), hasCache);
      ScannerSound(known);
      forall f | f in o.findings
        ensures f.line >= 1 && Reportable(f.msg.guid, known) && (f.level == Error <==> hasCache)
      {
        FlatMapMember(vs, per, f);
        var k :| 0 <= k < |vs| && f in per(vs[k]);
        EntriesFindingsSound(vs[k], corrected, Scanner(known), known, hasCache);
      }
    }
  }

  /** The exit status is 1 exactly when a precondition failed or the
      package cache exists and some reference is broken; without the cache
      the check passes whenever its directories exist. */
  lemma CheckExit(root: Node, corrected: bool)
    ensures var o := Check(root, corrected);
      ExitCode(o) == 1 <==> o.Fatal? || (HasPackageCache(root) && o.findings != [])
  {
    var o := Check(root, corrected);
    CheckFindingsSound(root, corrected);
    if o.Done? && o.findings != [] {
      assert o.findings[0] in o.findings;
    }
  }

  /** A file whose extension is `.overrideController`, in any case. */
  predicate OverrideController(name: string) {
    Lower(Extension(name)) == ".overridecontroller"
  }

  /** Entry `j` is a file at path `file`, selected as written, and not an
      override controller. */
  predicate PlainEntry(v: Visit, j: nat, file: string) {
    ScannedEntry(v, false, j, file) && !OverrideController(Entries(v.dir)[j].name)
  }

  /** An entry the selection as written picks is no override controller. */
  lemma ScannedIsPlain(v: Visit, j: nat, file: string)
    requires ScannedEntry(v, false, j, file)
    ensures PlainEntry(v, j, file)
  {
    AsWrittenMissesOverrideControllers(Entries(v.dir)[j].name);
  }

  /** As written, no finding ever names an override controller: every
      reported file has an extension other than `.overrideController` in any
      case. */
  lemma AsWrittenSkipsOverrideControllers(root: Node)
    ensures var o := CheckGuidReferences(root);
      o.Done? ==> forall f :: f in o.findings ==>
        exists v, j :: v in ScanVisits(root) && PlainEntry(v, j, f.file)
  {
    var o := CheckGuidReferences(root);
    if o.Done? {
      CheckFindingsFromSelected(root, false);
      forall f | f in o.findings
        ensures exists v, j :: v in ScanVisits(root) && PlainEntry(v, j, f.file)
      {
        var v, j :| v in ScanVisits(root) && ScannedEntry(v, false, j, f.file);
        ScannedIsPlain(v, j, f.file);
      }
    }
  }

  /** As intended, a broken reference in an override controller below
      `Assets/_Project` is reported, graded by the package cache. */
  lemma CorrectedReportsOverrideControllers(root: Node, v: Visit, j: nat, b: BrokenRef)
    requires IsDirAt(root, AssetsPath) && IsDirAt(root, ScanPath)
    requires v in ScanVisits(root) && j < |Entries(v.dir)| && Entries(v.dir)[j].File?
    requires OverrideController(Entries(v.dir)[j].name)
    requires b in ScanFile(Entries(v.dir)[j].content, KnownGuids(root))
    ensures Report(b, PathString(v.path + [Entries(v.dir)[j].name]), HasPackageCache(root))
      in CheckGuidReferencesCorrected(root).findings
  {
    CheckScansSelected(root, true, v, j, b);
  }
}

=== FILE: layer_check.dfy ===
/** The layer / tag consistency check (ci/check_layer_consistency.py):
    every layer, sorting layer and tag a C# script names must be defined in
    `TagManager.asset` (tags may also be Unity built-ins). A finding in a
    script under an `Editor`/`editor` folder is a warning, anywhere else an
    error. */
module LayerCheck {
  import opened Text
  import opened FileTree
  import opened Findings
  import opened TagManager
  import opened CSharpRefs

  /** Tags Unity always defines. */
  const BuiltinTags: set<string> := {"Untagged", "Respawn", "Finish", "EditorOnly", "MainCamera",
    "Player", "GameController", "Enemy"}

  const EditorSegments: set<string> := {"Editor", "editor"}

  /** Directory names the script walk never descends into. */
  const ScriptPrune: set<string> := {".git", "obj"}

  // ----- Editor scripts -----

  /** `is_editor_script`: backslashes read as slashes, then some
      `/`-separated segment is an editor folder name. */
  predicate IsEditorScript(path: string) {
    var parts := Split(ReplaceChar(path, '\\', '/'), '/');
    exists k :: 0 <= k < |parts| && parts[k] in EditorSegments
  }

  /** A script is an editor script exactly when some maximal run of the
      path without separators (`/` or `\`) is `Editor` or `editor`. */
  lemma EditorScriptIffSegment(path: string)
    ensures IsEditorScript(path) <==>
      exists a: nat, b: nat :: IsField(ReplaceChar(path, '\\', '/'), '/', a, b)
        && ReplaceChar(path, '\\', '/')[a..b] in EditorSegments
  {
    var t := ReplaceChar(path, '\\', '/');
    var parts := Split(t, '/');
    if IsEditorScript(path) {
      var k :| 0 <= k < |parts| && parts[k] in EditorSegments;
      var a := PartIsField(t, '/', k);
      assert IsField(t, '/', a, a + |parts[k]|) && t[a..a + |parts[k]|] in EditorSegments;
    }
    if exists a: nat, b: nat :: IsField(t, '/', a, b) && t[a..b] in EditorSegments {
      var a: nat, b: nat :| IsField(t, '/', a, b) && t[a..b] in EditorSegments;
      FieldIsPart(t, '/', a, b);
      var k :| 0 <= k < |parts| && parts[k] == t[a..b];
    }
  }

  // ----- References on one line -----

  datatype RefKind = Layer | SortingLayer | Tag

  /** One name a script refers to, and what kind of name it must be. */
  datatype Ref = Ref(kind: RefKind, name: string)

  function Tagged(kind: RefKind, xs: seq<string>): seq<Ref>
  {
    seq(|xs|, i requires 0 <= i < |xs| => Ref(kind, xs[i]))
  }

  /** The references on a line in the order the source reports them: all
      `NameToLayer` matches, then every quoted string of each `GetMask`
      call, then `sortingLayerName` assignments, then `CompareTag` calls. */
  function LineRefs(line: string): seq<Ref> {
    Tagged(Layer, FindAll(NameToLayer, line, 0))
    + Tagged(Layer, FindAll(GetMask, line, 0))
    + Tagged(SortingLayer, FindAll(SortingLayerAssign, line, 0))
    + Tagged(Tag, FindAll(CompareTag, line, 0))
  }

  /** A reference the parsed TagManager accounts for. */
  predicate Known(n: Names, r: Ref) {
    match r.kind
    case Layer => r.name in n.layers
    case SortingLayer => r.name in n.sortingLayers
    case Tag => r.name in n.tags + BuiltinTags
  }

  /** The references that are not accounted for, in order, each as often
      as it occurs. */
  function Unknown(n: Names, refs: seq<Ref>): (u: seq<Ref>)
    ensures forall r :: multiset(u)[r] == if Known(n, r) then 0 else multiset(refs)[r]
  {
    if refs == [] then []
    else
      var rest := Unknown(n, refs[1..]);
      assert refs == [refs[0]] + refs[1..];
      if Known(n, refs[0]) then rest else [refs[0]] + rest
  }

  /** The message of a finding: which kind of name is undefined, and the
      name. */
  datatype LayerMsg = NotDefined(kind: RefKind, name: string)

  function LineFindings(level: Level, file: string, num: nat, line: string, n: Names): (fs: seq<Finding<LayerMsg>>)
    ensures |fs| == |Unknown(n, LineRefs(line))|
    ensures forall i :: 0 <= i < |fs| ==> fs[i].level == level && fs[i].file == file && fs[i].line == num
  {
    var u := Unknown(n, LineRefs(line));
    seq(|u|, i requires 0 <= i < |u| => Finding(level, file, num, NotDefined(u[i].kind, u[i].name)))
  }

  /** A line yields a finding for a name exactly when it refers to that name
      and the TagManager does not define it. */
  lemma LineFindingsCharacterized(level: Level, file: string, num: nat, line: string, n: Names, r: Ref)
    ensures Finding(level, file, num, NotDefined(r.kind, r.name)) in LineFindings(level, file, num, line, n)
      <==> r in LineRefs(line) && !Known(n, r)
  {
    if Finding(level, file, num, NotDefined(r.kind, r.name)) in LineFindings(level, file, num, line, n) {
      LineFindingSound(level, file, num, line, n, r);
    }
    if r in LineRefs(line) && !Known(n, r) {
      LineFindingComplete(level, file, num, line, n, r);
    }
  }

  /** A finding on a line names a reference of that line the project lacks. */
  lemma LineFindingSound(level: Level, file: string, num: nat, line: string, n: Names, r: Ref)
    requires Finding(level, file, num, NotDefined(r.kind, r.name)) in LineFindings(level, file, num, line, n)
    ensures r in LineRefs(line) && !Known(n, r)
  {
    var u := Unknown(n, LineRefs(line));
    var fs := LineFindings(level, file, num, line, n);
    var i :| 0 <= i < |fs| && fs[i] == Finding(level, file, num, NotDefined(r.kind, r.name));
    assert u[i] == r;
    assert multiset(u)[r] > 0;
  }

  /** Each reference of a line the project lacks gets a finding. */
  lemma LineFindingComplete(level: Level, file: string, num: nat, line: string, n: Names, r: Ref)
    requires r in LineRefs(line) && !Known(n, r)
    ensures Finding(level, file, num, NotDefined(r.kind, r.name)) in LineFindings(level, file, num, line, n)
  {
    var u := Unknown(n, LineRefs(line));
    var fs := LineFindings(level, file, num, line, n);
    assert multiset(LineRefs(line))[r] > 0;
    assert r in multiset(u);
    var i :| 0 <= i < |u| && u[i] == r;
    assert fs[i] == Finding(level, file, num, NotDefined(r.kind, r.name));
  }

  // ----- One script -----

  /** The level of a script's findings: warnings in editor scripts, errors elsewhere. */
  function ScriptLevel(file: string): Level
  {
    if IsEditorScript(file) then Warning else Error
  }

  /** The findings of lines `k..` of a script, numbered from 1. */
  function LinesFindings(level: Level, file: string, lines: seq<string>, n: Names, k: nat): seq<Finding<LayerMsg>>
    requires k <= |lines|
    decreases |lines| - k
  {
    if k == |lines| then []
    else LineFindings(level, file, k + 1, lines[k], n) + LinesFindings(level, file, lines, n, k + 1)
  }

  /** Every finding of lines `k..` carries the script's level and path
      and the 1-based number of a line from `k` on. */
  lemma {:induction false} LinesFindingsShape(level: Level, file: string, lines: seq<string>, n: Names, k: nat)
    requires k <= |lines|
    ensures forall f :: f in LinesFindings(level, file, lines, n, k) ==>
      f.level == level && f.file == file && k + 1 <= f.line <= |lines|
    decreases |lines| - k
  {
    if k < |lines| {
      LinesFindingsShape(level, file, lines, n, k + 1);
      var head := LineFindings(level, file, k + 1, lines[k], n);
      forall f | f in head ensures f.level == level && f.file == file && f.line == k + 1 {
        var i :| 0 <= i < |head| && head[i] == f;
      }
    }
  }

  /** A finding for line `j + 1` comes from line `j` alone: it is there
      exactly when that line refers to an undefined name. */
  lemma {:induction false} LinesFindingsCharacterized(level: Level, file: string, lines: seq<string>, n: Names,
      k: nat, j: nat, r: Ref)
    requires k <= j < |lines|
    ensures Finding(level, file, j + 1, NotDefined(r.kind, r.name)) in LinesFindings(level, file, lines, n, k)
      <==> r in LineRefs(lines[j]) && !Known(n, r)
    decreases |lines| - k
  {
    var f := Finding(level, file, j + 1, NotDefined(r.kind, r.name));
    var head := LineFindings(level, file, k + 1, lines[k], n);
    var tail := LinesFindings(level, file, lines, n, k + 1);
    assert LinesFindings(level, file, lines, n, k) == head + tail;
    if k < j {
      LinesFindingsCharacterized(level, file, lines, n, k + 1, j, r);
      assert f !in head by {
        forall g | g in head ensures g.line == k + 1 {
          var i :| 0 <= i < |head| && head[i] == g;
        }
      }
    } else {
      LineFindingsCharacterized(level, file, j + 1, lines[j], n, r);
      LinesFindingsShape(level, file, lines, n, k + 1);
      assert f !in tail;
    }
  }

  /** `readlines()` of a script, scanned line by line. */
  function ScriptFindings(file: string, content: string, n: Names): seq<Finding<LayerMsg>> {
    LinesFindings(ScriptLevel(file), file, ReadLines(content), n, 0)
  }

  /** In an editor script every finding is a warning and adds only to the
      warning count; elsewhere every finding is an error. */
  lemma ScriptCounts(file: string, content: string, n: Names)
    ensures var fs := ScriptFindings(file, content, n);
      && ErrorCount(fs) == (if IsEditorScript(file) then 0 else |fs|)
      && WarningCount(fs) == (if IsEditorScript(file) then |fs| else 0)
  {
    var fs := ScriptFindings(file, content, n);
    LinesFindingsShape(ScriptLevel(file), file, ReadLines(content), n, 0);
    assert forall i :: 0 <= i < |fs| ==> fs[i] in fs;
    AllAtLevel(fs, ScriptLevel(file));
  }

  // ----- The walk over the scripts -----

  predicate IsScript(e: Node) {
    e.File? && EndsWith(e.name, ".cs")
  }

  /** The findings of entry `i` alone: those of its script when it is a
      `.cs` file, none otherwise. */
  function EntryFindings(v: Visit, n: Names, i: nat): seq<Finding<LayerMsg>>
    requires i < |Entries(v.dir)|
  {
    var e := Entries(v.dir)[i];
    if IsScript(e) then ScriptFindings(PathString(v.path + [e.name]), e.content, n) else []
  }

  /** The findings of the `.cs` files of one visited directory, in listing
      order. */
  function EntriesFindings(v: Visit, n: Names): seq<Finding<LayerMsg>> {
    Flatten(seq(|Entries(v.dir)|, i requires 0 <= i < |Entries(v.dir)| => EntryFindings(v, n, i)))
  }

  /** A finding of a directory is a finding of one of its entries. */
  lemma EntriesFindingsMember(v: Visit, n: Names, x: Finding<LayerMsg>)
    ensures x in EntriesFindings(v, n) <==> exists j :: 0 <= j < |Entries(v.dir)| && x in EntryFindings(v, n, j)
  {
    var xss := seq(|Entries(v.dir)|, i requires 0 <= i < |Entries(v.dir)| => EntryFindings(v, n, i));
    FlattenMember(xss, x);
    assert forall j :: 0 <= j < |xss| ==> xss[j] == EntryFindings(v, n, j);
  }

  function DirFindings(n: Names): Visit -> seq<Finding<LayerMsg>> {
    v => EntriesFindings(v, n)
  }

  /** The directory walked: `Assets/_Project/Scripts` when it is a
      directory, otherwise `Assets`; a missing or non-directory `Assets`
      walks nothing. */
  function ScriptVisits(root: Node): seq<Visit> {
    var scripts: Path := ["Assets", "_Project", "Scripts"];
    match Lookup(root, scripts)
    case Some(Dir(name, cs)) => Walk(Dir(name, cs), ScriptPrune, scripts)
    case _ =>
      match Lookup(root, ["Assets"])
      case Some(a) => Walk(a, ScriptPrune, ["Assets"])
      case None => []
  }

  /** `scan_scripts`: all findings, directory by directory in walk order. */
  function ScanScripts(root: Node, n: Names): seq<Finding<LayerMsg>> {
    FlatMap(ScriptVisits(root), DirFindings(n))
  }

  /** `check_layer_consistency`: fatal without a TagManager, otherwise the
      scan's findings. */
  function CheckLayerConsistency(root: Node): (o: Outcome<LayerMsg>)
    ensures o.Fatal? <==> ParseTagManager(root).None?
  {
    match ParseTagManager(root)
    case None => Fatal
    case Some(n) => Done(ScanScripts(root, n))
  }

  /** Entry `j` of a visited directory is a `.cs` file at path `file`. */
  predicate ScriptEntry(v: Visit, j: nat, file: string) {
    j < |Entries(v.dir)| && IsScript(Entries(v.dir)[j]) && file == PathString(v.path + [Entries(v.dir)[j].name])
  }

  /** Finding `f` flags, on its own line, a reference the TagManager does
      not define. */
  predicate FlagsLine(n: Names, f: Finding<LayerMsg>, lines: seq<string>) {
    && 1 <= f.line <= |lines|
    && Ref(f.msg.kind, f.msg.name) in LineRefs(lines[f.line - 1])
    && !Known(n, Ref(f.msg.kind, f.msg.name))
  }

  /** Finding `f` comes from the script at entry `j` of `v` and flags one
      of its lines. */
  predicate FromScript(n: Names, v: Visit, j: nat, f: Finding<LayerMsg>) {
    ScriptEntry(v, j, f.file) && FlagsLine(n, f, ReadLines(Entries(v.dir)[j].content))
  }

  /** A finding of a script carries the script's level and path, and flags
      one of its lines. */
  lemma LinesFindingSound(level: Level, file: string, lines: seq<string>, n: Names, f: Finding<LayerMsg>)
    requires f in LinesFindings(level, file, lines, n, 0)
    ensures f.level == level && f.file == file && FlagsLine(n, f, lines)
  {
    LinesFindingsShape(level, file, lines, n, 0);
    LinesFindingFlags(level, file, lines, n, f);
  }

  /** A finding on a line of a script flags that line. */
  lemma LinesFindingFlags(level: Level, file: string, lines: seq<string>, n: Names, f: Finding<LayerMsg>)
    requires f in LinesFindings(level, file, lines, n, 0)
    requires f.level == level && f.file == file && 1 <= f.line <= |lines|
    ensures FlagsLine(n, f, lines)
  {
    var j: nat := f.line - 1;
    var r := Ref(f.msg.kind, f.msg.name);
    assert f == Finding(level, file, j + 1, NotDefined(r.kind, r.name));
    LinesFindingsCharacterized(level, file, lines, n, 0, j, r);
  }

  /** A finding of entry `j` comes from that script, at its level, and flags
      one of its lines. */
  lemma EntryFindingSound(v: Visit, n: Names, j: nat, f: Finding<LayerMsg>)
    requires j < |Entries(v.dir)| && f in EntryFindings(v, n, j)
    ensures FromScript(n, v, j, f) && f.level == ScriptLevel(f.file)
  {
    var e := Entries(v.dir)[j];
    LinesFindingSound(ScriptLevel(PathString(v.path + [e.name])), PathString(v.path + [e.name]), ReadLines(e.content), n, f);
  }

  /** Every finding of one directory is graded by its own path. */
  lemma EntriesLevels(v: Visit, n: Names)
    ensures forall f :: f in EntriesFindings(v, n) ==> (f.level == Error <==> !IsEditorScript(f.file))
  {
    forall f | f in EntriesFindings(v, n) ensures f.level == Error <==> !IsEditorScript(f.file) {
      EntriesFindingsMember(v, n, f);
      var j :| 0 <= j < |Entries(v.dir)| && f in EntryFindings(v, n, j);
      EntryFindingSound(v, n, j, f);
    }
  }

  /** Across the whole scan, a finding is an error exactly when its script
      is not an editor script. */
  lemma ScanLevels(root: Node, n: Names)
    ensures forall f :: f in ScanScripts(root, n) ==> (f.level == Error <==> !IsEditorScript(f.file))
  {
    var vs := ScriptVisits(root);
    forall f | f in ScanScripts(root, n) ensures f.level == Error <==> !IsEditorScript(f.file) {
      FlatMapMember(vs, DirFindings(n), f);
      var k :| 0 <= k < |vs| && f in DirFindings(n)(vs[k]);
      EntriesLevels(vs[k], n);
    }
  }

  /** The exit status is 1 exactly when the TagManager is missing or some
      script outside an editor folder refers to an undefined name. */
  lemma CheckExit(root: Node)
    ensures var o := CheckLayerConsistency(root);
      ExitCode(o) == 1 <==>
        o.Fatal? || exists f :: f in o.findings && !IsEditorScript(f.file)
  {
    var o := CheckLayerConsistency(root);
    if o.Done? {
      ScanLevels(root, ParseTagManager(root).value);
      ErrorsOutsideEditor(o.findings);
    }
  }

  /** Findings graded by their script have an error exactly when one comes
      from outside an editor folder. */
  lemma ErrorsOutsideEditor(fs: seq<Finding<LayerMsg>>)
    requires forall f :: f in fs ==> (f.level == Error <==> !IsEditorScript(f.file))
    ensures HasError(fs) <==> exists f :: f in fs && !IsEditorScript(f.file)
  {
    if HasError(fs) {
      var i :| 0 <= i < |fs| && fs[i].level == Error;
      assert fs[i] in fs;
    }
    if exists f :: f in fs && !IsEditorScript(f.file) {
      var f :| f in fs && !IsEditorScript(f.file);
      var i :| 0 <= i < |fs| && fs[i] == f;
      assert fs[i].level == Error;
    }
  }

  /** Every reference a walked `.cs` file makes to a name the TagManager
      does not define is reported, on its 1-based line, at the script's
      level. */
  lemma ScanReportsScript(root: Node, n: Names, v: Visit, j: nat, k: nat, r: Ref)
    requires v in ScriptVisits(root) && j < |Entries(v.dir)| && IsScript(Entries(v.dir)[j])
    requires k < |ReadLines(Entries(v.dir)[j].content)|
    requires r in LineRefs(ReadLines(Entries(v.dir)[j].content)[k]) && !Known(n, r)
    ensures var file := PathString(v.path + [Entries(v.dir)[j].name]);
      Finding(ScriptLevel(file), file, k + 1, NotDefined(r.kind, r.name)) in ScanScripts(root, n)
  {
    var e := Entries(v.dir)[j];
    var file := PathString(v.path + [e.name]);
    var x := Finding(ScriptLevel(file), file, k + 1, NotDefined(r.kind, r.name));
    LinesFindingsCharacterized(ScriptLevel(file), file, ReadLines(e.content), n, 0, k, r);
    assert x in EntryFindings(v, n, j);
    EntriesFindingsMember(v, n, x);
    assert x in DirFindings(n)(v);
    var vs := ScriptVisits(root);
    var i :| 0 <= i < |vs| && vs[i] == v;
    FlatMapMember(vs, DirFindings(n), x);
  }

  /** Every finding of the scan comes from a walked `.cs` file, at the
      script's level, and flags a reference on its line that the TagManager
      does not define. */
  lemma ScanFindingsSound(root: Node, n: Names)
    ensures forall f :: f in ScanScripts(root, n) ==>
      f.level == ScriptLevel(f.file) && exists v, j: nat :: v in ScriptVisits(root) && FromScript(n, v, j, f)
  {
    var vs := ScriptVisits(root);
    forall f | f in ScanScripts(root, n)
      ensures f.level == ScriptLevel(f.file)
      ensures exists v, j: nat :: v in vs && FromScript(n, v, j, f)
    {
      FlatMapMember(vs, DirFindings(n), f);
      var k :| 0 <= k < |vs| && f in DirFindings(n)(vs[k]);
      EntriesFindingsMember(vs[k], n, f);
      var j :| 0 <= j < |Entries(vs[k].dir)| && f in EntryFindings(vs[k], n, j);
      EntryFindingSound(vs[k], n, j, f);
      assert vs[k] in vs;
    }
  }
}

=== FILE: meta_files.dfy ===
/** The sidecar bijection check (ci/check_meta_files.py): below `Assets/`,
    every file and every unpruned subdirectory needs a `<name>.meta` beside
    it (an error when missing), and every `.meta` file needs the entry it
    describes (a warning when that entry is gone). */
module MetaFiles {
  import opened Text
  import opened FileTree
  import opened Findings

  /** Directory names the walk never descends into and never requires a
      sidecar for. */
  const SkipDirs: set<string> := {"Library", "Temp", "obj", "Logs", "Build", "Builds",
    "MemoryCaptures", "UserSettings", ".git", ".vs", ".vscode",
    ".idea", ".gradle", ".beads", ".claude", "ci", ".github"}

  predicate IsMeta(name: string) {
    EndsWith(name, ".meta")
  }

  /** The entry a sidecar describes: its name without `.meta`. */
  function AssetName(name: string): string
    requires IsMeta(name)
  {
    name[..|name| - 5]
  }

  /** The three per-directory passes, in the order the source runs them. */
  datatype Rule = FileWithoutMeta | OrphanedMeta | DirWithoutMeta

  /** Entry `e` of the listing `all` is reported by `rule`. */
  predicate Flagged(rule: Rule, all: seq<Node>, e: Node) {
    match rule
    case FileWithoutMeta => e.File? && !IsMeta(e.name) && !EntryExists(all, e.name + ".meta")
    case OrphanedMeta => e.File? && IsMeta(e.name) && !EntryExists(all, AssetName(e.name))
    case DirWithoutMeta => e.Dir? && e.name !in SkipDirs && !EntryExists(all, e.name + ".meta")
  }

  /** Some entry of `cs` from index `i` on is called `name` and kept by
      `keep`. */
  predicate KeptFrom(cs: seq<Node>, keep: Node -> bool, i: nat, name: string) {
    exists j :: i <= j < |cs| && cs[j].name == name && keep(cs[j])
  }

  /** Some entry of `cs` is called `name` and reported by `rule`. */
  predicate FlaggedEntry(rule: Rule, cs: seq<Node>, name: string) {
    exists i :: 0 <= i < |cs| && cs[i].name == name && Flagged(rule, cs, cs[i])
  }

  /** The paths, under `dir`, of the entries of `cs` from index `i` on
      that `keep` accepts, in listing order. */
  function Pick(cs: seq<Node>, dir: Path, keep: Node -> bool, i: nat): (r: seq<Path>)
    requires i <= |cs|
    ensures forall x :: x in r ==> |x| == |dir| + 1 && x[..|dir|] == dir
    decreases |cs| - i
  {
    if i == |cs| then []
    else (if keep(cs[i]) then [dir + [cs[i].name]] else []) + Pick(cs, dir, keep, i + 1)
  }

  /** A path is picked from index `i` on exactly when it is `dir` plus the
      name of a kept entry at or after `i`. */
  lemma PickMember(cs: seq<Node>, dir: Path, keep: Node -> bool, i: nat, x: Path)
    requires i <= |cs|
    ensures x in Pick(cs, dir, keep, i) <==>
      |x| == |dir| + 1 && x[..|dir|] == dir && KeptFrom(cs, keep, i, x[|dir|])
  {
    if x in Pick(cs, dir, keep, i) {
      PickSound(cs, dir, keep, i, x);
    }
    if |x| == |dir| + 1 && x[..|dir|] == dir && KeptFrom(cs, keep, i, x[|dir|]) {
      PickComplete(cs, dir, keep, i, x);
    }
  }

  /** A picked path is `dir` extended by the name of a kept child. */
  lemma {:induction false} PickSound(cs: seq<Node>, dir: Path, keep: Node -> bool, i: nat, x: Path)
    requires i <= |cs| && x in Pick(cs, dir, keep, i)
    ensures |x| == |dir| + 1 && x[..|dir|] == dir && KeptFrom(cs, keep, i, x[|dir|])
    decreases |cs| - i
  {
    var rest := Pick(cs, dir, keep, i + 1);
    if x in rest {
      PickSound(cs, dir, keep, i + 1, x);
      var j :| i + 1 <= j < |cs| && cs[j].name == x[|dir|] && keep(cs[j]);
    } else {
      assert x == dir + [cs[i].name] && keep(cs[i]);
      assert x[|dir|] == cs[i].name;
    }
  }

  /** The name of every kept child is picked under `dir`. */
  lemma {:induction false} PickComplete(cs: seq<Node>, dir: Path, keep: Node -> bool, i: nat, x: Path)
    requires i <= |cs| && |x| == |dir| + 1 && x[..|dir|] == dir && KeptFrom(cs, keep, i, x[|dir|])
    ensures x in Pick(cs, dir, keep, i)
    decreases |cs| - i
  {
    var j :| i <= j < |cs| && cs[j].name == x[|dir|] && keep(cs[j]);
    var head: seq<Path> := if keep(cs[i]) then [dir + [cs[i].name]] else [];
    assert Pick(cs, dir, keep, i) == head + Pick(cs, dir, keep, i + 1);
    if j == i {
      assert x == dir + [cs[i].name];
      assert x in head;
    } else {
      PickComplete(cs, dir, keep, i + 1, x);
    }
  }

  /** A listing with unique names yields each path at most once. */
  lemma {:induction false} PickNoDup(cs: seq<Node>, dir: Path, keep: Node -> bool, i: nat)
    requires i <= |cs| && UniqueNames(cs)
    ensures NoDup(Pick(cs, dir, keep, i))
    decreases |cs| - i
  {
    if i < |cs| {
      PickNoDup(cs, dir, keep, i + 1);
      var head: seq<Path> := if keep(cs[i]) then [dir + [cs[i].name]] else [];
      var rest := Pick(cs, dir, keep, i + 1);
      forall x | x in head ensures x !in rest {
        PickMember(cs, dir, keep, i + 1, x);
        assert x[|dir|] == cs[i].name;
      }
      NoDupConcat(head, rest);
    }
  }

  /** The entries of the listing `all` that `rule` reports. */
  function Reports(rule: Rule, all: seq<Node>): Node -> bool {
    e => Flagged(rule, all, e)
  }

  /** One pass of the source over a visited directory's listing. */
  function Select(v: Visit, rule: Rule): seq<Path> {
    Pick(Entries(v.dir), v.path, Reports(rule, Entries(v.dir)), 0)
  }

  /** The `missing` entries the source appends while visiting one directory:
      its files first, then its unpruned subdirectories. */
  function DirMissing(v: Visit): seq<Path> {
    Select(v, FileWithoutMeta) + Select(v, DirWithoutMeta)
  }

  /** The `orphaned` entries the source appends while visiting one directory. */
  function DirOrphans(v: Visit): seq<Path> {
    Select(v, OrphanedMeta)
  }

  function AssetsWalk(assets: Node): seq<Visit> {
    Walk(assets, SkipDirs, ["Assets"])
  }

  /** The `missing` list: paths relative to the project root. */
  function Missing(assets: Node): seq<Path> {
    FlatMap(AssetsWalk(assets), DirMissing)
  }

  /** The `orphaned` list. */
  function Orphaned(assets: Node): seq<Path> {
    FlatMap(AssetsWalk(assets), DirOrphans)
  }

  /** The reference reading of the check: `x` is `Assets/<q>/<name>`, the
      walk reaches directory `q`, and `rule` reports its entry `name`. */
  predicate ReportedAt(assets: Node, x: Path, rule: Rule) {
    && |x| >= 2 && x[0] == "Assets"
    && var q := x[1..|x| - 1];
       DirAt(assets, q, SkipDirs).Some?
       && FlaggedEntry(rule, Entries(DirAt(assets, q, SkipDirs).value), x[|x| - 1])
  }

  /** `x` is reported while the walk visits `v` exactly when `rule` reports
      the entry of `v` that `x` names. */
  lemma SelectAtVisit(v: Visit, rule: Rule, x: Path)
    ensures x in Select(v, rule) <==>
      InDir(x, v) && FlaggedEntry(rule, Entries(v.dir), x[|x| - 1])
  {
    var cs := Entries(v.dir);
    PickMember(cs, v.path, Reports(rule, cs), 0, x);
    if InDir(x, v) {
      assert x[|x| - 1] == x[|v.path|];
      if FlaggedEntry(rule, cs, x[|x| - 1]) {
        var i :| 0 <= i < |cs| && cs[i].name == x[|x| - 1] && Flagged(rule, cs, cs[i]);
        assert Reports(rule, cs)(cs[i]);
      }
      if KeptFrom(cs, Reports(rule, cs), 0, x[|v.path|]) {
        var i :| 0 <= i < |cs| && cs[i].name == x[|v.path|] && Reports(rule, cs)(cs[i]);
        assert Flagged(rule, cs, cs[i]);
      }
    }
  }

  /** Reported by the walk implies reported by the reference reading. */
  lemma ReportedSound(assets: Node, rule: Rule, v: Visit, x: Path)
    requires WellFormed(assets) && v in AssetsWalk(assets)
    requires x in Select(v, rule)
    ensures ReportedAt(assets, x, rule)
  {
    WalkSound(assets, SkipDirs, ["Assets"], v);
    assert v.path[..1] == ["Assets"];
    assert v.path[0] == v.path[..1][0];
    assert v.path[0] == "Assets";
    assert DirAt(assets, v.path[1..], SkipDirs) == Some(v.dir);
    SelectAtVisit(v, rule, x);
    assert InDir(x, v);
    ReportedAtVisit(assets, v, x, rule);
  }

  lemma ReportedAtVisit(assets: Node, v: Visit, x: Path, rule: Rule)
    requires |v.path| >= 1 && v.path[0] == "Assets"
    requires DirAt(assets, v.path[1..], SkipDirs) == Some(v.dir)
    requires InDir(x, v) && FlaggedEntry(rule, Entries(v.dir), x[|x| - 1])
    ensures ReportedAt(assets, x, rule)
  {
    assert x[1..|x| - 1] == v.path[1..];
    assert x[0] == "Assets";
  }

  /** Reported by the reference reading implies reported by the walk. */
  lemma ReportedComplete(assets: Node, rule: Rule, x: Path) returns (k: nat)
    requires ReportedAt(assets, x, rule)
    ensures k < |AssetsWalk(assets)| && x in Select(AssetsWalk(assets)[k], rule)
  {
    var q := x[1..|x| - 1];
    WalkComplete(assets, SkipDirs, ["Assets"], q);
    var v := Visit(["Assets"] + q, DirAt(assets, q, SkipDirs).value);
    k :| 0 <= k < |AssetsWalk(assets)| && AssetsWalk(assets)[k] == v;
    assert InDir(x, v) by {
      assert x[..|v.path|] == ["Assets"] + q;
    }
    SelectAtVisit(v, rule, x);
  }

  /** A path is in `missing` exactly when it names a file without a sidecar
      or an unpruned directory without a sidecar, in a directory the walk
      reaches. */
  lemma MissingCharacterized(assets: Node, x: Path)
    requires WellFormed(assets)
    ensures x in Missing(assets) <==>
      ReportedAt(assets, x, FileWithoutMeta) || ReportedAt(assets, x, DirWithoutMeta)
  {
    var vs := AssetsWalk(assets);
    FlatMapMember(vs, DirMissing, x);
    if x in Missing(assets) {
      var k :| 0 <= k < |vs| && x in DirMissing(vs[k]);
      WalkSound(assets, SkipDirs, ["Assets"], vs[k]);
      if x in Select(vs[k], FileWithoutMeta) {
        ReportedSound(assets, FileWithoutMeta, vs[k], x);
      } else {
        ReportedSound(assets, DirWithoutMeta, vs[k], x);
      }
    }
    if ReportedAt(assets, x, FileWithoutMeta) {
      var k := ReportedComplete(assets, FileWithoutMeta, x);
      WalkSound(assets, SkipDirs, ["Assets"], vs[k]);
    } else if ReportedAt(assets, x, DirWithoutMeta) {
      var k := ReportedComplete(assets, DirWithoutMeta, x);
      WalkSound(assets, SkipDirs, ["Assets"], vs[k]);
    }
  }

  /** A path is in `orphaned` exactly when it names a `.meta` file whose
      entry is absent, in a directory the walk reaches. */
  lemma OrphanedCharacterized(assets: Node, x: Path)
    requires WellFormed(assets)
    ensures x in Orphaned(assets) <==> ReportedAt(assets, x, OrphanedMeta)
  {
    var vs := AssetsWalk(assets);
    FlatMapMember(vs, DirOrphans, x);
    if x in Orphaned(assets) {
      var k :| 0 <= k < |vs| && x in DirOrphans(vs[k]);
      WalkSound(assets, SkipDirs, ["Assets"], vs[k]);
      ReportedSound(assets, OrphanedMeta, vs[k], x);
    }
    if ReportedAt(assets, x, OrphanedMeta) {
      var k := ReportedComplete(assets, OrphanedMeta, x);
      WalkSound(assets, SkipDirs, ["Assets"], vs[k]);
    }
  }

  /** No path is listed twice in `missing` or in `orphaned`: together with
      the characterizations, each offending entry appears exactly once. */
  lemma ListsHaveNoRepeats(assets: Node)
    requires WellFormed(assets)
    ensures NoDup(Missing(assets)) && NoDup(Orphaned(assets))
  {
    var vs := AssetsWalk(assets);
    WalkPathsDistinct(assets, SkipDirs, ["Assets"]);
    forall k | 0 <= k < |vs|
      ensures NoDup(DirMissing(vs[k])) && NoDup(DirOrphans(vs[k]))
    {
      VisitListsHaveNoRepeats(assets, vs[k]);
    }
    forall k, x | 0 <= k < |vs| && x in DirMissing(vs[k]) ensures InDir(x, vs[k]) {
    }
    forall k, x | 0 <= k < |vs| && x in DirOrphans(vs[k]) ensures InDir(x, vs[k]) {
    }
    FlatMapNoDup(vs, DirMissing);
    FlatMapNoDup(vs, DirOrphans);
  }

  /** One visited directory contributes no path twice: a file and a
      subdirectory never share a name. */
  lemma VisitListsHaveNoRepeats(assets: Node, v: Visit)
    requires WellFormed(assets) && v in AssetsWalk(assets)
    ensures NoDup(DirMissing(v)) && NoDup(DirOrphans(v))
  {
    WalkWellFormed(assets, SkipDirs, ["Assets"], v);
    WalkSound(assets, SkipDirs, ["Assets"], v);
    var cs := Entries(v.dir);
    assert UniqueNames(cs);
    PickNoDup(cs, v.path, Reports(FileWithoutMeta, cs), 0);
    PickNoDup(cs, v.path, Reports(DirWithoutMeta, cs), 0);
    PickNoDup(cs, v.path, Reports(OrphanedMeta, cs), 0);
    var a := Select(v, FileWithoutMeta);
    var b := Select(v, DirWithoutMeta);
    forall x | x in a ensures x !in b {
      SelectAtVisit(v, FileWithoutMeta, x);
      SelectAtVisit(v, DirWithoutMeta, x);
    }
    NoDupConcat(a, b);
  }

  /** A listing in which no rule reports any entry. */
  predicate Clean(cs: seq<Node>) {
    forall i :: 0 <= i < |cs| ==>
      !Flagged(FileWithoutMeta, cs, cs[i]) && !Flagged(DirWithoutMeta, cs, cs[i])
      && !Flagged(OrphanedMeta, cs, cs[i])
  }

  /** Every sidecar in place: each reached directory pairs its entries and
      its `.meta` files. */
  ghost predicate Paired(assets: Node) {
    forall q :: DirAt(assets, q, SkipDirs).Some? ==> Clean(Entries(DirAt(assets, q, SkipDirs).value))
  }

  /** Both lists come out empty exactly when every reached directory pairs
      its entries with their sidecars. */
  lemma PairedIffClean(assets: Node)
    requires WellFormed(assets)
    ensures Missing(assets) == [] && Orphaned(assets) == [] <==> Paired(assets)
  {
    if Paired(assets) {
      PairedReportsNothing(assets);
    } else {
      var q :| DirAt(assets, q, SkipDirs).Some? && !Clean(Entries(DirAt(assets, q, SkipDirs).value));
      UncleanIsReported(assets, q);
    }
  }

  lemma PairedReportsNothing(assets: Node)
    requires WellFormed(assets) && Paired(assets)
    ensures Missing(assets) == [] && Orphaned(assets) == []
  {
    if Missing(assets) != [] {
      var x := Missing(assets)[0];
      MissingCharacterized(assets, x);
      PairedNotReported(assets, x, FileWithoutMeta);
      PairedNotReported(assets, x, DirWithoutMeta);
    }
    if Orphaned(assets) != [] {
      var x := Orphaned(assets)[0];
      OrphanedCharacterized(assets, x);
      PairedNotReported(assets, x, OrphanedMeta);
    }
  }

  /** A paired tree has no reported path under any rule. */
  lemma PairedNotReported(assets: Node, x: Path, rule: Rule)
    requires Paired(assets)
    ensures !ReportedAt(assets, x, rule)
  {
    if |x| >= 2 && DirAt(assets, x[1..|x| - 1], SkipDirs).Some? {
      var cs := Entries(DirAt(assets, x[1..|x| - 1], SkipDirs).value);
      assert Clean(cs);
    }
  }

  /** A visited directory that is not clean makes some list non-empty. */
  lemma UncleanIsReported(assets: Node, q: Path)
    requires WellFormed(assets)
    requires DirAt(assets, q, SkipDirs).Some? && !Clean(Entries(DirAt(assets, q, SkipDirs).value))
    ensures Missing(assets) != [] || Orphaned(assets) != []
  {
    var cs := Entries(DirAt(assets, q, SkipDirs).value);
    var i :| 0 <= i < |cs| && (Flagged(FileWithoutMeta, cs, cs[i]) || Flagged(DirWithoutMeta, cs, cs[i])
      || Flagged(OrphanedMeta, cs, cs[i]));
    var x := ["Assets"] + q + [cs[i].name];
    assert x[1..|x| - 1] == q && x[|x| - 1] == cs[i].name;
    if Flagged(OrphanedMeta, cs, cs[i]) {
      assert ReportedAt(assets, x, OrphanedMeta);
      OrphanedCharacterized(assets, x);
    } else {
      assert ReportedAt(assets, x, FileWithoutMeta) || ReportedAt(assets, x, DirWithoutMeta);
      MissingCharacterized(assets, x);
    }
  }

  datatype MetaMsg = MissingMeta | OrphanedSidecar

  function Report(xs: seq<Path>, level: Level, msg: MetaMsg): seq<Finding<MetaMsg>>
  {
    seq(|xs|, i requires 0 <= i < |xs| => Finding(level, PathString(xs[i]), 0, msg))
  }

  /** `check_meta_files`: fatal without an `Assets/` directory; otherwise an
      error per missing sidecar and a warning per orphaned one. */
  function CheckMetaFiles(root: Node): (o: Outcome<MetaMsg>)
    ensures o.Fatal? <==> !(Lookup(root, ["Assets"]).Some? && Lookup(root, ["Assets"]).value.Dir?)
    ensures o.Done? ==> |o.findings| == |Missing(Lookup(root, ["Assets"]).value)| + |Orphaned(Lookup(root, ["Assets"]).value)|
  {
    match Lookup(root, ["Assets"])
    case Some(assets) =>
      if assets.Dir? then
        Done(Report(Missing(assets), Error, MissingMeta) + Report(Orphaned(assets), Warning, OrphanedSidecar))
      else Fatal
    case None => Fatal
  }

  /** The error count is the length of `missing`, orphans never count, and
      the exit status is 1 exactly when `Assets/` is absent or something is
      missing. */
  lemma {:induction false} CheckMetaFilesExit(root: Node)
    ensures var o := CheckMetaFiles(root);
      o.Done? ==> ErrorCount(o.findings) == |Missing(Lookup(root, ["Assets"]).value)|
    ensures var o := CheckMetaFiles(root);
      ExitCode(o) == 1 <==> o.Fatal? || Missing(Lookup(root, ["Assets"]).value) != []
  {
    var o := CheckMetaFiles(root);
    if o.Done? {
      var assets := Lookup(root, ["Assets"]).value;
      var a := Report(Missing(assets), Error, MissingMeta);
      var b := Report(Orphaned(assets), Warning, OrphanedSidecar);
      ErrorCountConcat(a, b);
      AllAtLevel(a, Error);
      AllAtLevel(b, Warning);
      ErrorCountPositive(o.findings);
    }
  }
}

=== FILE: scene_build.dfy ===
/** The build-scene check (ci/check_scene_build_settings.py): every scene
    listed in `ProjectSettings/EditorBuildSettings.asset` must exist, have a
    `.meta` sidecar, and that sidecar must declare the GUID the build
    settings record. */
module SceneBuild {
  import opened Text
  import opened FileTree
  import opened Findings
  import opened GuidRefs

  /** One scene block as the pattern captures it: the enabled digits, the
      path text (surrounding spaces not yet stripped) and the GUID. */
  datatype SceneEntry = SceneEntry(enabled: string, path: string, guid: string)

  /** A block found at the start of a text, and where it ends. */
  datatype Block = Block(entry: SceneEntry, end: nat)

  // ----- The scene-block pattern -----

  /** The end of the run of ASCII digits at `i`. */
  function DigitsEnd(s: string, i: nat): (r: nat)
    requires i <= |s|
    ensures i <= r <= |s|
    ensures forall k :: i <= k < r ==> IsAsciiDigit(s[k])
    ensures r == |s| || !IsAsciiDigit(s[r])
    decreases |s| - i
  {
    if i < |s| && IsAsciiDigit(s[i]) then DigitsEnd(s, i + 1) else i
  }

  /** The end of `s[lo..hi]` once its trailing spaces are dropped. */
  function TrimEnd(s: string, lo: nat, hi: nat): (r: nat)
    requires lo <= hi <= |s|
    ensures lo <= r <= hi
    ensures forall k :: r <= k < hi ==> IsSpace(s[k])
    ensures r == lo || !IsSpace(s[r - 1])
    decreases hi - lo
  {
    if lo < hi && IsSpace(s[hi - 1]) then TrimEnd(s, lo, hi - 1) else hi
  }

  /** The scene-block pattern
        -\s*enabled:\s*(\d+)\s*\n\s*path:\s*(.+\.unity)\s*\n\s*guid:\s*([0-9a-f]{32})
      at the start of `s`, read deterministically:
      - every `\s*` before a literal or a digit or hex run takes the whole
        space run, since those tokens are not spaces; `\d+` takes the whole
        digit run, since a space run and a newline must follow it;
      - `\s*\n\s*` before `path:` or `guid:` is a space run holding a newline;
      - the path capture cannot cross a newline, and the newline after it
        must follow only spaces, so the capture ends where the first line
        at `c0` (the first non-space after `path:`) ends once trailing
        spaces are dropped, and that end must follow `.unity`;
      - `.+` needs a character before `.unity`: when only `.unity` is left
        at `c0`, the `\s*` before it gives back its last character, which
        must exist and not be the newline. */
  function SceneAt(s: string): (r: Option<Block>)
    ensures r.Some? ==> 0 < r.value.end <= |s|
  {
    var en := EnabledAt(s);
    if en.None? then None
    else
      var pa := PathAt(s, en.value.2 + 5);
      if pa.None? then None
      else
        var h := GuidAt(s, SkipSpace(s, pa.value.1));
        if h.None? then None
        else
          var d := en.value;
          var p := pa.value;
          Some(Block(SceneEntry(s[d.0..d.1], s[p.0..p.1], s[h.value..h.value + 32]), h.value + 32))
  }

  /** `-\s*enabled:\s*(\d+)\s*\n\s*path:` at the start of `s`: the bounds of
      the digits and where `path:` starts. */
  function EnabledAt(s: string): (r: Option<(int, int, int)>)
    ensures r.Some? ==> 0 <= r.value.0 < r.value.1 <= r.value.2 && r.value.2 + 5 <= |s|
  {
    if s == [] || s[0] != '-' then None
    else
      var a := SkipSpace(s, 1);
      if !StartsAt(s, a, "enabled:") then None
      else
        var d0 := SkipSpace(s, a + 8);
        var d1 := DigitsEnd(s, d0);
        var w := SkipSpace(s, d1);
        if d0 == d1 || FindChar(s, '\n', d1) >= w || !StartsAt(s, w, "path:") then None
        else Some((d0, d1, w))
  }

  /** `\s*(.+\.unity)\s*\n` from `p0`: the bounds of the captured path. */
  function PathAt(s: string, p0: nat): (r: Option<(int, int)>)
    requires p0 <= |s|
    ensures r.Some? ==> p0 <= r.value.0 < r.value.1 <= |s|
  {
    var c0 := SkipSpace(s, p0);
    var e := FindChar(s, '\n', c0);
    var c1 := TrimEnd(s, c0, e);
    if e == |s| || c1 < c0 + 6 || !EndsWith(s[..c1], ".unity") then None
    else if c1 == c0 + 6 && !(p0 < c0 && s[c0 - 1] != '\n') then None
    else Some((if c1 == c0 + 6 then c0 - 1 else c0, c1))
  }

  /** `scene_block.findall(content)`: the blocks left to right, the search
      resuming where a block ends. */
  function SceneBlocks(s: string): seq<SceneEntry>
    decreases |s|
  {
    if s == [] then []
    else match SceneAt(s)
      case Some(b) => [b.entry] + SceneBlocks(s[b.end..])
      case None => SceneBlocks(s[1..])
  }

  predicate AllDigits(x: string) {
    x != [] && forall k :: 0 <= k < |x| ==> IsAsciiDigit(x[k])
  }

  /** The path as the check uses it: stripped of surrounding white space. */
  function ScenePath(e: SceneEntry): string {
    Strip(e.path)
  }

  /** A path the pattern reads back: one line, no surrounding spaces, with
      at least one character before `.unity`. */
  predicate IsScenePath(p: string) {
    Clean(p) && |p| >= 7 && EndsWith(p, ".unity") && '\n' !in p
  }

  /** What every block the pattern finds looks like: a digit run, a
      one-line path that ends in `.unity` once stripped, and a GUID. */
  predicate WellShaped(e: SceneEntry) {
    && AllDigits(e.enabled)
    && '\n' !in e.path
    && EndsWith(ScenePath(e), ".unity")
    && IsGuid(e.guid)
  }

  /** The capture `s[start..c1]`: at most spaces before a clean core that
      ends in `.unity`, all on one line. */
  lemma CaptureShape(s: string, start: nat, c0: nat, c1: nat, e: nat)
    requires start <= c0 < c1 <= e <= |s| && c0 + 6 <= c1
    requires forall k :: start <= k < c0 ==> IsSpace(s[k]) && s[k] != '\n'
    requires forall k :: c0 <= k < e ==> s[k] != '\n'
    requires !IsSpace(s[c0]) && !IsSpace(s[c1 - 1])
    requires EndsWith(s[..c1], ".unity")
    ensures '\n' !in s[start..c1]
    ensures EndsWith(Strip(s[start..c1]), ".unity")
  {
    var x := s[start..c1];
    forall k | 0 <= k < |x| ensures x[k] != '\n' {
      assert x[k] == s[start + k];
    }
    var core := s[c0..c1];
    var a := c0 - start;
    assert x[a..] == core;
    forall k | 0 <= k < a ensures IsSpace(x[k]) {
      assert x[k] == s[start + k];
    }
    assert core[0] == s[c0] && core[|core| - 1] == s[c1 - 1];
    assert TrimmedAt(x, core, a);
    StripUnique(x, core, a);
    UnityCore(s, c0, c1);
  }

  lemma UnityCore(s: string, c0: nat, c1: nat)
    requires c0 + 6 <= c1 <= |s|
    requires EndsWith(s[..c1], ".unity")
    ensures EndsWith(s[c0..c1], ".unity")
  {
    assert s[..c1][c1 - 6..] == s[c1 - 6..c1];
    assert s[c0..c1][c1 - c0 - 6..] == s[c1 - 6..c1];
  }

  /** The digits `EnabledAt` reports are digits. */
  lemma EnabledAtDigits(s: string)
    requires EnabledAt(s).Some?
    ensures AllDigits(s[EnabledAt(s).value.0..EnabledAt(s).value.1])
  {
    var d := EnabledAt(s).value;
    var x := s[d.0..d.1];
    assert forall k :: 0 <= k < |x| ==> x[k] == s[d.0 + k];
  }

  /** The 32 characters after a `guid:` match form a GUID. */
  lemma GuidAtGuid(s: string, i: int)
    requires 0 <= i && GuidAt(s, i).Some?
    ensures IsGuid(s[GuidAt(s, i).value..GuidAt(s, i).value + 32])
  {
    var h := GuidAt(s, i).value;
    var g := s[h..h + 32];
    assert forall k :: 0 <= k < 32 ==> g[k] == s[h + k];
  }

  /** The path capture stays on one line and ends in `.unity` once
      stripped. */
  lemma PathAtShape(s: string, p0: int)
    requires 0 <= p0 <= |s| && PathAt(s, p0).Some?
    ensures '\n' !in s[PathAt(s, p0).value.0..PathAt(s, p0).value.1]
    ensures EndsWith(Strip(s[PathAt(s, p0).value.0..PathAt(s, p0).value.1]), ".unity")
  {
    var c0 := SkipSpace(s, p0);
    var e := FindChar(s, '\n', c0);
    var c1 := TrimEnd(s, c0, e);
    PathCapture(s, p0, c0, e, c1);
  }

  lemma PathCapture(s: string, p0: nat, c0: nat, e: nat, c1: nat)
    requires p0 <= |s| && c0 == SkipSpace(s, p0) && e == FindChar(s, '\n', c0)
    requires c1 == TrimEnd(s, c0, e)
    requires e < |s| && c0 + 6 <= c1 && EndsWith(s[..c1], ".unity")
    requires c1 == c0 + 6 ==> p0 < c0 && s[c0 - 1] != '\n'
    ensures var start := if c1 == c0 + 6 then c0 - 1 else c0;
      '\n' !in s[start..c1] && EndsWith(Strip(s[start..c1]), ".unity")
  {
    var start := if c1 == c0 + 6 then c0 - 1 else c0;
    CaptureShape(s, start, c0, c1, e);
  }

  /** Where a block's fields come from. */
  lemma SceneAtFields(s: string)
    requires SceneAt(s).Some?
    ensures EnabledAt(s).Some? && PathAt(s, EnabledAt(s).value.2 + 5).Some?
    ensures GuidAt(s, SkipSpace(s, PathAt(s, EnabledAt(s).value.2 + 5).value.1)).Some?
    ensures SceneAt(s).value.entry == SceneEntry(
      s[EnabledAt(s).value.0..EnabledAt(s).value.1],
      s[PathAt(s, EnabledAt(s).value.2 + 5).value.0..PathAt(s, EnabledAt(s).value.2 + 5).value.1],
      s[GuidAt(s, SkipSpace(s, PathAt(s, EnabledAt(s).value.2 + 5).value.1)).value..GuidAt(s, SkipSpace(s, PathAt(s, EnabledAt(s).value.2 + 5).value.1)).value + 32])
    ensures SceneAt(s).value.end == GuidAt(s, SkipSpace(s, PathAt(s, EnabledAt(s).value.2 + 5).value.1)).value + 32
  {
  }

  /** A block is found once all three stages succeed. */
  lemma SceneAtSome(s: string)
    requires EnabledAt(s).Some? && PathAt(s, EnabledAt(s).value.2 + 5).Some?
    requires GuidAt(s, SkipSpace(s, PathAt(s, EnabledAt(s).value.2 + 5).value.1)).Some?
    ensures SceneAt(s).Some?
  {
  }

  /** Every block the pattern finds is well shaped. */
  lemma SceneAtShape(s: string)
    requires SceneAt(s).Some?
    ensures WellShaped(SceneAt(s).value.entry)
  {
    SceneAtEnabled(s);
    SceneAtPath(s);
    SceneAtGuid(s);
  }

  lemma SceneAtEnabled(s: string)
    requires SceneAt(s).Some?
    ensures AllDigits(SceneAt(s).value.entry.enabled)
  {
    SceneAtFields(s);
    EnabledAtDigits(s);
  }

  lemma SceneAtPath(s: string)
    requires SceneAt(s).Some?
    ensures '\n' !in SceneAt(s).value.entry.path
    ensures EndsWith(ScenePath(SceneAt(s).value.entry), ".unity")
  {
    SceneAtFields(s);
    PathAtShape(s, EnabledAt(s).value.2 + 5);
  }

  lemma SceneAtGuid(s: string)
    requires SceneAt(s).Some?
    ensures IsGuid(SceneAt(s).value.entry.guid)
  {
    SceneAtFields(s);
    GuidAtGuid(s, SkipSpace(s, PathAt(s, EnabledAt(s).value.2 + 5).value.1));
  }

  lemma {:induction false} SceneBlocksShape(s: string)
    ensures forall e :: e in SceneBlocks(s) ==> WellShaped(e)
    decreases |s|
  {
    if s != [] {
      match SceneAt(s)
      case Some(b) =>
        SceneAtShape(s);
        SceneBlocksShape(s[b.end..]);
      case None =>
        SceneBlocksShape(s[1..]);
    }
  }

  /** A block written the way Unity writes it. */
  function Render(e: SceneEntry): string {
    "- enabled: " + e.enabled + "\n    path: " + e.path + "\n    guid: " + e.guid
  }

  /** A build-settings scene list: each block on its own lines. */
  function Manifest(es: seq<SceneEntry>): string {
    if es == [] then [] else Render(es[0]) + "\n" + Manifest(es[1..])
  }

  predicate Renderable(e: SceneEntry) {
    AllDigits(e.enabled) && IsScenePath(e.path) && IsGuid(e.guid)
  }

  // ----- Round trip -----

  lemma DigitsEndTo(s: string, i: nat, j: nat)
    requires i <= j <= |s|
    requires forall k :: i <= k < j ==> IsAsciiDigit(s[k])
    requires j == |s| || !IsAsciiDigit(s[j])
    ensures DigitsEnd(s, i) == j
    decreases j - i
  {
    if i < j {
      DigitsEndTo(s, i + 1, j);
    }
  }

  lemma FindCharTo(s: string, c: char, i: nat, j: nat)
    requires i <= j < |s| && s[j] == c
    requires forall k :: i <= k < j ==> s[k] != c
    ensures FindChar(s, c, i) == j
  {
  }

  lemma StartsAtSplit(s: string, i: nat, x: string, y: string)
    requires StartsAt(s, i, x + y)
    ensures StartsAt(s, i, x) && StartsAt(s, i + |x|, y)
  {
    assert s[i..i + |x|] == (x + y)[..|x|];
    assert s[i + |x|..i + |x| + |y|] == (x + y)[|x|..];
  }

  lemma StartsAtChar(s: string, i: nat, x: string, k: nat)
    requires StartsAt(s, i, x) && k < |x|
    ensures s[i + k] == x[k]
  {
    assert s[i..i + |x|][k] == s[i + k];
  }

  /** The positions of a rendered block's parts, with anything after it. */
  lemma RenderedLayout(e: SceneEntry, rest: string)
    ensures var s := Render(e) + rest;
      var d1 := 11 + |e.enabled|;
      var c1 := d1 + 11 + |e.path|;
      && |s| == c1 + 11 + |e.guid| + |rest|
      && StartsAt(s, 0, "- enabled: ")
      && StartsAt(s, 11, e.enabled)
      && StartsAt(s, d1, "\n    path: ")
      && StartsAt(s, d1 + 11, e.path)
      && StartsAt(s, c1, "\n    guid: ")
      && StartsAt(s, c1 + 11, e.guid)
  {
    var s := Render(e) + rest;
    var x1 := "- enabled: " + e.enabled;
    var x2 := x1 + "\n    path: ";
    var x3 := x2 + e.path;
    var x4 := x3 + "\n    guid: ";
    assert s == x4 + e.guid + rest;
    assert StartsAt(s, 0, x4 + e.guid) by { assert s[..|x4 + e.guid|] == x4 + e.guid; }
    StartsAtSplit(s, 0, x4, e.guid);
    StartsAtSplit(s, 0, x3, "\n    guid: ");
    StartsAtSplit(s, 0, x2, e.path);
    StartsAtSplit(s, 0, x1, "\n    path: ");
    StartsAtSplit(s, 0, "- enabled: ", e.enabled);
  }

  /** `- enabled: ` at the start. */
  lemma RenderedDash(s: string)
    requires StartsAt(s, 0, "- enabled: ")
    ensures s != [] && s[0] == '-' && SkipSpace(s, 1) == 2 && StartsAt(s, 2, "enabled:") && s[10] == ' '
  {
    StartsAtSplit(s, 0, "- ", "enabled: ");
    StartsAtSplit(s, 2, "enabled:", " ");
    StartsAtChar(s, 0, "- ", 0);
    StartsAtChar(s, 0, "- ", 1);
    StartsAtChar(s, 2, "enabled:", 0);
    StartsAtChar(s, 10, " ", 0);
    SkipSpaceTo(s, 1, 2);
  }

  /** The enabled digits, up to the newline. */
  lemma RenderedDigits(s: string, digits: string)
    requires AllDigits(digits) && StartsAt(s, 11, digits) && s[10] == ' '
    requires 11 + |digits| < |s| && s[11 + |digits|] == '\n'
    ensures SkipSpace(s, 10) == 11 && DigitsEnd(s, 11) == 11 + |digits|
    ensures FindChar(s, '\n', 11 + |digits|) == 11 + |digits|
  {
    StartsAtChar(s, 11, digits, 0);
    SkipSpaceTo(s, 10, 11);
    forall k | 11 <= k < 11 + |digits| ensures IsAsciiDigit(s[k]) {
      StartsAtChar(s, 11, digits, k - 11);
    }
    DigitsEndTo(s, 11, 11 + |digits|);
  }

  /** A line break, four spaces and `key` followed by a space. */
  lemma RenderedKey(s: string, i: nat, key: string)
    requires |key| == 5 && !IsSpace(key[0])
    requires StartsAt(s, i, "\n    " + key + " ")
    ensures s[i] == '\n' && SkipSpace(s, i) == i + 5 && StartsAt(s, i + 5, key) && s[i + 10] == ' '
  {
    StartsAtSplit(s, i, "\n    " + key, " ");
    StartsAtSplit(s, i, "\n    ", key);
    forall k | i <= k < i + 5 ensures IsSpace(s[k]) {
      StartsAtChar(s, i, "\n    ", k - i);
    }
    StartsAtChar(s, i + 5, key, 0);
    StartsAtChar(s, i + 10, " ", 0);
    SkipSpaceTo(s, i, i + 5);
  }

  /** The scene path after `path: `, up to the newline. */
  lemma RenderedPath(s: string, c0: nat, p: string)
    requires IsScenePath(p) && StartsAt(s, c0, p) && c0 + |p| < |s|
    requires 1 <= c0 && s[c0 - 1] == ' ' && s[c0 + |p|] == '\n'
    ensures SkipSpace(s, c0 - 1) == c0
    ensures FindChar(s, '\n', c0) == c0 + |p|
    ensures TrimEnd(s, c0, c0 + |p|) == c0 + |p|
    ensures EndsWith(s[..c0 + |p|], ".unity")
  {
    var c1 := c0 + |p|;
    StartsAtChar(s, c0, p, 0);
    SkipSpaceTo(s, c0 - 1, c0);
    forall k | c0 <= k < c1 ensures s[k] != '\n' {
      StartsAtChar(s, c0, p, k - c0);
      assert p[k - c0] in p;
    }
    FindCharTo(s, '\n', c0, c1);
    StartsAtChar(s, c0, p, |p| - 1);
    assert s[..c1][c1 - 6..] == s[c0..c1][|p| - 6..];
  }

  /** The GUID after `guid: `. */
  lemma RenderedGuidAt(s: string, w: nat, g: string)
    requires IsGuid(g) && StartsAt(s, w, "guid:") && w + 5 < |s| && s[w + 5] == ' ' && StartsAt(s, w + 6, g)
    ensures GuidAt(s, w) == Some(w + 6)
  {
    StartsAtChar(s, w + 6, g, 0);
    SkipSpaceTo(s, w + 5, w + 6);
    forall k | w + 6 <= k < w + 38 ensures IsLowerHex(s[k]) {
      StartsAtChar(s, w + 6, g, k - w - 6);
    }
  }

  lemma EnabledAtRendered(s: string, digits: string)
    requires AllDigits(digits) && StartsAt(s, 0, "- enabled: ") && StartsAt(s, 11, digits)
    requires StartsAt(s, 11 + |digits|, "\n    path: ")
    ensures var r := EnabledAt(s);
      r.Some? && r.value.0 == 11 && r.value.1 == 11 + |digits| && r.value.2 == 16 + |digits|
  {
    var d1 := 11 + |digits|;
    RenderedDash(s);
    RenderedKey(s, d1, "path:");
    RenderedDigits(s, digits);
  }

  lemma PathAtRendered(s: string, p0: int, p: string)
    requires IsScenePath(p) && 0 <= p0 && p0 + 1 + |p| < |s|
    requires s[p0] == ' ' && StartsAt(s, p0 + 1, p) && s[p0 + 1 + |p|] == '\n'
    ensures var r := PathAt(s, p0);
      r.Some? && r.value.0 == p0 + 1 && r.value.1 == p0 + 1 + |p|
  {
    RenderedPath(s, p0 + 1, p);
  }

  lemma GuidAtRendered(s: string, c1: int, g: string)
    requires 0 <= c1 && IsGuid(g) && StartsAt(s, c1, "\n    guid: ") && StartsAt(s, c1 + 11, g)
    ensures SkipSpace(s, c1) == c1 + 5 && GuidAt(s, c1 + 5) == Some(c1 + 11)
  {
    RenderedKey(s, c1, "guid:");
    RenderedGuidAt(s, c1 + 5, g);
  }

  /** A rendered block is read back as itself, whatever follows it. */
  lemma SceneAtRendered(e: SceneEntry, rest: string)
    requires Renderable(e)
    ensures SceneAt(Render(e) + rest).Some? && SceneAt(Render(e) + rest).value.entry == e
    ensures SceneAt(Render(e) + rest).value.end == |Render(e)|
  {
    RenderedLayout(e, rest);
    SceneAtLaidOut(Render(e) + rest, e);
  }

  /** The parts of a block laid out the way `Render` lays them out. */
  predicate LaidOut(s: string, e: SceneEntry) {
    var d1 := 11 + |e.enabled|;
    var c1 := d1 + 11 + |e.path|;
    && StartsAt(s, 0, "- enabled: ")
    && StartsAt(s, 11, e.enabled)
    && StartsAt(s, d1, "\n    path: ")
    && StartsAt(s, d1 + 11, e.path)
    && StartsAt(s, c1, "\n    guid: ")
    && StartsAt(s, c1 + 11, e.guid)
  }

  lemma SceneAtLaidOut(s: string, e: SceneEntry)
    requires Renderable(e) && LaidOut(s, e)
    ensures SceneAt(s).Some? && SceneAt(s).value.entry == e
    ensures SceneAt(s).value.end == 22 + |e.enabled| + |e.path| + 43
  {
    EnabledAtRendered(s, e.enabled);
    PathStage(s, e, EnabledAt(s).value.2 + 5);
    GuidStage(s, e, PathAt(s, EnabledAt(s).value.2 + 5).value.1);
    SceneAtStaged(s, e);
  }

  /** The three stages found where a laid-out block puts its fields. */
  lemma SceneAtStaged(s: string, e: SceneEntry)
    requires |e.guid| == 32 && StartsAt(s, 11, e.enabled)
    requires StartsAt(s, 11 + |e.enabled| + 11, e.path)
    requires StartsAt(s, 11 + |e.enabled| + 11 + |e.path| + 11, e.guid)
    requires EnabledAt(s).Some? && EnabledAt(s).value.0 == 11 && EnabledAt(s).value.1 == 11 + |e.enabled|
    requires PathAt(s, EnabledAt(s).value.2 + 5).Some?
    requires PathAt(s, EnabledAt(s).value.2 + 5).value.0 == 11 + |e.enabled| + 11
    requires PathAt(s, EnabledAt(s).value.2 + 5).value.1 == 11 + |e.enabled| + 11 + |e.path|
    requires GuidAt(s, SkipSpace(s, PathAt(s, EnabledAt(s).value.2 + 5).value.1)).Some?
    requires GuidAt(s, SkipSpace(s, PathAt(s, EnabledAt(s).value.2 + 5).value.1)).value
      == 11 + |e.enabled| + 11 + |e.path| + 11
    ensures SceneAt(s).Some? && SceneAt(s).value.entry == e
    ensures SceneAt(s).value.end == 22 + |e.enabled| + |e.path| + 43
  {
    SceneAtSome(s);
    SceneAtFields(s);
    LaidOutEntry(s, e, EnabledAt(s).value.0, EnabledAt(s).value.1,
      PathAt(s, EnabledAt(s).value.2 + 5).value.0, PathAt(s, EnabledAt(s).value.2 + 5).value.1,
      GuidAt(s, SkipSpace(s, PathAt(s, EnabledAt(s).value.2 + 5).value.1)).value);
  }

  /** The slices at a laid-out block's field bounds are its fields. */
  lemma LaidOutEntry(s: string, e: SceneEntry, a: int, b: int, c: int, d: int, g: int)
    requires |e.guid| == 32 && StartsAt(s, 11, e.enabled)
    requires StartsAt(s, 11 + |e.enabled| + 11, e.path)
    requires StartsAt(s, 11 + |e.enabled| + 11 + |e.path| + 11, e.guid)
    requires a == 11 && b == 11 + |e.enabled|
    requires c == 11 + |e.enabled| + 11 && d == 11 + |e.enabled| + 11 + |e.path|
    requires g == 11 + |e.enabled| + 11 + |e.path| + 11
    ensures 0 <= a <= b <= |s| && 0 <= c <= d <= |s| && 0 <= g <= |s| - 32
    ensures SceneEntry(s[a..b], s[c..d], s[g..g + 32]) == e
    ensures g + 32 == 22 + |e.enabled| + |e.path| + 43
  {
  }

  /** `x` at `i` is `x` at `j`, named by the caller. */
  lemma StartsAtMoved(s: string, i: nat, x: string, j: int)
    requires StartsAt(s, i, x) && j == i
    ensures 0 <= j && StartsAt(s, j, x)
  {
  }

  /** The character `x[k]` of `x` at `i` sits at `j`, named by the caller. */
  lemma StartsAtCharAt(s: string, i: nat, x: string, k: nat, j: int)
    requires StartsAt(s, i, x) && k < |x| && j == i + k
    ensures 0 <= j < |s| && s[j] == x[k]
  {
    StartsAtChar(s, i, x, k);
  }

  /** The path stage of a laid-out block, from where `path:` ends. */
  lemma PathStage(s: string, e: SceneEntry, p0: int)
    requires Renderable(e) && LaidOut(s, e) && p0 == 21 + |e.enabled|
    ensures 0 <= p0 <= |s| && PathAt(s, p0).Some?
    ensures PathAt(s, p0).value.0 == p0 + 1 && PathAt(s, p0).value.1 == p0 + 1 + |e.path|
  {
    var d1 := 11 + |e.enabled|;
    var c1 := d1 + 11 + |e.path|;
    StartsAtCharAt(s, d1, "\n    path: ", 10, p0);
    StartsAtMoved(s, d1 + 11, e.path, p0 + 1);
    StartsAtCharAt(s, c1, "\n    guid: ", 0, p0 + 1 + |e.path|);
    PathAtRendered(s, p0, e.path);
  }

  /** The GUID stage of a laid-out block, from where the path ends. */
  lemma GuidStage(s: string, e: SceneEntry, c1: int)
    requires Renderable(e) && LaidOut(s, e) && c1 == 22 + |e.enabled| + |e.path|
    ensures 0 <= c1 <= |s| && GuidAt(s, SkipSpace(s, c1)).Some?
    ensures GuidAt(s, SkipSpace(s, c1)).value == c1 + 11
  {
    GuidStageAt(s, e.guid, 11 + |e.enabled| + 11 + |e.path|, c1);
  }

  lemma GuidStageAt(s: string, g: string, i: int, c1: int)
    requires 0 <= i && IsGuid(g) && StartsAt(s, i, "\n    guid: ") && StartsAt(s, i + 11, g) && c1 == i
    ensures 0 <= c1 <= |s| && GuidAt(s, SkipSpace(s, c1)).Some?
    ensures GuidAt(s, SkipSpace(s, c1)).value == c1 + 11
  {
    StartsAtMoved(s, i, "\n    guid: ", c1);
    StartsAtMoved(s, i + 11, g, c1 + 11);
    GuidAtRendered(s, c1, g);
  }

  /** A line break between blocks is skipped. */
  lemma SceneBlocksAfterBreak(rest: string)
    ensures SceneBlocks("\n" + rest) == SceneBlocks(rest)
  {
    assert ("\n" + rest)[1..] == rest;
  }

  /** A rendered block, a line break, then anything: the block is read
      first. */
  lemma SceneBlocksRendered(e: SceneEntry, rest: string)
    requires Renderable(e)
    ensures SceneBlocks(Render(e) + "\n" + rest) == [e] + SceneBlocks(rest)
  {
    var r := Render(e);
    var t := "\n" + rest;
    assert r + "\n" + rest == r + t;
    SceneAtRendered(e, t);
    assert (r + t)[|r|..] == t;
    SceneBlocksAfterBreak(rest);
  }

  /** A manifest is read one block at a time. */
  lemma SceneBlocksManifest(es: seq<SceneEntry>)
    requires es != [] && Renderable(es[0])
    ensures SceneBlocks(Manifest(es)) == [es[0]] + SceneBlocks(Manifest(es[1..]))
  {
    SceneBlocksRendered(es[0], Manifest(es[1..]));
  }

  /** Reading a manifest gives back its entries, in order. */
  lemma {:induction false} ManifestRoundTrip(es: seq<SceneEntry>)
    requires forall i :: 0 <= i < |es| ==> Renderable(es[i])
    ensures SceneBlocks(Manifest(es)) == es
  {
    if es != [] {
      SceneBlocksManifest(es);
      ManifestRoundTrip(es[1..]);
      assert [es[0]] + es[1..] == es;
    }
  }

  // ----- Resolving a scene path -----

  /** Following `comps` from the directory stack `stack` (the project root
      first): empty and `.` components stay, `..` goes up, a name goes down;
      a file can be the last component only, and going above the root
      leaves the project. */
  function ResolveFrom(stack: seq<Node>, comps: seq<string>): Option<Node>
    requires stack != []
    decreases |comps|
  {
    if comps == [] then Some(stack[|stack| - 1])
    else
      var top := stack[|stack| - 1];
      if top.File? then None
      else if comps[0] == "" || comps[0] == "." then ResolveFrom(stack, comps[1..])
      else if comps[0] == ".." then
        if |stack| == 1 then None else ResolveFrom(stack[..|stack| - 1], comps[1..])
      else match Child(top.children, comps[0])
        case None => None
        case Some(c) => ResolveFrom(stack + [c], comps[1..])
  }

  /** `os.path.exists(os.path.join(root, path))`, for paths inside the
      project; an absolute path is outside it. */
  function Resolve(root: Node, path: string): Option<Node> {
    if path != [] && path[0] == '/' then None
    else ResolveFrom([root], Split(path, '/'))
  }

  /** A plain relative path resolves as a lookup. */
  lemma {:induction false} ResolvePlain(stack: seq<Node>, q: Path)
    requires stack != []
    requires forall k :: 0 <= k < |q| ==> ValidName(q[k])
    ensures ResolveFrom(stack, q) == Lookup(stack[|stack| - 1], q)
    decreases |q|
  {
    if q != [] {
      var top := stack[|stack| - 1];
      if top.Dir? {
        assert q[0] != "" && q[0] != "." && q[0] != "..";
        match Child(top.children, q[0])
        case None =>
        case Some(c) =>
          ResolvePlain(stack + [c], q[1..]);
      }
    }
  }

  // ----- One entry -----

  datatype SceneMsg =
    | NoScenes
    | SceneNotFound(path: string)
    | MetaMissing(path: string)
    | GuidUnreadable(path: string)
    | GuidMismatch(path: string, expected: string, actual: string)

  /** `f.read(512)`: the first 512 characters, or all of a shorter text. */
  function Head(s: string): (h: string)
    ensures |h| <= 512 && |h| <= |s| && h == s[..|h|]
    ensures |s| <= 512 ==> h == s
    ensures |s| > 512 ==> |h| == 512
  {
    if |s| <= 512 then s else s[..512]
  }

  /** `^guid:\s*([0-9a-f]{32})` matches at `k`, with `^` matching at the
      start and after each newline. */
  predicate GuidLineAt(s: string, k: nat)
    requires k <= |s|
  {
    (k == 0 || s[k - 1] == '\n') && GuidAt(s, k).Some?
  }

  /** The first line-initial GUID match from `i` on. */
  function FirstGuidFrom(s: string, i: nat): (r: Option<nat>)
    requires i <= |s|
    ensures r.Some? ==> i <= r.value <= |s| && GuidLineAt(s, r.value)
    ensures r.None? ==> forall k :: i <= k <= |s| ==> !GuidLineAt(s, k)
    decreases |s| - i
  {
    if GuidLineAt(s, i) then Some(i)
    else if i == |s| then None
    else FirstGuidFrom(s, i + 1)
  }

  /** `META_GUID_PATTERN.search(f.read(512))`: the GUID of the first line
      that starts with a `guid:` reference, among the first 512 characters. */
  function MetaFileGuid(content: string): (r: Option<string>)
    ensures r.Some? ==> IsGuid(r.value)
  {
    var s := Head(content);
    match FirstGuidFrom(s, 0)
    case None => None
    case Some(i) =>
      var h := GuidAt(s, i).value;
      var g := s[h..h + 32];
      assert forall k :: 0 <= k < 32 ==> g[k] == s[h + k];
      Some(g)
  }

  /** A `.meta` file laid out the way Unity writes it yields its GUID. */
  lemma MetaFileGuidOfHeader(first: string, g: string, rest: string)
    requires '\n' !in first && first != [] && first[0] != 'g'
    requires IsGuid(g) && |first| + 39 <= 512
    ensures MetaFileGuid(first + "\n" + "guid: " + g + rest) == Some(g)
  {
    var content := first + "\n" + "guid: " + g + rest;
    var s := Head(content);
    var n := |first| + 1;
    assert s[..n + 38] == content[..n + 38];
    assert s[..|first|] == first;
    assert s[|first|] == '\n';
    assert s[n..n + 6] == "guid: ";
    assert s[n + 6..n + 38] == g;
    assert s[0] == first[0];
    assert !StartsAt(s, 0, "guid:") by {
      if 5 <= |s| {
        assert s[0..5][0] == s[0];
      }
    }
    forall k | 0 <= k < n ensures !GuidLineAt(s, k) {
      if k > 0 {
        assert s[k - 1] == first[k - 1];
        assert first[k - 1] in first;
      }
    }
    assert StartsAt(s, n, "guid:") by {
      assert s[n..n + 5] == s[n..n + 6][..5];
      assert s[n..n + 5] == "guid:";
    }
    assert s[n + 5] == ' ' && s[n + 6] == g[0];
    SkipSpaceTo(s, n + 5, n + 6);
    forall k | n + 6 <= k < n + 38 ensures IsLowerHex(s[k]) {
      assert s[k] == g[k - n - 6];
    }
    assert GuidAt(s, n) == Some(n + 6);
    assert GuidLineAt(s, n);
    FirstGuidAt(s, 0, n);
  }

  /** The search finds the first line-initial match. */
  lemma {:induction false} FirstGuidAt(s: string, i: nat, j: nat)
    requires i <= j <= |s| && GuidLineAt(s, j)
    requires forall k :: i <= k < j ==> !GuidLineAt(s, k)
    ensures FirstGuidFrom(s, i) == Some(j)
    decreases j - i
  {
    if i < j {
      FirstGuidAt(s, i + 1, j);
    }
  }

  /** `path + ".meta"`, the sidecar's path. */
  function MetaPath(path: string): string {
    path + ".meta"
  }

  /** The check chain for one entry: the scene must exist, then its
      sidecar, then the sidecar must declare the recorded GUID. A sidecar
      that is a directory cannot be read and counts as unreadable. */
  function ValidateEntry(root: Node, e: SceneEntry): Option<SceneMsg> {
    var path := ScenePath(e);
    if Resolve(root, path).None? then Some(SceneNotFound(path))
    else match Resolve(root, MetaPath(path))
      case None => Some(MetaMissing(path))
      case Some(meta) =>
        var found := if meta.File? then MetaFileGuid(meta.content) else None;
        match found
        case None => Some(GuidUnreadable(path))
        case Some(g) => if g != e.guid then Some(GuidMismatch(path, e.guid, g)) else None
  }

  /** The sidecar GUID an entry is checked against, when there is one. */
  function SidecarGuid(root: Node, path: string): Option<string> {
    match Resolve(root, MetaPath(path))
    case Some(File(_, content)) => MetaFileGuid(content)
    case _ => None
  }

  /** The outcome of one entry, case by case: at most one error, and the
      first failing step alone decides it. */
  lemma ValidateEntryCases(root: Node, e: SceneEntry)
    ensures var path := ScenePath(e);
      var r := ValidateEntry(root, e);
      && (Resolve(root, path).None? ==> r == Some(SceneNotFound(path)))
      && (Resolve(root, path).Some? && Resolve(root, MetaPath(path)).None? ==> r == Some(MetaMissing(path)))
      && (Resolve(root, path).Some? && Resolve(root, MetaPath(path)).Some? ==>
            match SidecarGuid(root, path)
            case None => r == Some(GuidUnreadable(path))
            case Some(g) => r == (if g == e.guid then None else Some(GuidMismatch(path, e.guid, g))))
  {
  }

  /** An entry passes exactly when its scene and sidecar exist and the
      sidecar declares the recorded GUID. */
  lemma ValidateEntryPasses(root: Node, e: SceneEntry)
    ensures ValidateEntry(root, e).None? <==>
      Resolve(root, ScenePath(e)).Some? && SidecarGuid(root, ScenePath(e)) == Some(e.guid)
  {
    ValidateEntryCases(root, e);
  }

  /** The enabled flag is never consulted. */
  lemma EnabledIgnored(root: Node, e: SceneEntry, flag: string)
    ensures ValidateEntry(root, e.(enabled := flag)) == ValidateEntry(root, e)
  {
  }

  // ----- The check -----

  const SettingsPath: Path := ["ProjectSettings", "EditorBuildSettings.asset"]
  const SettingsFile: string := "ProjectSettings/EditorBuildSettings.asset"

  /** The outcome of each entry, in manifest order. */
  function Verdicts(root: Node, es: seq<SceneEntry>): seq<Option<SceneMsg>>
  {
    MapSeq(Validator(root), es)
  }

  /** `ValidateEntry` against a fixed project tree. */
  function Validator(root: Node): SceneEntry -> Option<SceneMsg> {
    e => ValidateEntry(root, e)
  }

  /** One error finding per failed verdict, in order. */
  function Errors(vs: seq<Option<SceneMsg>>): (fs: seq<Finding<SceneMsg>>)
    ensures |fs| <= |vs|
    ensures forall i :: 0 <= i < |fs| ==> fs[i].level == Error && fs[i].file == SettingsFile
  {
    if vs == [] then []
    else
      (match vs[0]
       case None => []
       case Some(m) => [Finding(Error, SettingsFile, 0, m)])
      + Errors(vs[1..])
  }

  /** Failed verdicts, counted. */
  function Failures(vs: seq<Option<SceneMsg>>): nat {
    if vs == [] then 0 else (if vs[0].Some? then 1 else 0) + Failures(vs[1..])
  }

  /** One error per failed verdict, and an error exactly when some verdict
      failed. */
  lemma {:induction false} ErrorsCount(vs: seq<Option<SceneMsg>>)
    ensures |Errors(vs)| == Failures(vs)
    ensures Errors(vs) != [] <==> exists i :: 0 <= i < |vs| && vs[i].Some?
  {
    if vs != [] {
      ErrorsCount(vs[1..]);
      if exists i :: 0 <= i < |vs[1..]| && vs[1..][i].Some? {
        var i :| 0 <= i < |vs[1..]| && vs[1..][i].Some?;
        assert vs[i + 1].Some?;
      }
      if exists i :: 0 <= i < |vs| && vs[i].Some? {
        var i :| 0 <= i < |vs| && vs[i].Some?;
        if i > 0 {
          assert vs[1..][i - 1].Some?;
        }
      }
    }
  }

  /** The errors of entries `es`, in manifest order, one per failing
      entry. */
  function SceneFindings(root: Node, es: seq<SceneEntry>): (fs: seq<Finding<SceneMsg>>)
    ensures |fs| <= |es|
    ensures forall i :: 0 <= i < |fs| ==> fs[i].level == Error && fs[i].file == SettingsFile
  {
    Errors(Verdicts(root, es))
  }

  /** One error per failing entry, and an error exactly when some entry
      fails. */
  lemma SceneFindingsCount(root: Node, es: seq<SceneEntry>)
    ensures |SceneFindings(root, es)| == Failures(Verdicts(root, es))
    ensures SceneFindings(root, es) != [] <==> exists i :: 0 <= i < |es| && ValidateEntry(root, es[i]).Some?
  {
    var vs := Verdicts(root, es);
    ErrorsCount(vs);
    if exists i :: 0 <= i < |vs| && vs[i].Some? {
      var i :| 0 <= i < |vs| && vs[i].Some?;
      VerdictAt(root, es, i);
    }
    if exists i :: 0 <= i < |es| && ValidateEntry(root, es[i]).Some? {
      var i :| 0 <= i < |es| && ValidateEntry(root, es[i]).Some?;
      VerdictAt(root, es, i);
    }
  }

  /** The errors of a concatenation are the errors of each part, in
      order. */
  lemma {:induction false} ErrorsAppend(a: seq<Option<SceneMsg>>, b: seq<Option<SceneMsg>>)
    ensures Errors(a + b) == Errors(a) + Errors(b)
  {
    if a == [] {
      assert a + b == b;
    } else {
      assert (a + b)[0] == a[0];
      assert (a + b)[1..] == a[1..] + b;
      ErrorsAppend(a[1..], b);
    }
  }

  /** Verdict `i` is the outcome of entry `i`. */
  lemma VerdictAt(root: Node, es: seq<SceneEntry>, i: nat)
    requires i < |es|
    ensures |Verdicts(root, es)| == |es| && Verdicts(root, es)[i] == ValidateEntry(root, es[i])
  {
  }

  /** The verdicts of a concatenation are the verdicts of each part. */
  lemma VerdictsAppend(root: Node, es1: seq<SceneEntry>, es2: seq<SceneEntry>)
    ensures Verdicts(root, es1 + es2) == Verdicts(root, es1) + Verdicts(root, es2)
  {
    MapSeqAppend(Validator(root), es1, es2);
  }

  /** Entries are checked one after another: the findings of a manifest
      split in two are those of the first part followed by those of the
      second. */
  lemma SceneFindingsAppend(root: Node, es1: seq<SceneEntry>, es2: seq<SceneEntry>)
    ensures SceneFindings(root, es1 + es2) == SceneFindings(root, es1) + SceneFindings(root, es2)
  {
    VerdictsAppend(root, es1, es2);
    ErrorsAppend(Verdicts(root, es1), Verdicts(root, es2));
  }

  /** A single entry yields one error carrying its failure message, or
      nothing when it passes. */
  lemma SceneFindingsOne(root: Node, e: SceneEntry)
    ensures SceneFindings(root, [e]) ==
      match ValidateEntry(root, e)
      case None => []
      case Some(m) => [Finding(Error, SettingsFile, 0, m)]
  {
    var vs := Verdicts(root, [e]);
    assert vs == [ValidateEntry(root, e)];
    assert vs[1..] == [];
  }

  /** The entries of the build settings, or nothing when the file is
      missing. */
  function SceneEntries(root: Node): seq<SceneEntry> {
    match Lookup(root, SettingsPath)
    case Some(File(_, content)) => SceneBlocks(content)
    case _ => []
  }

  /** `check_scene_build_settings`: fatal without the settings file; a
      warning alone when it lists no scene; otherwise one error per
      failing entry. */
  function CheckSceneBuildSettings(root: Node): (o: Outcome<SceneMsg>)
    ensures o.Fatal? <==> !(Lookup(root, SettingsPath).Some? && Lookup(root, SettingsPath).value.File?)
  {
    match Lookup(root, SettingsPath)
    case Some(File(_, content)) =>
      var es := SceneBlocks(content);
      if es == [] then Done([Finding(Warning, SettingsFile, 0, NoScenes)])
      else Done(SceneFindings(root, es))
    case _ => Fatal
  }

  /** The exit status is 1 exactly when the settings file is missing or
      some listed scene fails its checks; an empty list passes. */
  lemma CheckExit(root: Node)
    ensures var o := CheckSceneBuildSettings(root);
      ExitCode(o) == 1 <==>
        o.Fatal? || exists i :: 0 <= i < |SceneEntries(root)| && ValidateEntry(root, SceneEntries(root)[i]).Some?
  {
    var o := CheckSceneBuildSettings(root);
    if o.Done? {
      var es := SceneEntries(root);
      SceneFindingsCount(root, es);
      if es != [] {
        var fs := SceneFindings(root, es);
        if fs != [] {
          assert fs[0].level == Error;
        }
      }
    }
  }

  /** An empty scene list yields exactly one warning and exit status 0. */
  lemma NoScenesPasses(root: Node)
    requires Lookup(root, SettingsPath).Some? && Lookup(root, SettingsPath).value.File?
    requires SceneEntries(root) == []
    ensures CheckSceneBuildSettings(root) == Done([Finding(Warning, SettingsFile, 0, NoScenes)])
    ensures ExitCode(CheckSceneBuildSettings(root)) == 0
  {
  }
}

=== FILE: tag_manager.dfy ===
/** The `ProjectSettings/TagManager.asset` reader of the layer check
    (ci/check_layer_consistency.py, `parse_tag_manager`): a fold over the
    stripped lines with three mode flags that collects physics layers,
    sorting layers and custom tags. */
module TagManager {
  import opened Text
  import opened FileTree

  /** `in_tags`, `in_layers`, `in_sorting`. */
  datatype Flags = Flags(inTags: bool, inLayers: bool, inSorting: bool)

  /** The three name sets the parser returns. */
  datatype Names = Names(layers: set<string>, sortingLayers: set<string>, tags: set<string>)

  datatype Parser = Parser(flags: Flags, names: Names)

  const Start := Parser(Flags(false, false, false), Names({}, {}, {}))

  /** No two section flags are set together. */
  predicate AtMostOne(f: Flags) {
    && (f.inTags ==> !f.inLayers && !f.inSorting)
    && (f.inLayers ==> !f.inSorting)
  }

  predicate IsTagsHeader(t: string) { StartsWith(t, "tags:") }
  predicate IsLayersHeader(t: string) { t == "layers:" }
  predicate IsSortingHeader(t: string) { t == "m_SortingLayers:" }
  predicate IsRenderingHeader(t: string) { StartsWith(t, "m_RenderingLayers:") }

  /** A stripped line the parser consumes as a section marker: it changes
      flags and skips every content rule. */
  predicate IsHeader(t: string) {
    IsTagsHeader(t) || IsLayersHeader(t) || IsSortingHeader(t) || IsRenderingHeader(t)
  }

  /** The value of a `- <value>` list item: what follows the dash and the
      space, stripped. */
  function Bullet(t: string): string
    requires StartsWith(t, "- ")
  {
    Strip(t[2..])
  }

  /** The last position in `[q, k)` not holding '\n', if any. */
  function LastNonNewline(t: string, q: nat, k: nat): (r: Option<nat>)
    requires q <= k <= |t|
    ensures r.Some? ==>
      (q <= r.value < k && t[r.value] != '\n' && forall j :: r.value < j < k ==> t[j] == '\n')
    ensures r.None? ==> forall j :: q <= j < k ==> t[j] == '\n'
    decreases k - q
  {
    if k == q then None
    else if t[k - 1] != '\n' then Some(k - 1)
    else LastNonNewline(t, q, k - 1)
  }

  /** Group 1 of `re.match(r"-\s*name:\s*(.+)", t)`. The first `\s*` has a
      single possible extent, since `name:` starts with a non-space. The
      second is greedy: when a character other than '\n' follows it, `.+`
      takes the run up to the next '\n'; when only whitespace follows
      `name:`, the engine gives back whitespace one character at a time
      until `.+` can take one character that is not '\n'. */
  function SortingLayerName(t: string): (r: Option<string>)
    ensures r.Some? ==> r.value != [] && '\n' !in r.value
  {
    if |t| == 0 || t[0] != '-' then None
    else
      var p := SkipSpace(t, 1);
      if !StartsAt(t, p, "name:") then None
      else
        var q := p + 5;
        var k := SkipSpace(t, q);
        if k < |t| then
          var e := FindChar(t, '\n', k);
          assert t[k] != '\n';
          Some(t[k..e])
        else
          match LastNonNewline(t, q, k)
          case Some(j) => Some([t[j]])
          case None => None
  }

  /** The three content rules, each in turn on the flags as they stand: a
      tags bullet, then the layers rule (which may close the section), then
      the sorting-layer rule. */
  function Content(p: Parser, t: string): Parser {
    var f := p.flags;
    var n := p.names;
    var tags :=
      if f.inTags && StartsWith(t, "- ") && Bullet(t) != [] then n.tags + {Bullet(t)} else n.tags;
    var layers :=
      if f.inLayers && StartsWith(t, "- ") && Bullet(t) != [] then n.layers + {Bullet(t)} else n.layers;
    var inLayers := f.inLayers && StartsWith(t, "-");
    var sorting :=
      if f.inSorting && SortingLayerName(t).Some? then n.sortingLayers + {Strip(SortingLayerName(t).value)}
      else n.sortingLayers;
    Parser(f.(inLayers := inLayers), Names(layers, sorting, tags))
  }

  /** One line of the loop: strip it, let a header set the flags and skip
      the rest, otherwise run the content rules. */
  function Step(p: Parser, line: string): Parser {
    var t := Strip(line);
    if IsTagsHeader(t) then p.(flags := Flags(!Contains(t, "[]"), false, false))
    else if IsLayersHeader(t) then p.(flags := Flags(false, true, false))
    else if IsSortingHeader(t) then p.(flags := Flags(false, false, true))
    else if IsRenderingHeader(t) then p.(flags := p.flags.(inSorting := false))
    else Content(p, t)
  }

  /** A step keeps at most one flag set. */
  lemma StepAtMostOne(p: Parser, line: string)
    requires AtMostOne(p.flags)
    ensures AtMostOne(Step(p, line).flags)
  {
  }

  /** The fold over the lines; at most one flag is set after every line. */
  function Run(p: Parser, lines: seq<string>): (r: Parser)
    requires AtMostOne(p.flags)
    ensures AtMostOne(r.flags)
    decreases |lines|
  {
    if lines == [] then p
    else
      StepAtMostOne(p, lines[0]);
      Run(Step(p, lines[0]), lines[1..])
  }

  /** `parse_tag_manager` on the file's text: `content.splitlines()` folded
      from all flags clear and all sets empty. */
  function Parse(content: string): Names {
    Run(Start, SplitLines(content)).names
  }

  /** `parse_tag_manager(root)`: nothing when the file is absent (the
      caller then exits 1), else the parsed sets. */
  function ParseTagManager(root: Node): (r: Option<Names>)
    ensures r.Some? <==>
      (Lookup(root, ["ProjectSettings", "TagManager.asset"]).Some?
       && Lookup(root, ["ProjectSettings", "TagManager.asset"]).value.File?)
    ensures r.Some? ==> r.value == Parse(Lookup(root, ["ProjectSettings", "TagManager.asset"]).value.content)
  {
    match Lookup(root, ["ProjectSettings", "TagManager.asset"])
    case Some(File(_, content)) => Some(Parse(content))
    case _ => None
  }

  // ----- Properties of one step -----

  /** A header line adds no name to any set. */
  lemma HeaderAddsNothing(p: Parser, line: string)
    requires IsHeader(Strip(line))
    ensures Step(p, line).names == p.names
  {
  }

  /** Each header sets its own flag and clears the others; the tags header
      sets nothing when the line holds `[]`. */
  lemma HeaderSetsFlags(p: Parser, line: string)
    ensures IsTagsHeader(Strip(line)) ==>
      Step(p, line).flags == Flags(!Contains(Strip(line), "[]"), false, false)
    ensures IsLayersHeader(Strip(line)) ==> Step(p, line).flags == Flags(false, true, false)
    ensures IsSortingHeader(Strip(line)) ==> Step(p, line).flags == Flags(false, false, true)
  {
    var t := Strip(line);
    if IsLayersHeader(t) || IsSortingHeader(t) {
      assert t[0] != 't';
    }
  }

  /** `m_RenderingLayers:` clears only the sorting flag and adds nothing. */
  lemma RenderingClearsOnlySorting(p: Parser, line: string)
    requires IsRenderingHeader(Strip(line))
    ensures Step(p, line) == p.(flags := p.flags.(inSorting := false))
  {
    var t := Strip(line);
    assert t[0] == 'm' && t[1] == '_' && t[2] == 'R';
    assert !IsTagsHeader(t);
  }

  /** In the layers section, a bare `-` (an unnamed slot) keeps the section
      open and changes nothing. */
  lemma BareDashKeepsLayers(p: Parser, line: string)
    requires AtMostOne(p.flags) && p.flags.inLayers && Strip(line) == "-"
    ensures Step(p, line) == p
  {
  }

  /** In the layers section, a line whose stripped text does not start with
      `-` closes the section, unless it is a header; even a blank line
      does. */
  lemma NonDashClosesLayers(p: Parser, line: string)
    requires p.flags.inLayers && !StartsWith(Strip(line), "-") && !IsHeader(Strip(line))
    ensures !Step(p, line).flags.inLayers
  {
  }

  /** In the layers section, `- <name>` adds the stripped name, when there
      is one, and keeps the section open. */
  lemma LayerBulletAdds(p: Parser, line: string)
    requires p.flags.inLayers && StartsWith(Strip(line), "- ")
    ensures Step(p, line).flags.inLayers
    ensures var b := Bullet(Strip(line));
      Step(p, line).names.layers == if b != [] then p.names.layers + {b} else p.names.layers
  {
    var t := Strip(line);
    DashNotHeader(t);
    assert Step(p, line) == Content(p, t);
  }

  /** A list item is never a section marker. */
  lemma DashNotHeader(t: string)
    requires StartsWith(t, "-")
    ensures !IsHeader(t)
  {
    assert t[0] == '-';
    assert t[0] != 't' && t[0] != 'l' && t[0] != 'm';
  }

  /** Outside the tags section, only a tags header can open it, and until
      then the tag set stays as it is. */
  lemma StepTagsClosed(p: Parser, line: string)
    requires !p.flags.inTags && !IsTagsHeader(Strip(line))
    ensures !Step(p, line).flags.inTags && Step(p, line).names.tags == p.names.tags
  {
  }

  // ----- Properties of the fold -----

  /** A `tags:` line holding `[]` leaves the tags section closed: no later
      line adds a tag until another tags header appears. */
  lemma {:induction false} EmptyTagsAddNothing(p: Parser, header: string, rest: seq<string>)
    requires AtMostOne(p.flags)
    requires IsTagsHeader(Strip(header)) && Contains(Strip(header), "[]")
    requires forall i :: 0 <= i < |rest| ==> !IsTagsHeader(Strip(rest[i]))
    ensures Run(p, [header] + rest).names.tags == p.names.tags
  {
    var q := Step(p, header);
    assert !q.flags.inTags && q.names.tags == p.names.tags;
    assert ([header] + rest)[1..] == rest;
    TagsStayClosed(q, rest);
  }

  lemma {:induction false} TagsStayClosed(p: Parser, lines: seq<string>)
    requires AtMostOne(p.flags) && !p.flags.inTags
    requires forall i :: 0 <= i < |lines| ==> !IsTagsHeader(Strip(lines[i]))
    ensures Run(p, lines).names.tags == p.names.tags
    decreases |lines|
  {
    if lines != [] {
      StepTagsClosed(p, lines[0]);
      StepAtMostOne(p, lines[0]);
      assert forall i :: 0 <= i < |lines[1..]| ==> !IsTagsHeader(Strip(lines[1..][i])) by {
        forall i | 0 <= i < |lines[1..]| ensures !IsTagsHeader(Strip(lines[1..][i])) {
          assert lines[1..][i] == lines[i + 1];
        }
      }
      TagsStayClosed(Step(p, lines[0]), lines[1..]);
    }
  }

  /** Every collected name is non-empty and has no surrounding whitespace. */
  predicate AllClean(n: Names) {
    && (forall x :: x in n.layers ==> Clean(x))
    && (forall x :: x in n.sortingLayers ==> Clean(x))
    && (forall x :: x in n.tags ==> Clean(x))
  }

  /** The sorting-layer rule adds a clean name: the group starts at a
      non-space character, so stripping cannot empty it. */
  lemma SortingNameClean(t: string)
    requires (t == [] || Clean(t)) && SortingLayerName(t).Some?
    ensures Clean(Strip(SortingLayerName(t).value))
  {
    var p := SkipSpace(t, 1);
    var k := SkipSpace(t, p + 5);
    assert k < |t|;
    var g := SortingLayerName(t).value;
    assert g[0] == t[k];
    StripNonEmpty(g, 0);
  }

  lemma ContentKeepsClean(p: Parser, t: string)
    requires AllClean(p.names) && (t == [] || Clean(t))
    ensures AllClean(Content(p, t).names)
  {
    if p.flags.inSorting && SortingLayerName(t).Some? {
      SortingNameClean(t);
    }
  }

  /** One line adds only stripped, non-empty names. */
  lemma StepKeepsClean(p: Parser, line: string)
    requires AllClean(p.names)
    ensures AllClean(Step(p, line).names)
  {
    var t := Strip(line);
    if !IsHeader(t) {
      ContentKeepsClean(p, t);
      assert Step(p, line) == Content(p, t);
    }
  }

  lemma {:induction false} RunKeepsClean(p: Parser, lines: seq<string>)
    requires AtMostOne(p.flags) && AllClean(p.names)
    ensures AllClean(Run(p, lines).names)
    decreases |lines|
  {
    if lines != [] {
      StepKeepsClean(p, lines[0]);
      StepAtMostOne(p, lines[0]);
      RunKeepsClean(Step(p, lines[0]), lines[1..]);
    }
  }

  /** Every name `parse_tag_manager` returns is non-empty and stripped. */
  lemma ParsedNamesClean(content: string)
    ensures AllClean(Parse(content))
  {
    RunKeepsClean(Start, SplitLines(content));
  }

  // ----- The same parser with one section mode -----

  /** Which section the parser is in; sound because at most one flag is
      ever set. */
  datatype Mode = Outside | InTags | InLayers | InSorting

  function ModeOf(f: Flags): Mode
    requires AtMostOne(f)
  {
    if f.inTags then InTags else if f.inLayers then InLayers
    else if f.inSorting then InSorting else Outside
  }

  datatype ModeParser = ModeParser(mode: Mode, names: Names)

  /** The parser as a single-mode machine: each header enters its section,
      `m_RenderingLayers:` leaves only the sorting section, and content
      lines act on the current section alone. */
  function ModeStep(m: ModeParser, line: string): ModeParser {
    var t := Strip(line);
    var n := m.names;
    if IsTagsHeader(t) then m.(mode := if Contains(t, "[]") then Outside else InTags)
    else if IsLayersHeader(t) then m.(mode := InLayers)
    else if IsSortingHeader(t) then m.(mode := InSorting)
    else if IsRenderingHeader(t) then m.(mode := if m.mode == InSorting then Outside else m.mode)
    else match m.mode
      case Outside => m
      case InTags =>
        if StartsWith(t, "- ") && Bullet(t) != [] then m.(names := n.(tags := n.tags + {Bullet(t)})) else m
      case InLayers =>
        if StartsWith(t, "- ") then
          if Bullet(t) != [] then m.(names := n.(layers := n.layers + {Bullet(t)})) else m
        else if StartsWith(t, "-") then m
        else m.(mode := Outside)
      case InSorting =>
        match SortingLayerName(t)
        case Some(g) => m.(names := n.(sortingLayers := n.sortingLayers + {Strip(g)}))
        case None => m
  }

  function ModeRun(m: ModeParser, lines: seq<string>): ModeParser
    decreases |lines|
  {
    if lines == [] then m else ModeRun(ModeStep(m, lines[0]), lines[1..])
  }

  /** The three-flag step and the single-mode step agree. */
  lemma StepRefines(p: Parser, line: string)
    requires AtMostOne(p.flags)
    ensures ModeStep(ModeParser(ModeOf(p.flags), p.names), line)
      == ModeParser(ModeOf(Step(p, line).flags), Step(p, line).names)
  {
    if IsHeader(Strip(line)) {
      HeaderRefines(p, line);
    } else {
      ContentRefines(p, line);
    }
  }

  /** On a header line, the flag parser and the mode parser agree. */
  lemma HeaderRefines(p: Parser, line: string)
    requires AtMostOne(p.flags) && IsHeader(Strip(line))
    ensures ModeStep(ModeParser(ModeOf(p.flags), p.names), line)
      == ModeParser(ModeOf(Step(p, line).flags), Step(p, line).names)
  {
    StepAtMostOne(p, line);
  }

  /** On a content line, the flag parser and the mode parser agree. */
  lemma ContentRefines(p: Parser, line: string)
    requires AtMostOne(p.flags) && !IsHeader(Strip(line))
    ensures ModeStep(ModeParser(ModeOf(p.flags), p.names), line)
      == ModeParser(ModeOf(Step(p, line).flags), Step(p, line).names)
  {
    StepAtMostOne(p, line);
    var t := Strip(line);
    assert Step(p, line) == Content(p, t);
    if StartsWith(t, "- ") {
      assert StartsWith(t, "-");
    }
  }

  /** The three-flag fold and the single-mode fold agree on every input. */
  lemma {:induction false} RunRefines(p: Parser, lines: seq<string>)
    requires AtMostOne(p.flags)
    ensures ModeRun(ModeParser(ModeOf(p.flags), p.names), lines)
      == ModeParser(ModeOf(Run(p, lines).flags), Run(p, lines).names)
    decreases |lines|
  {
    if lines != [] {
      StepRefines(p, lines[0]);
      StepAtMostOne(p, lines[0]);
      RunRefines(Step(p, lines[0]), lines[1..]);
    }
  }
}

=== FILE: text.dfy ===
/** Text primitives shared by the four checks: Python's notion of whitespace,
    prefix/suffix tests, `str.strip`, `str.split`/join, text-mode line reading,
    `str.splitlines`, and ASCII lower-casing. Strings are `seq<char>` holding
    the text Python sees after decoding and newline translation. */
module Text {

  datatype Option<T> = None | Some(value: T)

  /** `str.isspace`, which is also what `\s` matches in a `str` regex. */
  predicate IsSpace(c: char) {
    || c == ' '
    || ('\t' <= c <= '\r')
    || ('\U{1C}' <= c <= '\U{1F}')
    || c == '\U{85}' || c == '\U{A0}' || c == '\U{1680}'
    || ('\U{2000}' <= c <= '\U{200A}')
    || c == '\U{2028}' || c == '\U{2029}' || c == '\U{202F}'
    || c == '\U{205F}' || c == '\U{3000}'
  }

  /** The characters at which `str.splitlines` breaks a line. */
  predicate IsLineBreak(c: char) {
    || c == '\n' || c == '\r' || c == '\U{0B}' || c == '\U{0C}'
    || c == '\U{1C}' || c == '\U{1D}' || c == '\U{1E}'
    || c == '\U{85}' || c == '\U{2028}' || c == '\U{2029}'
  }

  predicate IsLowerHex(c: char) {
    ('0' <= c <= '9') || ('a' <= c <= 'f')
  }

  predicate IsAsciiDigit(c: char) {
    '0' <= c <= '9'
  }

  predicate StartsWith(s: string, prefix: string) {
    |prefix| <= |s| && s[..|prefix|] == prefix
  }

  predicate EndsWith(s: string, suffix: string) {
    |suffix| <= |s| && s[|s| - |suffix|..] == suffix
  }

  /** `lit` occurs in `s` beginning at index `i`. */
  predicate StartsAt(s: string, i: nat, lit: string) {
    i + |lit| <= |s| && s[i..i + |lit|] == lit
  }

  /** Python's `t in s` for strings. */
  predicate Contains(s: string, t: string) {
    exists i :: 0 <= i <= |s| - |t| && StartsAt(s, i, t)
  }

  /** Index of the first non-whitespace character at or after `i`: how far a
      greedy `\s*` reaches. */
  function SkipSpace(s: string, i: nat): (r: nat)
    requires i <= |s|
    ensures i <= r <= |s|
    ensures forall k :: i <= k < r ==> IsSpace(s[k])
    ensures r == |s| || !IsSpace(s[r])
    decreases |s| - i
  {
    if i < |s| && IsSpace(s[i]) then SkipSpace(s, i + 1) else i
  }

  function TrimLeft(s: string): (r: string)
    ensures |r| <= |s| && r == s[|s| - |r|..]
    ensures forall k :: 0 <= k < |s| - |r| ==> IsSpace(s[k])
    ensures r == [] || !IsSpace(r[0])
  {
    s[SkipSpace(s, 0)..]
  }

  function TrimRight(s: string): (r: string)
    ensures |r| <= |s| && r == s[..|r|]
    ensures forall k :: |r| <= k < |s| ==> IsSpace(s[k])
    ensures r == [] || !IsSpace(r[|r| - 1])
  {
    if s != [] && IsSpace(s[|s| - 1]) then TrimRight(s[..|s| - 1]) else s
  }

  /** A string with nothing to strip: non-empty, no whitespace at either end. */
  predicate Clean(s: string) {
    s != [] && !IsSpace(s[0]) && !IsSpace(s[|s| - 1])
  }

  /** A line ended by `\n` or `\r\n` comes out alone, without its break. */
  lemma SplitLinesBreak(a: string, br: string, b: string)
    requires forall k :: 0 <= k < |a| ==> !IsLineBreak(a[k])
    requires br == "\n" || br == "\r\n"
    ensures SplitLines(a + br + b) == [a] + SplitLines(b)
  {
    var s := a + br + b;
    assert s[|a|] == br[0];
    assert forall k :: 0 <= k < |a| ==> s[k] == a[k];
    var k := NextBreak(s, 0);
    assert k == |a|;
    assert s[..k] == a;
    assert s[|a| + |br|..] == b;
  }

  /** A last line without a break comes out whole. */
  lemma SplitLinesLast(a: string)
    requires a != [] && forall k :: 0 <= k < |a| ==> !IsLineBreak(a[k])
    ensures SplitLines(a) == [a]
  {
    assert NextBreak(a, 0) == |a|;
  }

  /** `r` is `s` with a whitespace run of length `a` removed in front and
      one removed behind. */
  predicate TrimmedAt(s: string, r: string, a: nat) {
    && a + |r| <= |s|
    && r == s[a..a + |r|]
    && (forall k :: 0 <= k < a ==> IsSpace(s[k]))
    && (forall k :: a + |r| <= k < |s| ==> IsSpace(s[k]))
  }

  /** `str.strip()`: what is left once the whitespace runs at both ends are
      removed. */
  function Strip(s: string): (r: string)
    ensures r == [] || Clean(r)
  {
    var t := TrimLeft(s);
    var r := TrimRight(t);
    assert r != [] ==> r[0] == t[0];
    r
  }

  /** What `Strip` removes is whitespace at the two ends, and only that. */
  lemma StripTrimmed(s: string)
    ensures exists a :: TrimmedAt(s, Strip(s), a)
  {
    var t := TrimLeft(s);
    var r := TrimRight(t);
    var a := |s| - |t|;
    assert r == s[a..a + |r|];
    assert forall k :: a + |r| <= k < |s| ==> s[k] == t[k - a] && IsSpace(s[k]);
    assert Strip(s) == r;
    assert TrimmedAt(s, Strip(s), a);
  }

  lemma {:induction false} StripOfClean(s: string)
    requires Clean(s)
    ensures Strip(s) == s
  {
    assert SkipSpace(s, 0) == 0;
    assert TrimLeft(s) == s;
  }

  /** Stripping keeps every non-whitespace character, so it cannot empty a
      string that has one. */
  lemma StripNonEmpty(s: string, k: nat)
    requires k < |s| && !IsSpace(s[k])
    ensures Strip(s) != []
  {
    StripTrimmed(s);
    var a :| TrimmedAt(s, Strip(s), a);
  }

  /** Stripping removes exactly the whitespace around a clean core. */
  lemma StripUnique(s: string, c: string, a: nat)
    requires Clean(c) && TrimmedAt(s, c, a)
    ensures Strip(s) == c
  {
    assert s[a] == c[0];
    StripNonEmpty(s, a);
    var r := Strip(s);
    StripTrimmed(s);
    var b: nat :| TrimmedAt(s, r, b);
    assert s[b] == r[0];
    assert s[a + |c| - 1] == c[|c| - 1] && s[b + |r| - 1] == r[|r| - 1];
  }

  /** `SkipSpace` stops at the first non-space. */
  lemma SkipSpaceTo(s: string, i: nat, j: nat)
    requires i <= j <= |s|
    requires forall k :: i <= k < j ==> IsSpace(s[k])
    requires j == |s| || !IsSpace(s[j])
    ensures SkipSpace(s, i) == j
    decreases j - i
  {
    if i < j {
      SkipSpaceTo(s, i + 1, j);
    }
  }

  /** Stripping twice strips nothing more. */
  lemma StripIdempotent(s: string)
    ensures Strip(Strip(s)) == Strip(s)
  {
    if Strip(s) != [] {
      StripOfClean(Strip(s));
    }
  }

  function LowerChar(c: char): char {
    if 'A' <= c <= 'Z' then (c as int + 32) as char else c
  }

  /** `str.lower()` restricted to ASCII letters. */
  function Lower(s: string): (r: string)
    ensures |r| == |s|
    ensures forall k :: 0 <= k < |r| ==> !('A' <= r[k] <= 'Z')
    ensures forall k :: 0 <= k < |r| ==> (r[k] == s[k] <==> !('A' <= s[k] <= 'Z'))
  {
    seq(|s|, k requires 0 <= k < |s| => LowerChar(s[k]))
  }

  /** `s.replace(a, b)` for single characters. */
  function ReplaceChar(s: string, a: char, b: char): string
  {
    seq(|s|, k requires 0 <= k < |s| => if s[k] == a then b else s[k])
  }

  /** Index of the first `c` at or after `i`, or `|s|` when there is none. */
  function FindChar(s: string, c: char, i: nat): (r: nat)
    requires i <= |s|
    ensures i <= r <= |s|
    ensures forall k :: i <= k < r ==> s[k] != c
    ensures r < |s| ==> s[r] == c
    decreases |s| - i
  {
    if i == |s| || s[i] == c then i else FindChar(s, c, i + 1)
  }

  /** `s[i..].split(sep)` for a one-character separator. */
  function SplitFrom(s: string, sep: char, i: nat): (parts: seq<string>)
    requires i <= |s|
    ensures |parts| >= 1
    decreases |s| - i
  {
    var k := FindChar(s, sep, i);
    if k == |s| then [s[i..]] else [s[i..k]] + SplitFrom(s, sep, k + 1)
  }

  /** `s.split(sep)` for a one-character separator. */
  function Split(s: string, sep: char): seq<string> {
    SplitFrom(s, sep, 0)
  }

  /** `sep.join(parts)`. */
  function Join(parts: seq<string>, sep: string): string {
    if |parts| == 0 then ""
    else if |parts| == 1 then parts[0]
    else parts[0] + sep + Join(parts[1..], sep)
  }

  lemma {:induction false} JoinSplitFrom(s: string, sep: char, i: nat)
    requires i <= |s|
    ensures Join(SplitFrom(s, sep, i), [sep]) == s[i..]
    decreases |s| - i
  {
    var k := FindChar(s, sep, i);
    if k < |s| {
      JoinSplitFrom(s, sep, k + 1);
      assert s[i..] == s[i..k] + [sep] + s[k + 1..];
    }
  }

  /** Splitting and joining back on the same separator gives the text back. */
  lemma JoinSplit(s: string, sep: char)
    ensures Join(Split(s, sep), [sep]) == s
  {
    JoinSplitFrom(s, sep, 0);
  }

  /** `a..b` delimits one field of `s[i..]` split on `sep`: separators (or
      the ends of `s[i..]`) on both sides and none inside. */
  predicate IsFieldFrom(s: string, sep: char, i: nat, a: nat, b: nat) {
    && i <= a <= b <= |s|
    && (a == i || s[a - 1] == sep)
    && (b == |s| || s[b] == sep)
    && forall k :: a <= k < b ==> s[k] != sep
  }

  predicate IsField(s: string, sep: char, a: nat, b: nat) {
    IsFieldFrom(s, sep, 0, a, b)
  }

  lemma {:induction false} FieldIsPartFrom(s: string, sep: char, i: nat, a: nat, b: nat)
    requires IsFieldFrom(s, sep, i, a, b)
    ensures s[a..b] in SplitFrom(s, sep, i)
    decreases |s| - i
  {
    var k := FindChar(s, sep, i);
    if a == i {
      assert b == k;
      assert SplitFrom(s, sep, i)[0] == s[a..b];
    } else {
      assert a - 1 >= k;
      FieldIsPartFrom(s, sep, k + 1, a, b);
    }
  }

  /** A field of `s` is exactly an element of `Split(s, sep)`. */
  lemma FieldIsPart(s: string, sep: char, a: nat, b: nat)
    requires IsField(s, sep, a, b)
    ensures s[a..b] in Split(s, sep)
  {
    FieldIsPartFrom(s, sep, 0, a, b);
  }

  lemma {:induction false} PartIsFieldFrom(s: string, sep: char, i: nat, j: nat) returns (a: nat)
    requires i <= |s| && j < |SplitFrom(s, sep, i)|
    ensures var p := SplitFrom(s, sep, i)[j];
      a + |p| <= |s| && IsFieldFrom(s, sep, i, a, a + |p|) && s[a..a + |p|] == p
    decreases |s| - i
  {
    var k := FindChar(s, sep, i);
    if j == 0 {
      a := i;
    } else {
      a := PartIsFieldFrom(s, sep, k + 1, j - 1);
    }
  }

  /** Every element of `Split(s, sep)` is a field of `s`. */
  lemma PartIsField(s: string, sep: char, j: nat) returns (a: nat)
    requires j < |Split(s, sep)|
    ensures var p := Split(s, sep)[j];
      a + |p| <= |s| && IsField(s, sep, a, a + |p|) && s[a..a + |p|] == p
  {
    a := PartIsFieldFrom(s, sep, 0, j);
  }

  /** One `readline()` in text mode: up to and including the first `\n`. */
  function ReadLine(s: string): (r: string)
    ensures |r| <= |s| && r == s[..|r|]
    ensures s != [] ==> r != []
    ensures forall k :: 0 <= k < |r| - 1 ==> r[k] != '\n'
    ensures |r| < |s| ==> r[|r| - 1] == '\n'
  {
    var k := FindChar(s, '\n', 0);
    if k == |s| then s else s[..k + 1]
  }

  /** Text-mode line iteration (`for line in f`, `f.readlines()`): each line
      keeps its terminating `\n`. */
  function ReadLines(s: string): (lines: seq<string>)
    ensures forall k :: 0 <= k < |lines| ==> lines[k] != []
    decreases |s|
  {
    if s == [] then [] else
      var l := ReadLine(s);
      [l] + ReadLines(s[|l|..])
  }

  function Concat(ss: seq<string>): string {
    if ss == [] then "" else ss[0] + Concat(ss[1..])
  }

  /** Reading a text line by line loses nothing. */
  lemma {:induction false} ReadLinesConcat(s: string)
    ensures Concat(ReadLines(s)) == s
    decreases |s|
  {
    if s != [] {
      var l := ReadLine(s);
      var rest := ReadLines(s[|l|..]);
      ReadLinesConcat(s[|l|..]);
      assert ([l] + rest)[1..] == rest;
      assert Concat(ReadLines(s)) == l + Concat(rest);
      assert s == l + s[|l|..];
    }
  }

  /** Where the next `str.splitlines` break starts, or `|s|`. */
  function NextBreak(s: string, i: nat): (r: nat)
    requires i <= |s|
    ensures i <= r <= |s|
    ensures forall k :: i <= k < r ==> !IsLineBreak(s[k])
    ensures r < |s| ==> IsLineBreak(s[r])
    decreases |s| - i
  {
    if i == |s| || IsLineBreak(s[i]) then i else NextBreak(s, i + 1)
  }

  /** `str.splitlines()`: line-break characters dropped, `\r\n` one break,
      no empty line after a final break. */
  function SplitLines(s: string): (lines: seq<string>)
    ensures forall k, j :: 0 <= k < |lines| && 0 <= j < |lines[k]| ==> !IsLineBreak(lines[k][j])
    decreases |s|
  {
    if s == [] then [] else
      var k := NextBreak(s, 0);
      if k == |s| then [s]
      else
        var next := if s[k] == '\r' && k + 1 < |s| && s[k + 1] == '\n' then k + 2 else k + 1;
        [s[..k]] + SplitLines(s[next..])
  }
}
